=== FILE: README.md ===
# Snooker club booking and admin logic, modelled in Dafny

This project models the client-side rules of the AHS Snooker Club web
application: the public table-booking form, tournament registration, the
contact form and landing page, and the admin panel (bookings, pricing plans,
tournaments, gallery, hero slideshow, messages, dashboard, settings, demo
login and first-admin setup).

The remote database, the query cache and the rendering are stripped away:
- Each table is a `seq` of immutable row records, with `Option` for nullable
  columns.
- Each query or mutation is a pure function over those rows.
- Each component handler is a function from the component's state, plus the
  answers of the remote calls it awaits, to the next state.
- Calendar dates are abstract day numbers. "Today", "now" and the current
  month's bounds are parameters.

One module per source file:

| module | source |
|---|---|
| `Bookings` | row shapes, fixed slots and tables, and the mutations of `src/hooks/useBookings.ts` |
| `BookingSection` | the availability rule, slot and table pickers, selection resets, and submit with its error classification |
| `AdminBookings` | search, filters, the newest-first stable sort, status actions, and stat counters |
| `AdminPricing` | the plan editor and its feature list |
| `Tournaments` | tournament row shapes |
| `AdminTournaments` | the tournament editor |
| `TournamentsSection` | registration schema, input caps, and the dialog |
| `Gallery` | the gallery row and its insert |
| `AdminGallery` | adding images |
| `GallerySection` | the public gallery and lightbox |
| `AdminSlideshow` | the hero slideshow manager |
| `AdminMessages` | the contact inbox |
| `AdminDashboard` | the overview cards |
| `ClubSettings` | the settings row and its update |
| `AdminSettings` | the settings page |
| `ContactSection` | WhatsApp link and contact form |
| `HeroSection` | the landing carousel |
| `AdminAuth` | demo login |
| `AdminSetup` | first-admin setup |

Shared modules:
- `Wrappers`: `Option`.
- `Seqs`: `filter` and `some` with their lemmas.
- `Text`: digit filtering and the numeric-input sanitiser, decimal rendering, JavaScript `trim`, ASCII `toLowerCase`, `includes`, and `split(sep).pop()`.

## Model

| member | source | states |
|---|---|---|
| Bookings.TimeSlotsAreHourly | src/hooks/useBookings.ts:33-47 | there are 13 slot labels, and label i is the 12-hour label of hour 10+i: from "10:00 AM" to "10:00 PM", ascending |
| Bookings.TimeSlotsDistinct | src/hooks/useBookings.ts:33-47 | no slot label occurs twice |
| Bookings.TablesAreOneToSix | src/hooks/useBookings.ts:49 | the tables are exactly 1..6, in increasing order |
| Bookings.CreateBooking | src/hooks/useBookings.ts:127-130 | the new row is appended with status confirmed whatever the caller sent; id and timestamps are not the caller's; earlier rows are kept |
| Bookings.UpdateBooking | src/hooks/useBookings.ts:148-151 | rows with the given id get exactly the supplied fields; every other row and every id is unchanged |
| Bookings.ApplyPatch | src/hooks/useBookings.ts:148-151 | each present field of the patch replaces the stored one; absent fields and the id stay |
| Bookings.UpdateStatusIdempotent | src/hooks/useBookings.ts:148-151 | writing a status the row already has leaves the table unchanged |
| Bookings.DeleteBooking | src/hooks/useBookings.ts:171 | the result holds exactly the rows whose id differs; with no matching id the table is unchanged |
| Bookings.CreateThenDelete | src/hooks/useBookings.ts:127-171 | deleting a just-created booking by its fresh id restores the table exactly |
| Bookings.BookingsOn | src/hooks/useBookings.ts:75-79 | with a date, exactly the rows of that date, each as often as fetched; without one, all rows |
| Bookings.BlockedSlotsOn | src/hooks/useBookings.ts:109-113 | with a date, exactly the blocked rows of that date, each as often as fetched; without one, all rows |
| Bookings.CreateBlockedSlot | src/hooks/useBookings.ts:185-188 | the new blocked row carries the request's date, slot, table and reason; earlier rows are kept |
| Bookings.DeleteBlockedSlot | src/hooks/useBookings.ts:206 | exactly the blocked rows with a different id remain |
| Bookings.CreateThenDeleteBlockedSlot | src/hooks/useBookings.ts:185-206 | deleting a just-created blocked slot by its fresh id restores the rows |
| BookingSection.IsSlotBooked | src/components/BookingSection.tsx:30-34 | booked iff the bookings have loaded and one of them has this slot, this table and status confirmed |
| BookingSection.IsSlotBlocked | src/components/BookingSection.tsx:36-42 | blocked iff a loaded blocked row has a null-or-equal slot and a null-or-equal table |
| BookingSection.IsSlotAvailable | src/components/BookingSection.tsx:44-46 | available iff neither booked nor blocked, i.e. no confirmed booking and no covering row in the loaded lists |
| BookingSection.NothingLoadedAllAvailable | src/components/BookingSection.tsx:30-46 | with neither list loaded, every pair is available |
| BookingSection.UnconfirmedNeverOccupies | src/components/BookingSection.tsx:30-34 | adding a cancelled or completed booking never changes whether any pair is booked |
| BookingSection.WholeDayBlock | src/components/BookingSection.tsx:36-42 | a blocked row with null slot and null table makes all 13 x 6 pairs unavailable |
| BookingSection.TableBlockedAllDay | src/components/BookingSection.tsx:36-46 | a row blocking table 2 with a null slot makes a pair unavailable iff its table is 2 |
| BookingSection.AvailableTablesForSlot | src/components/BookingSection.tsx:48-50 | the result holds exactly the available tables, strictly increasing (table order, no duplicates), at most 6 |
| BookingSection.OneBookingLeavesFiveTables | src/components/BookingSection.tsx:30-50 | one confirmed booking of table 3 at 5 PM leaves exactly tables [1,2,4,5,6] free at that slot |
| BookingSection.StrictlySameElements | src/components/BookingSection.tsx:48-50 | two strictly increasing lists with the same elements are equal, so the free-table list is determined by the availability rule |
| BookingSection.SlotPicker | src/components/BookingSection.tsx:210-234 | one button per slot in slot order; its count equals the number of tables available at that slot; disabled iff no table is available there |
| BookingSection.FreeTableCount | src/components/BookingSection.tsx:211-234 | the free-table list of a slot is as long as the set of tables available there |
| BookingSection.TablePicker | src/components/BookingSection.tsx:254-263 | one button per table in order, disabled iff that pair is not available |
| BookingSection.ChooseDate | src/components/BookingSection.tsx:183-187 | picking a date clears the slot and the table and keeps the contact fields |
| BookingSection.ChooseDateClearsSelection | src/components/BookingSection.tsx:183-187 | after a date change no selected table is left that could be unavailable on the new date |
| BookingSection.ChooseSlot | src/components/BookingSection.tsx:219-223 | a slot with no free table is disabled (nothing changes); otherwise the slot is selected, the table cleared, and every other field (date, contact fields, confirmation flag) kept |
| BookingSection.ChooseTable | src/components/BookingSection.tsx:243-263 | a table can be chosen only with a slot selected and the pair available; otherwise nothing changes |
| BookingSection.ChooseSlotKeepsSelectionConsistent | src/components/BookingSection.tsx:219-223 | choosing a slot never leaves a selected table that is unavailable at the selected slot |
| BookingSection.ChooseTableKeepsSelectionConsistent | src/components/BookingSection.tsx:262-263 | choosing a table keeps every selected table available at the selected slot |
| BookingSection.MissingInformation | src/components/BookingSection.tsx:55-62 | a form is complete iff it has a date, a slot, a non-null non-zero table, a name and a phone; table 0 counts as missing |
| BookingSection.Submit | src/components/BookingSection.tsx:55-72 | rejected with "Missing Information" and no insert iff date, slot, table (null or 0), name or phone is falsy; otherwise the insert carries exactly the form's values and null notes |
| BookingSection.ClassifyInsertError | src/components/BookingSection.tsx:84-98 | "Slot Already Booked" iff the error message contains "unique_booking"; any other error, or none, gives "Booking Failed" |
| BookingSection.AfterInsert | src/components/BookingSection.tsx:64-98 | success shows the confirmation and keeps the form; a failure keeps the form and shows the classified toast |
| BookingSection.ConfirmationElapsed | src/components/BookingSection.tsx:77-83 | the delayed reset clears slot, table, name and phone and keeps the date, so the form is incomplete again |
| BookingSection.SubmittedBookingOccupiesPair | src/components/BookingSection.tsx:55-72 | once a submitted booking is inserted, the re-fetched day shows its pair booked and unavailable |
| AdminBookings.InsertByDate | src/components/admin/AdminBookings.tsx:53-55 | one insertion step adds exactly that booking to the list, one longer, with the same bookings otherwise |
| AdminBookings.InsertByDateSorted | src/components/admin/AdminBookings.tsx:53-55 | inserting into a newest-first list keeps it newest-first |
| AdminBookings.SortByDateDesc | src/components/admin/AdminBookings.tsx:53-55 | the result is a permutation of the input, ordered by booking date, latest first |
| AdminBookings.SortByDateDescStable | src/components/admin/AdminBookings.tsx:53-55 | the sort is stable: the bookings of any one date keep their fetched order |
| AdminBookings.SortByDateDescKeepsSorted | src/components/admin/AdminBookings.tsx:53-55 | sorting a list already newest-first changes nothing |
| AdminBookings.MatchesSearch | src/components/admin/AdminBookings.tsx:26-33 | an empty query matches everything; otherwise a booking matches iff the lower-cased query occurs in the lower-cased name or in the phone number as stored |
| AdminBookings.MatchesFilter | src/components/admin/AdminBookings.tsx:36-50 | "all" keeps everything, "today" the bookings dated today, "confirmed" and "cancelled" that status; "upcoming" keeps a booking iff now is not after its date's UTC midnight, so a later-dated booking is upcoming while the current UTC day lasts |
| AdminBookings.FilterBookings | src/components/admin/AdminBookings.tsx:21-56 | nothing before load; afterwards each booking passing the search and the filter, as often as it was fetched, and no other; newest first |
| AdminBookings.ShowAllIsPermutation | src/components/admin/AdminBookings.tsx:21-56 | an empty query with filter "all" shows every fetched booking, only reordered |
| AdminBookings.StatusFilterExact | src/components/admin/AdminBookings.tsx:44-49 | filters "confirmed" and "cancelled" keep a booking iff it has that status |
| AdminBookings.UpcomingSkipsTodayAfterMidnight | src/components/admin/AdminBookings.tsx:41-42 | "upcoming" compares UTC midnight of the date with now, so a booking dated today is not upcoming once that day has begun |
| AdminBookings.OfferedActions | src/components/admin/AdminBookings.tsx:239-269 | confirmed offers complete and cancel, cancelled offers reconfirm, completed offers nothing |
| AdminBookings.Target | src/components/admin/AdminBookings.tsx:58-71 | complete writes completed, cancel writes cancelled, reconfirm writes confirmed, one to one |
| AdminBookings.ApplyAction | src/components/admin/AdminBookings.tsx:58-71 | the row with that id gets the action's status; every other row is unchanged |
| AdminBookings.ActionToast | src/components/admin/AdminBookings.tsx:58-71 | the toast after an action names exactly the status the action writes |
| AdminBookings.OfferedActionsChangeStatus | src/components/admin/AdminBookings.tsx:239-269 | every offered action changes the status, and completed bookings can never be changed again |
| AdminBookings.CancelThenReconfirm | src/components/admin/AdminBookings.tsx:58-66 | cancelling a confirmed booking and then reconfirming it restores the table |
| AdminBookings.ComputeStats | src/components/admin/AdminBookings.tsx:136-158 | total is the row count; today equals the number of positions dated today; confirmed and cancelled equal the occurrences of those statuses; confirmed + cancelled <= total; all 0 before load |
| AdminBookings.TodayPositions | src/components/admin/AdminBookings.tsx:143 | the "today" list is as long as the set of positions dated today |
| AdminBookings.StatusCount | src/components/admin/AdminBookings.tsx:149-155 | filtering by a status keeps as many rows as that status occurs in the table |
| AdminPricing.ResetForm | src/components/admin/AdminPricing.tsx:38-51 | resetting gives an empty title, price 0, one blank feature, active, not popular, sort order 0; the form is closed and nothing is being edited |
| AdminPricing.PriceInput | src/components/admin/AdminPricing.tsx:170-173 | the price becomes the decimal value of the typed digits (0 if none); nothing else changes |
| AdminPricing.PriceRoundTrip | src/components/admin/AdminPricing.tsx:169-173 | re-reading the text the price field shows gives the same price |
| AdminPricing.AddFeature | src/components/admin/AdminPricing.tsx:109-111 | one blank row is appended and the existing rows are unchanged |
| AdminPricing.UpdateFeature | src/components/admin/AdminPricing.tsx:113-117 | only row i changes; the length and every other row stay |
| AdminPricing.RemoveFeature | src/components/admin/AdminPricing.tsx:119-122 | row i is removed and the others shift up; an emptied list becomes [""], so the list is never empty |
| AdminPricing.RemoveAfterAdd | src/components/admin/AdminPricing.tsx:109-122 | adding a row and removing it again restores the list |
| AdminPricing.CleanFeatures | src/components/admin/AdminPricing.tsx:59 | a feature is kept iff it has a non-whitespace character |
| AdminPricing.CleanFeaturesKeepsOrder | src/components/admin/AdminPricing.tsx:59 | cleaning distributes over concatenation, so the relative order is preserved |
| AdminPricing.Submit | src/components/admin/AdminPricing.tsx:53-74 | rejected iff the title is empty or the price is 0; otherwise the form with cleaned features goes out as an update of the edited id, or as a new plan |
| AdminPricing.AfterSubmit | src/components/admin/AdminPricing.tsx:61-76 | a completed mutation resets the editor; a rejected one leaves it |
| AdminPricing.HandleEdit | src/components/admin/AdminPricing.tsx:79-91 | loading a plan maps empty features to [""], null active to true, null popular to false and null sort order to 0, and opens the form for that id |
| AdminPricing.Step | src/components/admin/AdminPricing.tsx:38-122 | every editor event preserves a non-empty feature list |
| AdminPricing.FeaturesNeverEmpty | src/components/admin/AdminPricing.tsx:38-122 | no sequence of editor events empties the feature list |
| AdminTournaments.ResetForm | src/components/admin/AdminTournaments.tsx:39-51 | resetting gives empty texts, entry fee 0, 32 places and status upcoming; the form is closed and nothing is edited |
| AdminTournaments.EntryFeeInput | src/components/admin/AdminTournaments.tsx:162-165 | the fee becomes the decimal value of the typed digits (0 if none); nothing else changes |
| AdminTournaments.EntryFeeRoundTrip | src/components/admin/AdminTournaments.tsx:161-165 | re-reading the text the fee field shows gives the same fee |
| AdminTournaments.Submit | src/components/admin/AdminTournaments.tsx:53-65 | rejected iff the name or the date is empty; otherwise an update of the edited id, or a creation, carrying the whole form |
| AdminTournaments.AfterSubmit | src/components/admin/AdminTournaments.tsx:59-67 | a completed mutation resets the editor to a form that cannot be submitted again and toasts "updated" for an edited tournament and "created" for a new one; a rejected one leaves the editor and adds no toast |
| AdminTournaments.HandleEdit | src/components/admin/AdminTournaments.tsx:70-81 | missing description and prize pool become "", a missing fee 0, and a missing or zero participant limit 32; the status is taken as is |
| AdminTournaments.EditThenSaveWritesBack | src/components/admin/AdminTournaments.tsx:53-81 | editing a fully filled tournament and saving it unchanged updates that id with the values read |
| AdminTournaments.SelectFormStatus | src/components/admin/AdminTournaments.tsx:191-199 | the form's select sets the picked one of upcoming, ongoing or completed, never cancelled, and changes nothing else |
| AdminTournaments.ChangeStatus | src/components/admin/AdminTournaments.tsx:89-92 | the row's select sets the chosen status on that tournament only, never cancelled |
| AdminTournaments.SelectsNeverCancel | src/components/admin/AdminTournaments.tsx:303-305 | a tournament is cancelled after a select change only if it was cancelled before |
| TournamentsSection.PhonePatternShape | src/components/TournamentsSection.tsx:19-21 | a number matching the phone pattern has 7 to 21 characters, and '+' only in first place |
| TournamentsSection.NameIssue | src/components/TournamentsSection.tsx:15-18 | the name is valid iff its trimmed length is 1..100; the message says which bound failed |
| TournamentsSection.PhoneIssue | src/components/TournamentsSection.tsx:19-21 | the phone is valid iff the trimmed text is an optional '+' followed by 7-20 digits, whitespace, parentheses or dashes |
| TournamentsSection.EmailIssue | src/components/TournamentsSection.tsx:22-26 | an absent e-mail is accepted; a present one must pass the e-mail check once trimmed |
| TournamentsSection.Validate | src/components/TournamentsSection.tsx:14-27 | each field's entry is empty iff that field is valid |
| TournamentsSection.Messages | src/components/TournamentsSection.tsx:54-63 | the shown message is the first failing field's, in field order; there are none iff no field fails |
| TournamentsSection.EmailArgument | src/components/TournamentsSection.tsx:50 | an empty e-mail field is passed as absent |
| TournamentsSection.EmptyEmailAccepted | src/components/TournamentsSection.tsx:22-50 | an empty e-mail field never produces an e-mail error |
| TournamentsSection.Cap | src/components/TournamentsSection.tsx:272-288 | slicing keeps a prefix of at most n characters, and the whole text when it already fits |
| TournamentsSection.CappedNameNeverTooLong | src/components/TournamentsSection.tsx:272 | a name typed through the capped input never triggers the too-long message |
| TournamentsSection.TypeName | src/components/TournamentsSection.tsx:272 | the stored name is the typed text cut to its first 100 characters (all of it when shorter); nothing else in the dialog changes |
| TournamentsSection.TypePhone | src/components/TournamentsSection.tsx:288 | the stored phone is the typed text cut to its first 20 characters (all of it when shorter); nothing else in the dialog changes |
| TournamentsSection.HandleRegister | src/components/TournamentsSection.tsx:40-75 | with no tournament nothing is sent; an invalid form records the per-field errors and toasts the first; a valid one sends the trimmed name and phone, and the trimmed e-mail or null |
| TournamentsSection.SentRequestIsValid | src/components/TournamentsSection.tsx:47-75 | the record sent would pass the schema again: it is already trimmed and valid |
| TournamentsSection.AfterSend | src/components/TournamentsSection.tsx:77-103 | success clears the whole dialog; a failure keeps it, with "Validation Error" and the message iff the message contains "Invalid", and otherwise exactly the "Registration Failed" toast |
| TournamentsSection.HandleClose | src/components/TournamentsSection.tsx:106-112 | closing clears the tournament, all fields and the errors |
| TournamentsSection.CloseMatchesSuccess | src/components/TournamentsSection.tsx:106-112 | closing and a successful registration leave the same dialog state |
| Tournaments.SetStatus | src/hooks/useTournaments.ts:100-104 | the rows with that id get the status; everything else is unchanged |
| Gallery.CreateImage | src/hooks/useGallery.ts:34 | the new image row carries the request's URL, caption and order index, appended after the existing rows |
| AdminGallery.AddImage | src/components/admin/AdminGallery.tsx:19-29 | rejected iff the URL is empty; otherwise the URL as typed, an empty caption as null, and order index = gallery length (0 before load) |
| AdminGallery.AfterAdd | src/components/admin/AdminGallery.tsx:25-33 | success clears both inputs; a failed insert leaves them |
| AdminGallery.AddKeepsDenseOrder | src/components/admin/AdminGallery.tsx:28 | if every order index equals its position, an added image keeps that true |
| AdminGallery.AddAllKeepsDenseOrder | src/components/admin/AdminGallery.tsx:19-33 | any sequence of accepted or rejected adds keeps order indexes equal to positions |
| GallerySection.DisplayedImages | src/components/GallerySection.tsx:10-19 | a loaded non-empty gallery shows exactly its URLs in order; otherwise the four defaults; never empty |
| GallerySection.ClickImage | src/components/GallerySection.tsx:47 | clicking a tile selects that image, which opens the lightbox |
| GallerySection.Close | src/components/GallerySection.tsx:68-71 | both close actions reset the selection to null |
| GallerySection.OpenThenClose | src/components/GallerySection.tsx:47-71 | opening any displayed picture and closing returns to the closed lightbox |
| GallerySection.DefaultsCanBeOpened | src/components/GallerySection.tsx:47 | each default picture opens the lightbox with that picture |
| AdminSlideshow.MaxOrderFold | src/components/admin/AdminSlideshow.tsx:56 | the fold is at least 0 and every order index (null as 0), and it is attained unless it is 0 |
| AdminSlideshow.NextOrderIndex | src/components/admin/AdminSlideshow.tsx:56-63 | the new index is >= 1 and greater than every existing one (1 before load); one below it is an existing index when it exceeds 1 |
| AdminSlideshow.UploadFileName | src/components/admin/AdminSlideshow.tsx:42-43 | the stored name starts with "slideshow-" and is longer than that prefix |
| AdminSlideshow.UploadNameCarriesTime | src/components/admin/AdminSlideshow.tsx:43 | the text between "slideshow-" and the following '.' is the upload time in decimal, whose value is that time |
| AdminSlideshow.UploadNameDeterminesTime | src/components/admin/AdminSlideshow.tsx:43 | two uploads of the same file get the same stored name iff they happen at the same millisecond |
| AdminSlideshow.UploadNameHasNoSlash | src/components/admin/AdminSlideshow.tsx:42-43 | the stored name has no "/" as long as the original extension has none |
| AdminSlideshow.UploadKeepsExtension | src/components/admin/AdminSlideshow.tsx:42-43 | the stored name's extension is the original name's extension |
| AdminSlideshow.SlideToInsert | src/components/admin/AdminSlideshow.tsx:58-65 | the new slide is active, has the public URL and the next order index, and an empty tagline becomes null |
| AdminSlideshow.StorageName | src/components/admin/AdminSlideshow.tsx:107-108 | the delete name is the URL's suffix after its last "/" and contains no "/" |
| AdminSlideshow.DeleteFindsUploadedFile | src/components/admin/AdminSlideshow.tsx:107-111 | the name a delete derives from an uploaded slide's URL is the name the upload stored |
| AdminSlideshow.OnUploadSuccess | src/components/admin/AdminSlideshow.tsx:69-74 | a successful upload clears the file, the preview and the tagline |
| AdminSlideshow.HandleUploadAsWritten | src/components/admin/AdminSlideshow.tsx:142-147 | without a file nothing happens; after a failed upload `uploading` stays set |
| AdminSlideshow.FailedUploadDisablesButton | src/components/admin/AdminSlideshow.tsx:142-147 | one failed upload leaves the upload button disabled with the file still chosen |
| AdminSlideshow.HandleUpload | src/components/admin/AdminSlideshow.tsx:142-147 | corrected: `uploading` is cleared after either outcome |
| AdminSlideshow.UploadCanBeRetried | src/components/admin/AdminSlideshow.tsx:142-147 | after a failed upload, the corrected handler leaves the button enabled and the form unchanged |
| AdminSlideshow.UpdatePayload | src/components/admin/AdminSlideshow.tsx:84-86 | the payload has a tagline key iff a tagline was given, and an active key iff a flag was given, and no other key |
| AdminSlideshow.ApplyPayload | src/components/admin/AdminSlideshow.tsx:88-91 | only the fields present in the payload change on the slide; id, URL, order index and creation time stay |
| AdminSlideshow.TaglineBlur | src/components/admin/AdminSlideshow.tsx:239-243 | an update is sent iff the edited text differs from the stored tagline (null read as "") |
| AdminSlideshow.TaglineBlurEffect | src/components/admin/AdminSlideshow.tsx:238-243 | an untouched field sends nothing; a sent edit stores the text and leaves the active flag alone |
| AdminSlideshow.ActiveCount | src/components/admin/AdminSlideshow.tsx:218 | the header counts exactly the slides whose flag is true (0 before load) |
| AdminSlideshow.SwitchCheckedAsWritten | src/components/admin/AdminSlideshow.tsx:249 | the switch as written is on unless the flag is exactly false, so a null flag shows on |
| AdminSlideshow.NullActiveSwitchDisagrees | src/components/admin/AdminSlideshow.tsx:249 | a slide with a null flag shows its switch on, yet is neither counted nor shown |
| AdminSlideshow.SwitchChecked | src/components/admin/AdminSlideshow.tsx:249 | corrected: the switch is on iff the slide is shown |
| AdminSlideshow.SwitchAgreesWithCount | src/components/admin/AdminSlideshow.tsx:249-252 | with the corrected switch, the count equals the number of switches on, and flipping a switch stores the opposite of what it showed |
| AdminMessages.FilterMessages | src/components/admin/AdminMessages.tsx:31-35 | "unread" keeps exactly the unread messages, "read" exactly the read ones, "all" everything; each is a sub-multiset; none before load |
| AdminMessages.FilterMessagesKeepsOrder | src/components/admin/AdminMessages.tsx:31-35 | each filter keeps list order: a lone message is kept or dropped by its flag, and a split list is filtered part by part in place |
| AdminMessages.UnreadReadPartition | src/components/admin/AdminMessages.tsx:31-35 | the unread and read lists together hold every message exactly once |
| AdminMessages.UnreadCount | src/components/admin/AdminMessages.tsx:37 | the count equals the number of list positions holding an unread message, 0 before load |
| AdminMessages.ReadCount | src/components/admin/AdminMessages.tsx:73-75 | total minus unread equals the number of read messages, so it is never negative |
| AdminMessages.MarkAsRead | src/hooks/useContactMessages.ts:35-36 | messages with that id become read; all others are unchanged |
| AdminMessages.MarkAsReadButtons | src/components/admin/AdminMessages.tsx:168-182 | the mark-as-read button appears on exactly the messages the unread filter lists, and as many times as the unread counter says |
| AdminMessages.MarkAsReadLowersUnread | src/components/admin/AdminMessages.tsx:168-177 | marking never raises the unread count, lowers it when the button was offered on a message with that id, and afterwards no message with that id offers the button |
| AdminMessages.MarkAsReadIdempotent | src/hooks/useContactMessages.ts:35-36 | marking the same id twice equals marking it once |
| AdminDashboard.TodaysBookings | src/components/admin/AdminDashboard.tsx:16 | exactly the bookings dated today, each as often as fetched; none before load |
| AdminDashboard.MonthlyBookings | src/components/admin/AdminDashboard.tsx:18-22 | exactly the bookings dated within the month, inclusive, each as often as fetched; none before load |
| AdminDashboard.TodayWithinMonth | src/components/admin/AdminDashboard.tsx:16-22 | with today inside the month, every booking counted for today is counted for the month, as often |
| AdminDashboard.ActiveTournaments | src/components/admin/AdminDashboard.tsx:24 | exactly the tournaments upcoming or ongoing, each as often as fetched; never a completed or cancelled one |
| AdminDashboard.GalleryCount | src/components/admin/AdminDashboard.tsx:25 | the gallery's length, 0 before load |
| AdminDashboard.EstimatedRevenue | src/components/admin/AdminDashboard.tsx:28 | 300 times the month's bookings; at most 300 times all bookings |
| AdminDashboard.RevenueCoversToday | src/components/admin/AdminDashboard.tsx:16-28 | the estimate is at least 300 times today's bookings |
| AdminDashboard.RecentBookings | src/components/admin/AdminDashboard.tsx:156-160 | a prefix of the fetched list of length min(5, n) |
| AdminDashboard.ComputeOverview | src/components/admin/AdminDashboard.tsx:15-28 | each card equals the length of its own list (today, month, active tournaments) and the gallery count; once loaded these count the matching list positions; bookings not loaded gives 0 for today, month and revenue, tournaments not loaded gives 0 active, gallery not loaded gives 0 images; revenue = 300 x monthly; today <= monthly |
| AdminDashboard.CountedDays | src/components/admin/AdminDashboard.tsx:16-22 | today's and the month's lists are as long as the sets of matching positions |
| AdminDashboard.CountedActive | src/components/admin/AdminDashboard.tsx:24 | the active list is as long as the set of positions holding an upcoming or ongoing tournament |
| ClubSettings.UpdateSettings | src/hooks/useSettings.ts:36-54 | with no settings row nothing is written; otherwise that row gets the six columns and keeps its id |
| AdminSettings.Populate | src/components/admin/AdminSettings.tsx:27-38 | once settings load, each field equals the stored value, or "" when null; the dirty flag is untouched |
| AdminSettings.HandleChange | src/components/admin/AdminSettings.tsx:40-43 | only the named field takes the value, and the form is marked changed |
| AdminSettings.HandleSave | src/components/admin/AdminSettings.tsx:45-49 | the whole form is sent; the flag clears only when the mutation resolves; a rejection changes nothing |
| AdminSettings.SaveButtonsFollowChanges | src/components/admin/AdminSettings.tsx:40-49 | after an edit the save buttons show; a successful save hides them; a failed one keeps them |
| AdminSettings.SaveThenReloadKeepsForm | src/components/admin/AdminSettings.tsx:27-49 | reloading the saved row reproduces the saved form exactly |
| AdminSettings.SaveUnchangedNormalisesNulls | src/components/admin/AdminSettings.tsx:27-49 | saving a just-loaded form writes back the stored values, null columns becoming "" |
| ContactSection.WhatsAppNumber | src/components/ContactSection.tsx:54 | the digits of the configured number, or "919876543210" when there are no settings, no number, or no digits; never empty, all digits |
| ContactSection.WhatsAppLink | src/components/ContactSection.tsx:55 | the link starts with "https://wa.me/" |
| ContactSection.LinkEndsWithNumber | src/components/ContactSection.tsx:54-55 | the text after the link's last "/" is exactly the chosen number |
| ContactSection.DigitNumberUsedAsIs | src/components/ContactSection.tsx:54 | a number configured as bare digits is used unchanged |
| ContactSection.Submit | src/components/ContactSection.tsx:20-30 | a required field left empty blocks the submit; otherwise name, e-mail and message are sent trimmed |
| ContactSection.InsertedValuesAreTrimmed | src/components/ContactSection.tsx:26-30 | the inserted values have no surrounding whitespace |
| ContactSection.BlankMessageStoredEmpty | src/components/ContactSection.tsx:26-30 | a whitespace-only message passes the required check and is stored as "" |
| ContactSection.AfterInsert | src/components/ContactSection.tsx:32-47 | success clears the three fields; a failure keeps them and shows the error's message, or a default when it is empty |
| ContactSection.RetryAfterFailure | src/components/ContactSection.tsx:20-47 | after a failure, resubmitting sends the same row; after a success, the cleared form cannot be submitted |
| HeroSection.Advance | src/components/HeroSection.tsx:22 | a tick maps i to i+1, and the last slide to 0; the result is always in [0, 3) |
| HeroSection.CurrentTagline | src/components/HeroSection.tsx:91 | the tagline at any in-range index is one of the three taglines |
| HeroSection.TaglinesMatchImages | src/components/HeroSection.tsx:9-15 | there are three images and three taglines |
| HeroSection.AdvanceTimesIsModular | src/components/HeroSection.tsx:22 | k ticks from slide i land on (i + k) mod 3 |
| HeroSection.CycleReturnsToStart | src/components/HeroSection.tsx:18-22 | three ticks return to the start, and every slide is reached from slide 0 |
| HeroSection.Step | src/components/HeroSection.tsx:121-124 | a tick is exactly one `Advance`; an indicator click selects exactly that indicator's index; the result stays in range |
| HeroSection.RunStaysInRange | src/components/HeroSection.tsx:18-25 | any sequence of ticks and clicks keeps the index in [0, 3), so the tagline shown is the one at that index |
| AdminAuth.Mount | src/contexts/AdminAuthContext.tsx:18-26 | after mount, the user is logged in iff the stored session entry is "authenticated" |
| AdminAuth.Login | src/contexts/AdminAuthContext.tsx:11-35 | accepted iff the credentials are admin123/admin; acceptance logs in and stores the marker; refusal changes nothing |
| AdminAuth.Logout | src/contexts/AdminAuthContext.tsx:37-40 | logout clears the flag and removes the entry |
| AdminAuth.LogoutIdempotent | src/contexts/AdminAuthContext.tsx:37-40 | logging out twice equals logging out once, which equals mounting with no entry |
| AdminAuth.RunKeepsConsistent | src/contexts/AdminAuthContext.tsx:28-40 | any sequence of logins and logouts keeps the flag equal to (entry == "authenticated") |
| AdminAuth.MountThenRunConsistent | src/contexts/AdminAuthContext.tsx:18-40 | after mount and any actions, the flag agrees with the stored entry |
| AdminAuth.ReloadRestoresLogin | src/contexts/AdminAuthContext.tsx:20-40 | a reload (mount from the stored entry) restores exactly the state before it |
| AdminAuth.OnlyDemoCredentialsLogIn | src/contexts/AdminAuthContext.tsx:28-35 | without the demo credentials, no sequence of actions logs anyone in |
| AdminSetup.Validate | src/pages/AdminSetup.tsx:11-18 | no issues iff the e-mail is valid, the password has >= 6 characters and the confirmation matches; the mismatch issue sits on confirmPassword; issues come in field order |
| AdminSetup.OnlyMismatchReported | src/pages/AdminSetup.tsx:15-18 | with only a mismatching confirmation, the single issue is "Passwords don't match" on confirmPassword |
| AdminSetup.AdminExists | src/pages/AdminSetup.tsx:42-51 | true iff the query succeeds with a count > 0 (null as 0); a query error or an exception gives false |
| AdminSetup.ErrorText | src/pages/AdminSetup.tsx:112 | the shown error is the caught message, or the default when that is empty |
| AdminSetup.Submit | src/pages/AdminSetup.tsx:60-115 | invalid input shows the first issue and calls nothing; the role grant happens only for a user returned by sign-up; success iff that grant succeeds; any failure sets an error and never success |
| AdminSetup.SuccessNeedsEveryStep | src/pages/AdminSetup.tsx:60-104 | success iff the form is valid, sign-up returned a user, and the role insert succeeded |
| Text.SanitizeNumeric | src/components/admin/AdminPricing.tsx:171-172 | stripping leading zeros, then non-digits, then parsing gives the decimal value of all the input's digits, 0 when there are none |
| Text.NumericDisplay | src/components/admin/AdminPricing.tsx:169 | a numeric field shows its value in digits, and 0 as an empty field |
| Text.SanitizeDisplayRoundTrip | src/components/admin/AdminPricing.tsx:169-173 | sanitising the shown text of a value gives that value |
| Text.Trim | src/components/ContactSection.tsx:27-29 | trimming gives the slice with no leading or trailing JavaScript whitespace, everything cut off being whitespace |
| Text.TrimIdempotent | src/components/TournamentsSection.tsx:72 | trimming twice equals trimming once |
| Text.TrimEmptyIff | src/components/admin/AdminPricing.tsx:59 | a text trims to "" iff all its characters are whitespace |
| Text.ContainsIff | src/components/admin/AdminBookings.tsx:31-32 | `includes` holds iff the needle occurs at some position |
| Text.LastSegment | src/components/admin/AdminSlideshow.tsx:107-108 | the last "/"-separated part is a suffix without the separator, preceded by a separator unless it is the whole text |
| Text.LastSegmentAfterSep | src/components/admin/AdminSlideshow.tsx:107-108 | whatever precedes the last separator, the last part is what follows it |

## Left out

- Remote I/O: Supabase queries, inserts, storage upload and remove, and cache invalidation are not modelled. Each mutation is one atomic function over the rows, and each awaited answer is a parameter.
- The database's uniqueness constraint, and two visitors racing for the same pair: these are concurrency and server logic. Only the client's classification of the error is modelled.
- Dates and clocks: date-fns formatting, `isToday`, month bounds, `Date.now()` and local-versus-UTC parsing are not modelled.
  - Dates are day numbers; today, now and the month bounds are parameters.
  - For the "upcoming" filter a date is read as UTC midnight, as the code does.
  - The booking form's 14-day date list is not modelled.
- Timers and file reading: the 5-second confirmation reset, the 3-second redirect after setup, the 6-second carousel interval and the FileReader preview are not modelled. Each is a single transition (`ConfirmationElapsed`, `HeroSection.Advance`).
- Browser storage and navigation: `sessionStorage` is a field of the auth state, and redirects are not modelled.
- The schema library's e-mail check is the uninterpreted parameter `isEmail`, both for registration and for setup.
- Text.ToLower: lowercases ASCII letters only, because the full Unicode case mapping of `toLowerCase` is not modelled.
- Text.SanitizeNumeric: the result is an unbounded natural. `parseInt` of a very long digit string loses precision, which is not modelled.
- Lengths count characters, not UTF-16 code units: name and phone caps, the password minimum and the name bound.
- AdminPricing.UpdateFeature: requires an index inside the list. The component only calls it with the index of a rendered row.
- The maximum-participants input (`Number(...)` on the raw text) is not modelled: it is floating-point parsing.
- Deleting a pricing plan, gallery image, tournament or message, the pricing active and popular toggles, and gallery image updates are not modelled. Each is a single remote call by id with a toast.
- Viewing tournament registrations, the public upcoming-tournament query and the registration insert are left out as I/O. The request sent is modelled in `TournamentsSection.HandleRegister`.
- The browser's `type="email"` check on the contact form is not modelled; only the `required` attribute is.
- Bookings.BookingsOn: returns the rows in table order, not sorted by booking date as the query orders them; the only reader runs `some` over the list, which ignores order.
- AdminBookings "today": matching a stored date against today's day number stands in for `isToday(parseISO(...))`.
- UI-only components are not modelled: navigation bar, about, amenities, location, footer, the public pricing section, the sidebar, the admin section switch and the login page.

## Findings

| source | as written | input that shows it | evidently intended | confidence | as-written member | corrected member |
|---|---|---|---|---|---|---|
| src/components/admin/AdminSlideshow.tsx:142-147 | `uploading` is set, the mutation is awaited, and only then cleared; a failed mutation rejects the await, so the clearing line never runs | choose a file and upload while storage refuses it (or the insert fails) | `uploading` cleared whatever the outcome (a `finally`), so the upload can be retried | medium; not executed | AdminSlideshow.HandleUploadAsWritten (shown by AdminSlideshow.FailedUploadDisablesButton) | AdminSlideshow.HandleUpload (AdminSlideshow.UploadCanBeRetried) |
| src/components/admin/AdminSlideshow.tsx:249 | the switch shows `active ?? true`, so a null flag shows as on | a slide row whose `active` is null | the switch reflects the flag as the rest of the page reads it: the label "Hidden" (line 255), the dimming (line 223), the count (line 218), and the public query `.eq("active", true)` (src/hooks/useSlideshow.ts:20) | medium; not executed | AdminSlideshow.SwitchCheckedAsWritten (shown by AdminSlideshow.NullActiveSwitchDisagrees) | AdminSlideshow.SwitchChecked (AdminSlideshow.SwitchAgreesWithCount) |

=== FILE: admin_auth.dfy ===
/** The demo admin login (src/contexts/AdminAuthContext.tsx): the
    `isAuthenticated` flag and the "admin_session" entry of the browser's
    session storage, with login, logout and the restore on mount. */
module AdminAuth {
  import opened Wrappers

  const DemoUsername: string := "admin123"
  const DemoPassword: string := "admin"

  /** The value stored under "admin_session" while logged in. */
  const SessionMarker: string := "authenticated"

  /** The provider's state: the React flag and the stored session entry
      (absent when removed). */
  datatype Auth = Auth(isAuthenticated: bool, session: Option<string>)

  /** The flag says what the stored entry says. */
  predicate Consistent(a: Auth) {
    a.isAuthenticated <==> a.session == Some(SessionMarker)
  }

  /** The provider's first render (the flag starts false) followed by the
      mount effect, which sets it only when the stored entry is the marker. */
  function Mount(stored: Option<string>): (r: Auth)
    ensures r.session == stored
    ensures r.isAuthenticated <==> stored == Some(SessionMarker)
  {
    var initial := Auth(false, stored);
    if stored == Some(SessionMarker) then initial.(isAuthenticated := true) else initial
  }

  datatype LoginResult = LoginResult(state: Auth, accepted: bool)

  /** `login`: the demo pair logs in and stores the marker; anything else is
      refused and changes nothing. */
  function Login(a: Auth, username: string, password: string): (r: LoginResult)
    ensures r.accepted <==> username == DemoUsername && password == DemoPassword
    ensures r.accepted ==> r.state == Auth(true, Some(SessionMarker))
    ensures !r.accepted ==> r.state == a
  {
    if username == DemoUsername && password == DemoPassword then
      LoginResult(Auth(true, Some(SessionMarker)), true)
    else LoginResult(a, false)
  }

  /** `logout`: the flag is cleared and the entry removed. */
  function Logout(a: Auth): (r: Auth)
    ensures !r.isAuthenticated && r.session.None?
    ensures Consistent(r)
  {
    Auth(false, None)
  }

  lemma LogoutIdempotent(a: Auth)
    ensures Logout(Logout(a)) == Logout(a)
    ensures Logout(a) == Mount(None)
  {
  }

  datatype Action = LogIn(username: string, password: string) | LogOut

  function Step(a: Auth, act: Action): Auth {
    match act
    case LogIn(u, p) => Login(a, u, p).state
    case LogOut => Logout(a)
  }

  /** The state after a session's actions, one after another. */
  function Run(a: Auth, acts: seq<Action>): Auth
    decreases |acts|
  {
    if |acts| == 0 then a else Run(Step(a, acts[0]), acts[1..])
  }

  /** Mounting makes the flag agree with storage, and every login or logout
      after that keeps it so. */
  lemma {:induction false} RunKeepsConsistent(a: Auth, acts: seq<Action>)
    requires Consistent(a)
    ensures Consistent(Run(a, acts))
    decreases |acts|
  {
    if |acts| > 0 {
      RunKeepsConsistent(Step(a, acts[0]), acts[1..]);
    }
  }

  /** Whatever was stored before, the state after mounting and any actions
      has the flag agreeing with the stored entry. */
  lemma MountThenRunConsistent(stored: Option<string>, acts: seq<Action>)
    ensures Consistent(Run(Mount(stored), acts))
  {
    RunKeepsConsistent(Mount(stored), acts);
  }

  /** A reload keeps the login: mounting again with what a session left in
      storage restores exactly the flag it had. */
  lemma ReloadRestoresLogin(stored: Option<string>, acts: seq<Action>)
    ensures var a := Run(Mount(stored), acts);
            Mount(a.session) == a
  {
    RunKeepsConsistent(Mount(stored), acts);
  }

  /** Wrong credentials never log anyone in. */
  lemma {:induction false} OnlyDemoCredentialsLogIn(a: Auth, acts: seq<Action>)
    requires !a.isAuthenticated
    requires forall i :: 0 <= i < |acts| && acts[i].LogIn? ==>
               acts[i].username != DemoUsername || acts[i].password != DemoPassword
    ensures !Run(a, acts).isAuthenticated
    decreases |acts|
  {
    if |acts| > 0 {
      assert forall i :: 0 <= i < |acts[1..]| ==> acts[1..][i] == acts[i + 1];
      OnlyDemoCredentialsLogIn(Step(a, acts[0]), acts[1..]);
    }
  }
}

=== FILE: admin_bookings.dfy ===
/** The admin bookings list (src/components/admin/AdminBookings.tsx): the
    search box, the status/date filter, the newest-first sort, the status
    actions offered per booking and the four stat counters. */
module AdminBookings {
  import opened Wrappers
  import opened Seqs
  import opened Text
  import opened Bookings

  datatype FilterType = All | Today | Upcoming | ConfirmedOnly | CancelledOnly

  const MsPerDay: int := 86400000

  /** `new Date("yyyy-MM-dd")`: a date-only string is read as midnight UTC
      of that day, in milliseconds since the epoch. */
  function DayStartMs(d: Day): int {
    d * MsPerDay
  }

  /** The search box: an empty query keeps everything; otherwise the
      lowercased name must contain the lowercased query, or the phone
      number (as stored) must contain it. */
  function MatchesSearch(b: Booking, query: string): (r: bool)
    ensures query == "" ==> r
    ensures r <==> (|| query == ""
                    || (exists k :: OccursAt(ToLower(b.userName), ToLower(query), k))
                    || (exists k :: OccursAt(b.phoneNumber, ToLower(query), k)))
  {
    ContainsIff(ToLower(b.userName), ToLower(query));
    ContainsIff(b.phoneNumber, ToLower(query));
    query == "" ||
    Contains(ToLower(b.userName), ToLower(query)) ||
    Contains(b.phoneNumber, ToLower(query))
  }

  /** The filter buttons; `today` is the local calendar day and `nowMs` the
      current instant. */
  function MatchesFilter(b: Booking, filter: FilterType, today: Day, nowMs: int): (r: bool)
    ensures filter == All ==> r
    ensures filter == Today ==> (r <==> b.bookingDate == today)
    ensures filter == Upcoming ==> (r <==> nowMs <= b.bookingDate * 86400000)
    ensures filter == Upcoming && today < b.bookingDate && nowMs < (today + 1) * 86400000 ==> r
    ensures filter == ConfirmedOnly ==> (r <==> b.status == Confirmed)
    ensures filter == CancelledOnly ==> (r <==> b.status == Cancelled)
  {
    match filter
    case All => true
    case Today => b.bookingDate == today
    case Upcoming => DayStartMs(b.bookingDate) >= nowMs
    case ConfirmedOnly => b.status == Confirmed
    case CancelledOnly => b.status == Cancelled
  }

  // ---------------------------------------------------------------------
  // Newest-first sort

  /** Non-increasing booking dates. */
  predicate SortedByDateDesc(s: seq<Booking>) {
    forall i, j :: 0 <= i < j < |s| ==> s[i].bookingDate >= s[j].bookingDate
  }

  /** The bookings of one date. */
  function OnDay(d: Day): Booking -> bool {
    (b: Booking) => b.bookingDate == d
  }

  /** Places `b` in front of the first booking not newer than it. */
  function InsertByDate(b: Booking, s: seq<Booking>): (r: seq<Booking>)
    ensures multiset(r) == multiset(s) + multiset{b}
    ensures |r| == |s| + 1
    decreases |s|
  {
    if |s| == 0 || b.bookingDate >= s[0].bookingDate then
      [b] + s
    else
      assert s == [s[0]] + s[1..];
      [s[0]] + InsertByDate(b, s[1..])
  }

  /** Inserting into a newest-first list keeps it newest-first. */
  lemma {:induction false} InsertByDateSorted(b: Booking, s: seq<Booking>)
    requires SortedByDateDesc(s)
    ensures SortedByDateDesc(InsertByDate(b, s))
    decreases |s|
  {
    if |s| == 0 || b.bookingDate >= s[0].bookingDate {
      ConsSorted(b, s);
    } else {
      var rest := InsertByDate(b, s[1..]);
      InsertByDateSorted(b, s[1..]);
      assert s == [s[0]] + s[1..];
      forall x | x in rest
        ensures x.bookingDate <= s[0].bookingDate
      {
        assert x in multiset(rest);
        if x != b {
          assert x in multiset(s[1..]);
          var k :| 0 <= k < |s[1..]| && s[1..][k] == x;
          assert s[k + 1] == x;
        }
      }
      ConsSorted(s[0], rest);
    }
  }

  /** A booking no older than every element of a newest-first list can go
      in front of it. */
  lemma ConsSorted(x: Booking, t: seq<Booking>)
    requires SortedByDateDesc(t)
    requires forall y :: y in t ==> y.bookingDate <= x.bookingDate
    ensures SortedByDateDesc([x] + t)
  {
    var r := [x] + t;
    forall i, j | 0 <= i < j < |r|
      ensures r[i].bookingDate >= r[j].bookingDate
    {
      assert r[j] == t[j - 1];
      if i > 0 {
        assert r[i] == t[i - 1];
      } else {
        assert t[j - 1] in t;
      }
    }
  }

  /** `Array.prototype.sort` with the comparator `date(b) - date(a)`: sorted
      newest first, the same bookings, and (the sort being stable) bookings
      of one date in their original order. */
  function SortByDateDesc(s: seq<Booking>): (r: seq<Booking>)
    ensures SortedByDateDesc(r)
    ensures multiset(r) == multiset(s)
    ensures |r| == |s|
    decreases |s|
  {
    if |s| == 0 then []
    else
      assert s == [s[0]] + s[1..];
      var rest := SortByDateDesc(s[1..]);
      InsertByDateSorted(s[0], rest);
      InsertByDate(s[0], rest)
  }

  lemma {:induction false} InsertByDateStable(b: Booking, s: seq<Booking>, d: Day)
    ensures Filter(OnDay(d), InsertByDate(b, s))
         == (if b.bookingDate == d then [b] else []) + Filter(OnDay(d), s)
    decreases |s|
  {
    if |s| == 0 || b.bookingDate >= s[0].bookingDate {
      FilterCons(OnDay(d), b, s);
    } else {
      InsertByDateStable(b, s[1..], d);
      InsertBehindStable(b, s, d);
    }
  }

  /** The step of `InsertByDateStable` where `b` goes behind the head. */
  lemma InsertBehindStable(b: Booking, s: seq<Booking>, d: Day)
    requires |s| > 0 && b.bookingDate < s[0].bookingDate
    requires Filter(OnDay(d), InsertByDate(b, s[1..]))
          == (if b.bookingDate == d then [b] else []) + Filter(OnDay(d), s[1..])
    ensures Filter(OnDay(d), InsertByDate(b, s))
         == (if b.bookingDate == d then [b] else []) + Filter(OnDay(d), s)
  {
    var p := OnDay(d);
    var head := if p(s[0]) then [s[0]] else [];
    var own := if b.bookingDate == d then [b] else [];
    InsertBehindUnfold(b, s);
    FilterUnfold(p, s);
    FilterCons(p, s[0], InsertByDate(b, s[1..]));
    SwapEmpty(head, own, Filter(p, s[1..]), Filter(p, s), Filter(p, InsertByDate(b, s)));
  }

  lemma InsertBehindUnfold(b: Booking, s: seq<Booking>)
    requires |s| > 0 && b.bookingDate < s[0].bookingDate
    ensures InsertByDate(b, s) == [s[0]] + InsertByDate(b, s[1..])
  {
  }

  /** When one of two prefixes is empty, their order does not matter: a
      sequence `h + (o + t)` is `o` followed by `h + t`. */
  lemma SwapEmpty<T>(h: seq<T>, o: seq<T>, t: seq<T>, ht: seq<T>, hot: seq<T>)
    requires h == [] || o == []
    requires ht == h + t && hot == h + (o + t)
    ensures hot == o + ht
  {
  }

  /** Sorting does not reorder bookings of the same date. */
  lemma {:induction false} SortByDateDescStable(s: seq<Booking>, d: Day)
    ensures Filter(OnDay(d), SortByDateDesc(s)) == Filter(OnDay(d), s)
    decreases |s|
  {
    if |s| > 0 {
      SortByDateDescStable(s[1..], d);
      InsertByDateStable(s[0], SortByDateDesc(s[1..]), d);
    }
  }

  /** An input already newest-first is returned unchanged. */
  lemma {:induction false} SortByDateDescKeepsSorted(s: seq<Booking>)
    requires SortedByDateDesc(s)
    ensures SortByDateDesc(s) == s
    decreases |s|
  {
    if |s| > 0 {
      SortByDateDescKeepsSorted(s[1..]);
      assert InsertByDate(s[0], s[1..]) == [s[0]] + s[1..];
    }
  }

  // ---------------------------------------------------------------------
  // The list shown

  predicate Shown(b: Booking, query: string, filter: FilterType, today: Day, nowMs: int) {
    MatchesSearch(b, query) && MatchesFilter(b, filter, today, nowMs)
  }

  /** `filterBookings`: nothing before the bookings load; afterwards every
      booking that passes the search and the filter, each as often as it was
      fetched, newest first. */
  function FilterBookings(bookings: Option<seq<Booking>>, query: string, filter: FilterType, today: Day, nowMs: int): (r: seq<Booking>)
    ensures bookings.None? ==> r == []
    ensures bookings.Some? ==>
              forall x :: multiset(r)[x] == if Shown(x, query, filter, today, nowMs) then multiset(bookings.value)[x] else 0
    ensures bookings.Some? ==> multiset(r) <= multiset(bookings.value)
    ensures SortedByDateDesc(r)
  {
    match bookings
    case None => []
    case Some(rows) =>
      var searched := Filter((b: Booking) => MatchesSearch(b, query), rows);
      var filtered := Filter((b: Booking) => MatchesFilter(b, filter, today, nowMs), searched);
      var shown := (b: Booking) => Shown(b, query, filter, today, nowMs);
      FilterFilter((b: Booking) => MatchesSearch(b, query), (b: Booking) => MatchesFilter(b, filter, today, nowMs), shown, rows);
      assert forall x :: multiset(filtered)[x] == multiset(Filter(shown, rows))[x] by {
        assert filtered == Filter(shown, rows);
      }
      forall x
        ensures multiset(filtered)[x] == if shown(x) then multiset(rows)[x] else 0
      {
        FilterMultiplicity(shown, rows, x);
      }
      SortByDateDesc(filtered)
  }

  /** With an empty query and filter "all" the list is every fetched booking,
      only reordered. */
  lemma ShowAllIsPermutation(rows: seq<Booking>, today: Day, nowMs: int)
    ensures multiset(FilterBookings(Some(rows), "", All, today, nowMs)) == multiset(rows)
  {
    var r := FilterBookings(Some(rows), "", All, today, nowMs);
    forall x
      ensures multiset(r)[x] == multiset(rows)[x]
    {
      assert Shown(x, "", All, today, nowMs);
    }
  }

  /** The status filters keep exactly the bookings of that status. */
  lemma StatusFilterExact(rows: seq<Booking>, filter: FilterType, today: Day, nowMs: int, b: Booking)
    requires filter == ConfirmedOnly || filter == CancelledOnly
    ensures b in FilterBookings(Some(rows), "", filter, today, nowMs)
        <==> b in rows && b.status == (if filter == ConfirmedOnly then Confirmed else Cancelled)
  {
    var r := FilterBookings(Some(rows), "", filter, today, nowMs);
    assert multiset(r)[b] == if Shown(b, "", filter, today, nowMs) then multiset(rows)[b] else 0;
  }

  /** "Upcoming" compares UTC midnight of the booking date with the current
      instant, so once the current day has begun a booking dated today is
      not listed as upcoming. */
  lemma UpcomingSkipsTodayAfterMidnight(b: Booking, today: Day, nowMs: int)
    requires b.bookingDate == today && nowMs > DayStartMs(today)
    ensures !MatchesFilter(b, Upcoming, today, nowMs)
  {
  }

  // ---------------------------------------------------------------------
  // Status actions

  datatype Action = Complete | Cancel | Reconfirm

  /** The buttons next to a booking: complete and cancel for a confirmed
      one, reconfirm for a cancelled one, nothing for a completed one. */
  function OfferedActions(s: Status): (r: seq<Action>)
    ensures s == Completed <==> r == []
    ensures Complete in r <==> s == Confirmed
    ensures Cancel in r <==> s == Confirmed
    ensures Reconfirm in r <==> s == Cancelled
  {
    match s
    case Confirmed => [Complete, Cancel]
    case Cancelled => [Reconfirm]
    case Completed => []
  }

  /** The status each action writes. */
  function Target(a: Action): (r: Status)
    ensures r == Completed <==> a == Complete
    ensures r == Cancelled <==> a == Cancel
    ensures r == Confirmed <==> a == Reconfirm
  {
    match a
    case Complete => Completed
    case Cancel => Cancelled
    case Reconfirm => Confirmed
  }

  /** The toast after an action names the status the booking was given. */
  function ActionToast(a: Action): (r: string)
    ensures r == "Booking marked as completed!" <==> Target(a) == Completed
    ensures r == "Booking cancelled!" <==> Target(a) == Cancelled
    ensures r == "Booking confirmed!" <==> Target(a) == Confirmed
  {
    match a
    case Complete => "Booking marked as completed!"
    case Cancel => "Booking cancelled!"
    case Reconfirm => "Booking confirmed!"
  }

  /** `handleConfirm` / `handleCancel` / `handleComplete`: the row with that
      id gets the action's status, nothing else changes. */
  function ApplyAction(rows: seq<Booking>, id: string, a: Action): (r: seq<Booking>)
    ensures |r| == |rows|
    ensures forall i :: 0 <= i < |rows| && rows[i].id == id ==> r[i] == rows[i].(status := Target(a))
    ensures forall i :: 0 <= i < |rows| && rows[i].id != id ==> r[i] == rows[i]
  {
    UpdateBooking(rows, id, StatusPatch(Target(a)))
  }

  /** Every offered action moves the booking to a different status, and a
      completed booking can never be moved again. */
  lemma OfferedActionsChangeStatus(s: Status, a: Action)
    requires a in OfferedActions(s)
    ensures Target(a) != s
    ensures s != Completed
  {
  }

  /** From a confirmed booking, cancelling then reconfirming restores it. */
  lemma CancelThenReconfirm(rows: seq<Booking>, id: string)
    requires forall i :: 0 <= i < |rows| && rows[i].id == id ==> rows[i].status == Confirmed
    ensures ApplyAction(ApplyAction(rows, id, Cancel), id, Reconfirm) == rows
  {
    var r := ApplyAction(ApplyAction(rows, id, Cancel), id, Reconfirm);
    assert forall i :: 0 <= i < |rows| ==> r[i] == rows[i];
  }

  // ---------------------------------------------------------------------
  // Stat counters

  datatype Stats = Stats(total: nat, today: nat, confirmed: nat, cancelled: nat)

  /** The four counters, each `|| 0` while the bookings have not loaded. */
  function ComputeStats(bookings: Option<seq<Booking>>, today: Day): (r: Stats)
    ensures bookings.None? ==> r == Stats(0, 0, 0, 0)
    ensures bookings.Some? ==>
              && r.total == |bookings.value|
              && r.today == |set i | 0 <= i < |bookings.value| && bookings.value[i].bookingDate == today|
              && r.confirmed == multiset(Statuses(bookings.value))[Confirmed]
              && r.cancelled == multiset(Statuses(bookings.value))[Cancelled]
    ensures r.confirmed + r.cancelled <= r.total
    ensures r.today <= r.total
  {
    match bookings
    case None => Stats(0, 0, 0, 0)
    case Some(rows) =>
      var confirmed := Filter(HasStatus(Confirmed), rows);
      var cancelled := Filter(HasStatus(Cancelled), rows);
      FilterDisjoint(HasStatus(Confirmed), HasStatus(Cancelled), rows);
      StatusCount(rows, Confirmed);
      StatusCount(rows, Cancelled);
      TodayPositions(rows, today);
      Stats(|rows|, |Filter(OnDay(today), rows)|, |confirmed|, |cancelled|)
  }

  /** The "today" filter keeps one booking per position dated today. */
  lemma TodayPositions(rows: seq<Booking>, today: Day)
    ensures |Filter(OnDay(today), rows)| == |set i | 0 <= i < |rows| && rows[i].bookingDate == today|
  {
    FilterCountsPositions(OnDay(today), rows);
    assert Positions(OnDay(today), rows) == set i | 0 <= i < |rows| && rows[i].bookingDate == today;
  }

  /** The statuses of the rows, in order. */
  function Statuses(rows: seq<Booking>): (r: seq<Status>)
    ensures |r| == |rows|
    ensures forall i :: 0 <= i < |rows| ==> r[i] == rows[i].status
    decreases |rows|
  {
    if |rows| == 0 then [] else [rows[0].status] + Statuses(rows[1..])
  }

  /** Filtering by a status keeps as many rows as that status occurs. */
  lemma {:induction false} StatusCount(rows: seq<Booking>, s: Status)
    ensures |Filter(HasStatus(s), rows)| == multiset(Statuses(rows))[s]
    decreases |rows|
  {
    if |rows| > 0 {
      StatusCount(rows[1..], s);
      assert multiset(Statuses(rows)) == multiset{rows[0].status} + multiset(Statuses(rows[1..]));
    }
  }

  /** The bookings with one status. */
  function HasStatus(s: Status): Booking -> bool {
    (b: Booking) => b.status == s
  }

}

=== FILE: admin_dashboard.dfy ===
/** The admin overview (src/components/admin/AdminDashboard.tsx): today's
    and this month's bookings, active tournaments, the gallery count, the
    estimated revenue and the five most recent bookings. */
module AdminDashboard {
  import opened Wrappers
  import opened Seqs
  import opened Bookings
  import T = Tournaments
  import G = Gallery

  /** The flat rate the revenue estimate charges per booking. */
  const RatePerBooking: nat := 300

  function IsOn(today: Day): Booking -> bool {
    (b: Booking) => b.bookingDate == today
  }

  function InMonth(monthStart: Day, monthEnd: Day): Booking -> bool {
    (b: Booking) => monthStart <= b.bookingDate <= monthEnd
  }

  /** Today's bookings; none before the bookings load. */
  function TodaysBookings(bookings: Option<seq<Booking>>, today: Day): (r: seq<Booking>)
    ensures bookings.None? ==> r == []
    ensures bookings.Some? ==> forall b :: b in r <==> b in bookings.value && b.bookingDate == today
    ensures bookings.Some? ==> multiset(r) <= multiset(bookings.value)
    ensures bookings.Some? ==>
              forall b :: multiset(r)[b] == if b.bookingDate == today then multiset(bookings.value)[b] else 0
  {
    if bookings.Some? then
      FilterMultiplicities(IsOn(today), bookings.value);
      Filter(IsOn(today), bookings.value)
    else []
  }

  /** The bookings dated between the first and the last day of the current
      month, inclusive; none before the bookings load. */
  function MonthlyBookings(bookings: Option<seq<Booking>>, monthStart: Day, monthEnd: Day): (r: seq<Booking>)
    ensures bookings.None? ==> r == []
    ensures bookings.Some? ==> forall b :: b in r <==> b in bookings.value && monthStart <= b.bookingDate <= monthEnd
    ensures bookings.Some? ==> multiset(r) <= multiset(bookings.value)
    ensures bookings.Some? ==>
              forall b :: multiset(r)[b] == if monthStart <= b.bookingDate <= monthEnd then multiset(bookings.value)[b] else 0
  {
    if bookings.Some? then
      FilterMultiplicities(InMonth(monthStart, monthEnd), bookings.value);
      Filter(InMonth(monthStart, monthEnd), bookings.value)
    else []
  }

  /** Every booking counted for today is counted for the month (today lying
      within the month), as often as it occurs. */
  lemma TodayWithinMonth(bookings: Option<seq<Booking>>, today: Day, monthStart: Day, monthEnd: Day)
    requires monthStart <= today <= monthEnd
    ensures multiset(TodaysBookings(bookings, today)) <= multiset(MonthlyBookings(bookings, monthStart, monthEnd))
    ensures |TodaysBookings(bookings, today)| <= |MonthlyBookings(bookings, monthStart, monthEnd)|
  {
    if bookings.Some? {
      FilterMonotone(IsOn(today), InMonth(monthStart, monthEnd), bookings.value);
    }
  }

  function IsActive(t: T.Tournament): bool {
    t.status == T.Upcoming || t.status == T.Ongoing
  }

  /** The tournaments still upcoming or under way. */
  function ActiveTournaments(tournaments: Option<seq<T.Tournament>>): (r: seq<T.Tournament>)
    ensures tournaments.None? ==> r == []
    ensures tournaments.Some? ==>
              forall t :: t in r <==> t in tournaments.value && (t.status == T.Upcoming || t.status == T.Ongoing)
    ensures tournaments.Some? ==>
              forall t :: multiset(r)[t] == if IsActive(t) then multiset(tournaments.value)[t] else 0
    ensures forall t :: t in r ==> t.status != T.Completed && t.status != T.Cancelled
  {
    if tournaments.Some? then
      FilterMultiplicities(IsActive, tournaments.value);
      Filter(IsActive, tournaments.value)
    else []
  }

  /** `gallery?.length || 0`. */
  function GalleryCount(gallery: Option<seq<G.GalleryImage>>): (r: nat)
    ensures gallery.None? ==> r == 0
    ensures gallery.Some? ==> r == |gallery.value|
  {
    if gallery.Some? then |gallery.value| else 0
  }

  /** The estimate: the flat rate times the month's bookings. */
  function EstimatedRevenue(bookings: Option<seq<Booking>>, monthStart: Day, monthEnd: Day): (r: nat)
    ensures r == RatePerBooking * |MonthlyBookings(bookings, monthStart, monthEnd)|
    ensures bookings.None? ==> r == 0
    ensures bookings.Some? ==> r <= RatePerBooking * |bookings.value|
  {
    RatePerBooking * |MonthlyBookings(bookings, monthStart, monthEnd)|
  }

  /** The revenue estimate covers at least today's bookings. */
  lemma RevenueCoversToday(bookings: Option<seq<Booking>>, today: Day, monthStart: Day, monthEnd: Day)
    requires monthStart <= today <= monthEnd
    ensures EstimatedRevenue(bookings, monthStart, monthEnd) >= RatePerBooking * |TodaysBookings(bookings, today)|
  {
    TodayWithinMonth(bookings, today, monthStart, monthEnd);
  }

  /** `bookings.slice(0, 5)`: at most five, from the front of the list as
      fetched (which the query orders by booking date, latest first). */
  function RecentBookings(bookings: Option<seq<Booking>>): (r: seq<Booking>)
    ensures bookings.None? ==> r == []
    ensures bookings.Some? ==> |r| == if |bookings.value| < 5 then |bookings.value| else 5
    ensures bookings.Some? ==> r == bookings.value[..|r|]
  {
    if bookings.None? then []
    else if |bookings.value| < 5 then bookings.value
    else bookings.value[..5]
  }

  /** The today and month cards count the positions of the booking list
      whose date matches. */
  lemma CountedDays(bookings: Option<seq<Booking>>, today: Day, monthStart: Day, monthEnd: Day)
    ensures bookings.Some? ==>
              |TodaysBookings(bookings, today)|
              == |set i | 0 <= i < |bookings.value| && bookings.value[i].bookingDate == today|
    ensures bookings.Some? ==>
              |MonthlyBookings(bookings, monthStart, monthEnd)|
              == |set i | 0 <= i < |bookings.value| && monthStart <= bookings.value[i].bookingDate <= monthEnd|
  {
    if bookings.Some? {
      var bs := bookings.value;
      FilterCountsPositions(IsOn(today), bs);
      assert Positions(IsOn(today), bs) == set i | 0 <= i < |bs| && bs[i].bookingDate == today;
      FilterCountsPositions(InMonth(monthStart, monthEnd), bs);
      assert Positions(InMonth(monthStart, monthEnd), bs)
          == set i | 0 <= i < |bs| && monthStart <= bs[i].bookingDate <= monthEnd;
    }
  }

  /** The tournament card counts the positions holding an active one. */
  lemma CountedActive(tournaments: Option<seq<T.Tournament>>)
    ensures tournaments.Some? ==>
              |ActiveTournaments(tournaments)|
              == |set i | 0 <= i < |tournaments.value| && IsActive(tournaments.value[i])|
  {
    if tournaments.Some? {
      var ts := tournaments.value;
      FilterCountsPositions(IsActive, ts);
      assert Positions(IsActive, ts) == set i | 0 <= i < |ts| && IsActive(ts[i]);
    }
  }

  datatype Overview = Overview(today: nat, monthly: nat, activeTournaments: nat, galleryImages: nat, revenue: nat)

  /** The four stat cards and the revenue figure. */
  function ComputeOverview(
    bookings: Option<seq<Booking>>, tournaments: Option<seq<T.Tournament>>, gallery: Option<seq<G.GalleryImage>>,
    today: Day, monthStart: Day, monthEnd: Day): (r: Overview)
    ensures bookings.None? && tournaments.None? && gallery.None? ==> r == Overview(0, 0, 0, 0, 0)
    ensures bookings.None? ==> r.today == 0 && r.monthly == 0 && r.revenue == 0
    ensures tournaments.None? ==> r.activeTournaments == 0
    ensures gallery.None? ==> r.galleryImages == 0
    ensures r.today == |TodaysBookings(bookings, today)|
    ensures r.monthly == |MonthlyBookings(bookings, monthStart, monthEnd)|
    ensures r.activeTournaments == |ActiveTournaments(tournaments)|
    ensures bookings.Some? ==>
              r.today == |set i | 0 <= i < |bookings.value| && bookings.value[i].bookingDate == today|
    ensures bookings.Some? ==>
              r.monthly == |set i | 0 <= i < |bookings.value| && monthStart <= bookings.value[i].bookingDate <= monthEnd|
    ensures tournaments.Some? ==>
              r.activeTournaments == |set i | 0 <= i < |tournaments.value| && IsActive(tournaments.value[i])|
    ensures r.galleryImages == GalleryCount(gallery)
    ensures r.revenue == RatePerBooking * r.monthly
    ensures monthStart <= today <= monthEnd ==> r.today <= r.monthly
  {
    CountedDays(bookings, today, monthStart, monthEnd);
    CountedActive(tournaments);
    var o := Overview(
      |TodaysBookings(bookings, today)|,
      |MonthlyBookings(bookings, monthStart, monthEnd)|,
      |ActiveTournaments(tournaments)|,
      GalleryCount(gallery),
      EstimatedRevenue(bookings, monthStart, monthEnd));
    if monthStart <= today <= monthEnd then
      TodayWithinMonth(bookings, today, monthStart, monthEnd);
      o
    else o
  }
}

=== FILE: admin_gallery.dfy ===
/** Adding gallery images in the admin panel
    (src/components/admin/AdminGallery.tsx). */
module AdminGallery {
  import opened Wrappers
  import opened Gallery

  /** The two text inputs. */
  datatype Inputs = Inputs(imageUrl: string, caption: string)

  datatype AddStep = Rejected(toast: string) | Create(req: NewGalleryImage)

  /** `handleAddImage` up to the insert: an empty URL is rejected; otherwise
      the URL is sent as typed, an empty caption as null, and the order
      index is the number of images loaded (0 before they load). */
  function AddImage(gallery: Option<seq<GalleryImage>>, inp: Inputs): (r: AddStep)
    ensures r.Rejected? <==> inp.imageUrl == ""
    ensures r.Rejected? ==> r.toast == "Please enter an image URL"
    ensures r.Create? ==> r.req.imageUrl == inp.imageUrl
    ensures r.Create? ==> (r.req.caption.None? <==> inp.caption == "")
    ensures r.Create? && r.req.caption.Some? ==> r.req.caption.value == inp.caption
    ensures r.Create? && gallery.Some? ==> r.req.orderIndex == Some(|gallery.value|)
    ensures r.Create? && gallery.None? ==> r.req.orderIndex == Some(0)
  {
    if inp.imageUrl == "" then Rejected("Please enter an image URL")
    else
      Create(NewGalleryImage(
        inp.imageUrl,
        if inp.caption == "" then None else Some(inp.caption),
        Some(if gallery.Some? then |gallery.value| else 0)))
  }

  /** After the insert: success clears both inputs, a failure (the awaited
      mutation throwing) leaves them. */
  function AfterAdd(inp: Inputs, succeeded: bool): (r: Inputs)
    ensures succeeded ==> r == Inputs("", "")
    ensures !succeeded ==> r == inp
  {
    if succeeded then Inputs("", "") else inp
  }

  /** Every image's order index is its position. */
  predicate DenseOrder(rows: seq<GalleryImage>) {
    forall i :: 0 <= i < |rows| ==> rows[i].orderIndex == Some(i)
  }

  /** Images added one at a time through the panel, each after the list has
      loaded, keep the order indexes equal to the positions. */
  lemma AddKeepsDenseOrder(rows: seq<GalleryImage>, inp: Inputs, id: string, now: string)
    requires DenseOrder(rows)
    requires AddImage(Some(rows), inp).Create?
    ensures DenseOrder(CreateImage(rows, AddImage(Some(rows), inp).req, id, now))
  {
    var r := CreateImage(rows, AddImage(Some(rows), inp).req, id, now);
    assert forall i :: 0 <= i < |rows| ==> r[i] == rows[i];
  }

  /** Adding through a sequence of inputs, starting from the loaded list. */
  function AddAll(rows: seq<GalleryImage>, inputs: seq<Inputs>, ids: seq<string>, now: string): seq<GalleryImage>
    requires |ids| == |inputs|
    decreases |inputs|
  {
    if |inputs| == 0 then rows
    else
      var next := match AddImage(Some(rows), inputs[0])
                  case Rejected(_) => rows
                  case Create(req) => CreateImage(rows, req, ids[0], now);
      AddAll(next, inputs[1..], ids[1..], now)
  }

  /** However many images are added (and however many are rejected), the
      order indexes stay equal to the positions. */
  lemma {:induction false} AddAllKeepsDenseOrder(rows: seq<GalleryImage>, inputs: seq<Inputs>, ids: seq<string>, now: string)
    requires |ids| == |inputs|
    requires DenseOrder(rows)
    ensures DenseOrder(AddAll(rows, inputs, ids, now))
    decreases |inputs|
  {
    if |inputs| > 0 {
      var step := AddImage(Some(rows), inputs[0]);
      if step.Create? {
        AddKeepsDenseOrder(rows, inputs[0], ids[0], now);
        AddAllKeepsDenseOrder(CreateImage(rows, step.req, ids[0], now), inputs[1..], ids[1..], now);
      } else {
        AddAllKeepsDenseOrder(rows, inputs[1..], ids[1..], now);
      }
    }
  }
}

=== FILE: admin_messages.dfy ===
/** The contact-message inbox (src/components/admin/AdminMessages.tsx over
    the `ContactMessage` rows of src/hooks/useContactMessages.ts): the
    all/unread/read filter, the counters and marking a message read. */
module AdminMessages {
  import opened Wrappers
  import opened Seqs

  datatype ContactMessage = ContactMessage(
    id: string,
    name: string,
    email: string,
    message: string,
    isRead: bool,
    createdAt: string)

  datatype MessageFilter = AllMessages | UnreadOnly | ReadOnly

  function IsUnread(m: ContactMessage): bool { !m.isRead }

  function IsRead(m: ContactMessage): bool { m.isRead }

  /** `filteredMessages`: undefined until the messages load; then the
      unread ones, the read ones, or all, each in list order. */
  function FilterMessages(messages: Option<seq<ContactMessage>>, f: MessageFilter): (r: Option<seq<ContactMessage>>)
    ensures r.None? <==> messages.None?
    ensures r.Some? && f == AllMessages ==> r.value == messages.value
    ensures r.Some? && f == UnreadOnly ==> forall m :: m in r.value <==> m in messages.value && !m.isRead
    ensures r.Some? && f == ReadOnly ==> forall m :: m in r.value <==> m in messages.value && m.isRead
    ensures r.Some? ==> multiset(r.value) <= multiset(messages.value)
  {
    match messages
    case None => None
    case Some(ms) =>
      match f
      case AllMessages => Some(ms)
      case UnreadOnly => Some(Filter(IsUnread, ms))
      case ReadOnly => Some(Filter(IsRead, ms))
  }

  /** The unread and read lists split the inbox: together they hold every
      message exactly once. */
  lemma UnreadReadPartition(ms: seq<ContactMessage>)
    ensures var u := FilterMessages(Some(ms), UnreadOnly).value;
            var r := FilterMessages(Some(ms), ReadOnly).value;
            && |u| + |r| == |ms|
            && multiset(u) + multiset(r) == multiset(ms)
  {
    FilterPartition(IsUnread, IsRead, ms);
  }

  /** Each filter keeps list order: a lone message is kept or dropped by its
      flag, and filtering a list split in two filters each part in place. */
  lemma FilterMessagesKeepsOrder(a: seq<ContactMessage>, b: seq<ContactMessage>, m: ContactMessage, f: MessageFilter)
    ensures FilterMessages(Some(a + b), f).value == FilterMessages(Some(a), f).value + FilterMessages(Some(b), f).value
    ensures FilterMessages(Some([m]), UnreadOnly).value == if m.isRead then [] else [m]
    ensures FilterMessages(Some([m]), ReadOnly).value == if m.isRead then [m] else []
  {
    FilterConcat(IsUnread, a, b);
    FilterConcat(IsRead, a, b);
    FilterCons(IsUnread, m, []);
    FilterCons(IsRead, m, []);
    assert [m] + [] == [m];
  }

  /** `unreadCount`: the number of positions holding an unread message, 0
      until the messages load. */
  function UnreadCount(messages: Option<seq<ContactMessage>>): (r: nat)
    ensures messages.None? ==> r == 0
    ensures messages.Some? ==> r == |set i | 0 <= i < |messages.value| && !messages.value[i].isRead|
  {
    match messages
    case None => 0
    case Some(ms) =>
      UnreadPositions(ms);
      |Filter(IsUnread, ms)|
  }

  /** The unread filter keeps one message per unread position. */
  lemma UnreadPositions(ms: seq<ContactMessage>)
    ensures |Filter(IsUnread, ms)| == |set i | 0 <= i < |ms| && !ms[i].isRead|
  {
    FilterCountsPositions(IsUnread, ms);
    assert Positions(IsUnread, ms) == set i | 0 <= i < |ms| && !ms[i].isRead;
  }

  function Total(messages: Option<seq<ContactMessage>>): nat {
    if messages.Some? then |messages.value| else 0
  }

  /** The "Read" counter, computed as total minus unread; it equals the
      number of read messages, so it is never negative. */
  function ReadCount(messages: Option<seq<ContactMessage>>): (r: int)
    ensures r >= 0
    ensures messages.Some? ==> r == |Filter(IsRead, messages.value)|
    ensures messages.None? ==> r == 0
  {
    match messages
    case None => 0
    case Some(ms) =>
      UnreadReadPartition(ms);
      Total(messages) - UnreadCount(messages)
  }

  /** The mark-as-read button is shown exactly for unread messages; a read
      one shows the read icon instead. */
  predicate MarkAsReadOffered(m: ContactMessage) {
    !m.isRead
  }

  /** The mark-as-read buttons on the page are the messages the "unread"
      filter lists, and there are as many of them as the unread counter
      says. */
  lemma MarkAsReadButtons(ms: seq<ContactMessage>)
    ensures forall m :: m in ms ==> (MarkAsReadOffered(m) <==> m in FilterMessages(Some(ms), UnreadOnly).value)
    ensures |set i | 0 <= i < |ms| && MarkAsReadOffered(ms[i])| == UnreadCount(Some(ms))
  {
    assert (set i | 0 <= i < |ms| && MarkAsReadOffered(ms[i])) == set i | 0 <= i < |ms| && !ms[i].isRead;
  }

  /** `update({ is_read: true }).eq("id", id)`. */
  function MarkAsRead(ms: seq<ContactMessage>, id: string): (r: seq<ContactMessage>)
    ensures |r| == |ms|
    ensures forall i :: 0 <= i < |ms| && ms[i].id == id ==> r[i] == ms[i].(isRead := true)
    ensures forall i :: 0 <= i < |ms| && ms[i].id != id ==> r[i] == ms[i]
    decreases |ms|
  {
    if |ms| == 0 then []
    else [if ms[0].id == id then ms[0].(isRead := true) else ms[0]] + MarkAsRead(ms[1..], id)
  }

  /** Marking a message read never raises the unread count, lowers it when
      the button was offered on a message with that id, and afterwards no
      message with that id offers the button. */
  lemma MarkAsReadLowersUnread(ms: seq<ContactMessage>, id: string)
    ensures UnreadCount(Some(MarkAsRead(ms, id))) <= UnreadCount(Some(ms))
    ensures (exists i :: 0 <= i < |ms| && ms[i].id == id && MarkAsReadOffered(ms[i])) ==>
              UnreadCount(Some(MarkAsRead(ms, id))) < UnreadCount(Some(ms))
    ensures forall i :: 0 <= i < |ms| && ms[i].id == id ==> !MarkAsReadOffered(MarkAsRead(ms, id)[i])
  {
    MarkAsReadNoMore(ms, id);
    if exists i :: 0 <= i < |ms| && ms[i].id == id && MarkAsReadOffered(ms[i]) {
      var i :| 0 <= i < |ms| && ms[i].id == id && MarkAsReadOffered(ms[i]);
      MarkAsReadFewer(ms, id, i);
    }
  }

  lemma {:induction false} MarkAsReadNoMore(ms: seq<ContactMessage>, id: string)
    ensures |Filter(IsUnread, MarkAsRead(ms, id))| <= |Filter(IsUnread, ms)|
    decreases |ms|
  {
    if |ms| > 0 {
      MarkAsReadStep(ms, id);
      UnreadStep(ms);
      MarkAsReadNoMore(ms[1..], id);
    }
  }

  lemma {:induction false} MarkAsReadFewer(ms: seq<ContactMessage>, id: string, i: nat)
    requires i < |ms| && ms[i].id == id && !ms[i].isRead
    ensures |Filter(IsUnread, MarkAsRead(ms, id))| < |Filter(IsUnread, ms)|
    decreases i
  {
    MarkAsReadStep(ms, id);
    UnreadStep(ms);
    if i == 0 {
      MarkAsReadNoMore(ms[1..], id);
    } else {
      assert ms[1..][i - 1] == ms[i];
      MarkAsReadFewer(ms[1..], id, i - 1);
    }
  }

  /** Unread messages left after marking, counted from the front. */
  lemma MarkAsReadStep(ms: seq<ContactMessage>, id: string)
    requires |ms| > 0
    ensures |Filter(IsUnread, MarkAsRead(ms, id))|
         == (if IsUnread(ms[0]) && ms[0].id != id then 1 else 0) + |Filter(IsUnread, MarkAsRead(ms[1..], id))|
  {
    var x := if ms[0].id == id then ms[0].(isRead := true) else ms[0];
    assert MarkAsRead(ms, id) == [x] + MarkAsRead(ms[1..], id);
    FilterCons(IsUnread, x, MarkAsRead(ms[1..], id));
  }

  /** Unread messages counted from the front. */
  lemma UnreadStep(ms: seq<ContactMessage>)
    requires |ms| > 0
    ensures |Filter(IsUnread, ms)| == (if IsUnread(ms[0]) then 1 else 0) + |Filter(IsUnread, ms[1..])|
  {
  }


  /** Marking a read message read again changes nothing. */
  lemma MarkAsReadIdempotent(ms: seq<ContactMessage>, id: string)
    ensures MarkAsRead(MarkAsRead(ms, id), id) == MarkAsRead(ms, id)
  {
    var once := MarkAsRead(ms, id);
    var twice := MarkAsRead(once, id);
    assert forall i :: 0 <= i < |ms| ==> twice[i] == once[i];
  }
}

=== FILE: admin_pricing.dfy ===
/** The pricing-plan editor (src/components/admin/AdminPricing.tsx): the
    form, its feature-list editing, the price input, submit validation with
    feature cleaning, and loading a plan for editing. The row shape is the
    `Pricing` interface of src/hooks/usePricing.ts. */
module AdminPricing {
  import opened Wrappers
  import opened Seqs
  import opened Text

  datatype Pricing = Pricing(
    id: string,
    title: string,
    price: int,
    description: Option<string>,
    duration: Option<string>,
    features: Option<seq<string>>,
    isPopular: Option<bool>,
    active: Option<bool>,
    sortOrder: Option<int>,
    createdAt: string,
    updatedAt: string)

  datatype PricingForm = PricingForm(
    title: string,
    price: int,
    duration: string,
    description: string,
    features: seq<string>,
    isPopular: bool,
    active: bool,
    sortOrder: int)

  /** The editor: the form, whether it is open, and the plan being edited
      (None for `null`). */
  datatype Editor = Editor(form: PricingForm, showForm: bool, editingId: Option<string>)

  const EmptyForm := PricingForm("", 0, "", "", [""], false, true, 0)

  /** The form's feature list always has at least one input row. */
  ghost predicate Valid(e: Editor) {
    |e.form.features| > 0
  }

  /** `resetForm`: the empty form (one blank feature, active, not popular,
      sort order 0), closed, editing nothing. */
  function ResetForm(): (r: Editor)
    ensures r.form.title == "" && r.form.price == 0 && r.form.features == [""]
    ensures r.form.active && !r.form.isPopular && r.form.sortOrder == 0
    ensures !r.showForm && r.editingId.None?
    ensures Valid(r)
  {
    Editor(EmptyForm, false, None)
  }

  /** The price input: the decimal value of the typed digits, 0 if none. */
  function PriceInput(e: Editor, raw: string): (r: Editor)
    ensures r.form.price == DecimalValue(OnlyDigits(raw))
    ensures r == e.(form := e.form.(price := r.form.price))
  {
    e.(form := e.form.(price := SanitizeNumeric(raw)))
  }

  /** The field shows `price || ""`; reading that text back gives the same
      price. */
  lemma PriceRoundTrip(e: Editor, price: nat)
    ensures PriceInput(e, NumericDisplay(price)).form.price == price
  {
    SanitizeDisplayRoundTrip(price);
  }

  /** `addFeature`: one blank row appended, the others unchanged. */
  function AddFeature(fs: seq<string>): (r: seq<string>)
    ensures |r| == |fs| + 1 && r[..|fs|] == fs && r[|fs|] == ""
  {
    fs + [""]
  }

  /** `updateFeature(i, v)`: row `i` becomes `v`, the others and the length
      are unchanged. */
  function UpdateFeature(fs: seq<string>, i: nat, v: string): (r: seq<string>)
    requires i < |fs|
    ensures |r| == |fs| && r[i] == v
    ensures forall j :: 0 <= j < |fs| && j != i ==> r[j] == fs[j]
  {
    fs[i := v]
  }

  /** `removeFeature(i)`: row `i` is dropped (an index past the end drops
      nothing), and an emptied list becomes one blank row. */
  function RemoveFeature(fs: seq<string>, i: nat): (r: seq<string>)
    ensures |r| > 0
    ensures i < |fs| && |fs| > 1 ==>
              && |r| == |fs| - 1
              && (forall j :: 0 <= j < i ==> r[j] == fs[j])
              && (forall j :: i <= j < |r| ==> r[j] == fs[j + 1])
    ensures i < |fs| && |fs| == 1 ==> r == [""]
    ensures i >= |fs| && |fs| > 0 ==> r == fs
  {
    var kept := if i < |fs| then fs[..i] + fs[i + 1..] else fs;
    if |kept| > 0 then kept else [""]
  }

  /** Adding a row and removing it again restores the list. */
  lemma RemoveAfterAdd(fs: seq<string>)
    requires |fs| > 0
    ensures RemoveFeature(AddFeature(fs), |fs|) == fs
  {
    assert AddFeature(fs)[..|fs|] == fs;
  }

  /** The saved features: whitespace-only rows dropped, order kept. */
  function CleanFeatures(fs: seq<string>): (r: seq<string>)
    ensures forall f :: f in r <==> f in fs && exists i :: 0 <= i < |f| && !IsSpace(f[i])
    ensures |r| <= |fs|
  {
    forall f ensures Trim(f) != "" <==> exists i :: 0 <= i < |f| && !IsSpace(f[i]) {
      TrimEmptyIff(f);
    }
    Filter((f: string) => Trim(f) != "", fs)
  }

  /** Cleaning keeps the relative order of rows: cleaning a concatenation
      is concatenating the cleaned parts. */
  lemma CleanFeaturesKeepsOrder(a: seq<string>, b: seq<string>)
    ensures CleanFeatures(a + b) == CleanFeatures(a) + CleanFeatures(b)
  {
    FilterConcat((f: string) => Trim(f) != "", a, b);
  }

  datatype Submission =
    | Rejected(toast: string)
    | CreatePlan(fields: PricingForm)
    | UpdatePlan(id: string, fields: PricingForm)

  /** `editingId` is truthy. */
  predicate Editing(e: Editor) {
    e.editingId.Some? && e.editingId.value != ""
  }

  /** `handleSubmit` up to the mutation: an empty title or a zero price is
      rejected; otherwise the form with cleaned features is sent as an
      update of the plan being edited, or as a new plan. */
  function Submit(e: Editor): (r: Submission)
    ensures r.Rejected? <==> e.form.title == "" || e.form.price == 0
    ensures r.Rejected? ==> r.toast == "Please fill required fields"
    ensures r.UpdatePlan? <==> !r.Rejected? && Editing(e)
    ensures r.UpdatePlan? ==> r.id == e.editingId.value
    ensures !r.Rejected? ==>
              r.fields == e.form.(features := CleanFeatures(e.form.features))
  {
    if e.form.title == "" || e.form.price == 0 then Rejected("Please fill required fields")
    else
      var fields := e.form.(features := CleanFeatures(e.form.features));
      if Editing(e) then UpdatePlan(e.editingId.value, fields) else CreatePlan(fields)
  }

  /** After the mutation: success resets the editor, failure leaves it. */
  function AfterSubmit(e: Editor, succeeded: bool): (r: Editor)
    ensures succeeded ==> r == ResetForm()
    ensures !succeeded ==> r == e
  {
    if succeeded then ResetForm() else e
  }

  /** `handleEdit`: the plan's values with missing or empty duration and
      description as "", missing or empty features as one blank row, a
      missing popular flag as false, a missing active flag as true and a
      missing sort order as 0; the form opens editing that plan. */
  function HandleEdit(plan: Pricing): (r: Editor)
    ensures r.showForm && r.editingId == Some(plan.id)
    ensures r.form.title == plan.title && r.form.price == plan.price
    ensures plan.duration.Some? ==> r.form.duration == plan.duration.value
    ensures plan.duration.None? ==> r.form.duration == ""
    ensures plan.description.Some? ==> r.form.description == plan.description.value
    ensures plan.description.None? ==> r.form.description == ""
    ensures plan.features.Some? && plan.features.value != [] ==> r.form.features == plan.features.value
    ensures (plan.features.None? || plan.features.value == []) ==> r.form.features == [""]
    ensures r.form.isPopular <==> plan.isPopular == Some(true)
    ensures r.form.active <==> plan.active != Some(false)
    ensures plan.sortOrder.Some? ==> r.form.sortOrder == plan.sortOrder.value
    ensures plan.sortOrder.None? ==> r.form.sortOrder == 0
    ensures Valid(r)
  {
    var features := if plan.features.Some? && |plan.features.value| > 0 then plan.features.value else [""];
    Editor(
      PricingForm(
        plan.title, plan.price, plan.duration.GetOr(""), plan.description.GetOr(""),
        features, plan.isPopular.GetOr(false), plan.active.GetOr(true), plan.sortOrder.GetOr(0)),
      true, Some(plan.id))
  }

  /** The editing events of the form. */
  datatype Event =
    | Reset
    | Edit(plan: Pricing)
    | Price(raw: string)
    | Add
    | Update(i: nat, v: string)
    | Remove(i: nat)
    | Submitted(succeeded: bool)

  /** One event; a row update outside the list cannot be issued (the inputs
      are rendered one per row) and is ignored. */
  function Step(e: Editor, ev: Event): (r: Editor)
    requires Valid(e)
    ensures Valid(r)
  {
    match ev
    case Reset => ResetForm()
    case Edit(plan) => HandleEdit(plan)
    case Price(raw) => PriceInput(e, raw)
    case Add => e.(form := e.form.(features := AddFeature(e.form.features)))
    case Update(i, v) =>
      if i < |e.form.features| then e.(form := e.form.(features := UpdateFeature(e.form.features, i, v))) else e
    case Remove(i) => e.(form := e.form.(features := RemoveFeature(e.form.features, i)))
    case Submitted(ok) => if Submit(e).Rejected? then e else AfterSubmit(e, ok)
  }

  function Run(e: Editor, evs: seq<Event>): Editor
    requires Valid(e)
    decreases |evs|
  {
    if |evs| == 0 then e else Run(Step(e, evs[0]), evs[1..])
  }

  /** From the initial editor, no sequence of events empties the feature
      list. */
  lemma {:induction false} FeaturesNeverEmpty(e: Editor, evs: seq<Event>)
    requires Valid(e)
    ensures |Run(e, evs).form.features| > 0
    decreases |evs|
  {
    if |evs| > 0 {
      FeaturesNeverEmpty(Step(e, evs[0]), evs[1..]);
    }
  }
}

=== FILE: admin_settings.dfy ===
/** The settings page (src/components/admin/AdminSettings.tsx): the form
    filled from the stored row, per-field edits with the unsaved-changes
    flag, and saving. */
module AdminSettings {
  import opened Wrappers
  import opened ClubSettings

  datatype Field = ClubName | Address | OpeningHours | ContactNumber | WhatsappNumber | GoogleMapsLink

  /** The form holds the same six texts the update writes. */
  type SettingsForm = SettingsUpdate

  datatype Page = Page(form: SettingsForm, hasChanges: bool)

  const EmptyForm: SettingsForm := SettingsUpdate("", "", "", "", "", "")

  const InitialPage: Page := Page(EmptyForm, false)

  function Get(f: SettingsForm, field: Field): string {
    match field
    case ClubName => f.clubName
    case Address => f.address
    case OpeningHours => f.openingHours
    case ContactNumber => f.contactNumber
    case WhatsappNumber => f.whatsappNumber
    case GoogleMapsLink => f.googleMapsLink
  }

  /** The stored value of a field, null read as "". */
  function Stored(s: Settings, field: Field): string {
    match field
    case ClubName => s.clubName
    case Address => s.address
    case OpeningHours => s.openingHours
    case ContactNumber => s.contactNumber.GetOr("")
    case WhatsappNumber => s.whatsappNumber.GetOr("")
    case GoogleMapsLink => s.googleMapsLink.GetOr("")
  }

  /** The effect run when the settings load: each field gets the stored
      value or ""; with no row the form is left as it is. The flag is not
      touched. */
  function Populate(p: Page, settings: Option<Settings>): (r: Page)
    ensures r.hasChanges == p.hasChanges
    ensures settings.None? ==> r == p
    ensures settings.Some? ==> forall field :: Get(r.form, field) == Stored(settings.value, field)
  {
    match settings
    case None => p
    case Some(s) =>
      p.(form := SettingsUpdate(
        s.clubName, s.address, s.openingHours,
        s.contactNumber.GetOr(""), s.whatsappNumber.GetOr(""), s.googleMapsLink.GetOr("")))
  }

  /** `handleChange`: the named field takes the value, the others stay, and
      the form is marked changed. */
  function HandleChange(p: Page, field: Field, value: string): (r: Page)
    ensures r.hasChanges
    ensures Get(r.form, field) == value
    ensures forall other :: other != field ==> Get(r.form, other) == Get(p.form, other)
  {
    var f := p.form;
    var nf := match field
      case ClubName => f.(clubName := value)
      case Address => f.(address := value)
      case OpeningHours => f.(openingHours := value)
      case ContactNumber => f.(contactNumber := value)
      case WhatsappNumber => f.(whatsappNumber := value)
      case GoogleMapsLink => f.(googleMapsLink := value);
    Page(nf, true)
  }

  /** Both save buttons are rendered exactly while there are changes. */
  predicate SaveVisible(p: Page) {
    p.hasChanges
  }

  /** `handleSave`: the whole form goes to the mutation; the flag is cleared
      only when it resolves, and a rejected mutation leaves page and row as
      they were. Returns the page and the stored row afterwards. */
  function HandleSave(p: Page, row: Option<Settings>, succeeded: bool): (r: (Page, Option<Settings>))
    ensures !succeeded ==> r == (p, row)
    ensures succeeded ==> r.0 == p.(hasChanges := false)
    ensures succeeded ==> r.1 == UpdateSettings(row, p.form)
    ensures r.0.form == p.form
  {
    if succeeded then (p.(hasChanges := false), UpdateSettings(row, p.form)) else (p, row)
  }

  /** Editing shows the save buttons; a successful save hides them, a
      failed one keeps them. */
  lemma SaveButtonsFollowChanges(p: Page, row: Option<Settings>, field: Field, value: string)
    ensures SaveVisible(HandleChange(p, field, value))
    ensures !SaveVisible(HandleSave(HandleChange(p, field, value), row, true).0)
    ensures SaveVisible(HandleSave(HandleChange(p, field, value), row, false).0)
  {
  }

  /** A saved form comes back unchanged when the page reloads the stored
      row, field by field. */
  lemma SaveThenReloadKeepsForm(p: Page, s: Settings)
    ensures var (after, row) := HandleSave(p, Some(s), true);
            row.Some? && Populate(after, row) == after
  {
    var (after, row) := HandleSave(p, Some(s), true);
    assert forall field :: Get(Populate(after, row).form, field) == Get(after.form, field);
  }

  /** Loading the row into the page and saving it without edits writes the
      stored values back, with the nulls stored as "". */
  lemma SaveUnchangedNormalisesNulls(s: Settings)
    ensures var (_, row) := HandleSave(Populate(InitialPage, Some(s)), Some(s), true);
            && row.Some?
            && forall field :: Stored(row.value, field) == Stored(s, field)
  {
  }
}

=== FILE: admin_setup.dfy ===
/** First-admin setup (src/pages/AdminSetup.tsx): the form schema, the
    check for an existing admin, and the sign-up followed by the admin-role
    grant. The remote calls' answers are parameters. */
module AdminSetup {
  import opened Wrappers

  const MinPasswordLength: nat := 6

  const InvalidEmailMessage: string := "Please enter a valid email address"
  const ShortPasswordMessage: string := "Password must be at least 6 characters"
  const MismatchMessage: string := "Passwords don't match"
  const NoUserMessage: string := "Failed to create user account"
  const RoleGrantFailedMessage: string := "Account created but failed to grant admin role. Please contact support."
  const DefaultErrorMessage: string := "An error occurred during setup"

  datatype Field = Email | Password | ConfirmPassword

  datatype Issue = Issue(path: Field, message: string)

  datatype SetupForm = SetupForm(email: string, password: string, confirmPassword: string)

  /** The schema's issues in the order it reports them: the field checks in
      field order, then the match refinement (which still runs when a
      field check failed, as the field checks are not fatal). The email
      check of the schema library is the parameter `isEmail`. */
  function Validate(f: SetupForm, isEmail: string -> bool): (r: seq<Issue>)
    ensures r == [] <==> isEmail(f.email) && |f.password| >= MinPasswordLength && f.password == f.confirmPassword
    ensures Issue(Email, InvalidEmailMessage) in r <==> !isEmail(f.email)
    ensures Issue(Password, ShortPasswordMessage) in r <==> |f.password| < MinPasswordLength
    ensures Issue(ConfirmPassword, MismatchMessage) in r <==> f.password != f.confirmPassword
    ensures forall i :: 0 <= i < |r| ==> r[i].path == ConfirmPassword ==> r[i].message == MismatchMessage
    ensures !isEmail(f.email) ==> r[0] == Issue(Email, InvalidEmailMessage)
    ensures isEmail(f.email) && |f.password| < MinPasswordLength ==> r[0] == Issue(Password, ShortPasswordMessage)
  {
    (if isEmail(f.email) then [] else [Issue(Email, InvalidEmailMessage)])
    + (if |f.password| >= MinPasswordLength then [] else [Issue(Password, ShortPasswordMessage)])
    + (if f.password == f.confirmPassword then [] else [Issue(ConfirmPassword, MismatchMessage)])
  }

  /** A valid email and a long enough password with a differing
      confirmation: the one message shown is the mismatch, on the
      confirmation field. */
  lemma OnlyMismatchReported(f: SetupForm, isEmail: string -> bool)
    requires isEmail(f.email) && |f.password| >= MinPasswordLength && f.password != f.confirmPassword
    ensures Validate(f, isEmail) == [Issue(ConfirmPassword, MismatchMessage)]
  {
  }

  /** The answer of the admin-role count query. */
  datatype CountAnswer = QueryFailed | Threw | Counted(count: Option<int>)

  /** `adminExists`: a positive count (null read as 0); a failed or throwing
      query lets the setup proceed. */
  function AdminExists(a: CountAnswer): (r: bool)
    ensures r <==> a.Counted? && a.count.Some? && a.count.value > 0
    ensures a.QueryFailed? || a.Threw? ==> !r
  {
    match a
    case QueryFailed => false
    case Threw => false
    case Counted(c) => c.GetOr(0) > 0
  }

  /** The sign-up call's answer: an error or exception with its message, or
      the created user (absent when none came back). */
  datatype SignUpAnswer = SignUpFailed(message: string) | SignedUp(user: Option<string>)

  /** What a submit did: whether sign-up was called, the user id the admin
      role was inserted for, the success flag and the error shown. */
  datatype SubmitResult = SubmitResult(signUpCalled: bool, roleGrantedTo: Option<string>, success: bool, error: string)

  /** A caught error's message, or the default when it is empty. */
  function ErrorText(message: string): (r: string)
    ensures r != ""
    ensures message != "" ==> r == message
  {
    if message != "" then message else DefaultErrorMessage
  }

  /** `handleSubmit`: a failed validation shows the first issue and calls
      nothing; otherwise sign-up, then the role insert for the returned
      user; any failure becomes the shown error. `roleInsertFails` is the
      insert's answer, consulted only when it is made. */
  function Submit(f: SetupForm, isEmail: string -> bool, signUp: SignUpAnswer, roleInsertFails: bool): (r: SubmitResult)
    ensures Validate(f, isEmail) != [] ==>
              r == SubmitResult(false, None, false, Validate(f, isEmail)[0].message)
    ensures r.signUpCalled <==> Validate(f, isEmail) == []
    ensures r.roleGrantedTo.Some? <==> r.signUpCalled && signUp.SignedUp? && signUp.user.Some?
    ensures r.roleGrantedTo.Some? ==> signUp == SignedUp(r.roleGrantedTo)
    ensures r.success <==> r.roleGrantedTo.Some? && !roleInsertFails
    ensures r.success <==> r.error == ""
    ensures r.signUpCalled && signUp == SignedUp(None) ==> r.error == NoUserMessage
    ensures r.roleGrantedTo.Some? && roleInsertFails ==> r.error == RoleGrantFailedMessage
  {
    var issues := Validate(f, isEmail);
    if issues != [] then SubmitResult(false, None, false, issues[0].message)
    else
      match signUp
      case SignUpFailed(m) => SubmitResult(true, None, false, ErrorText(m))
      case SignedUp(None) => SubmitResult(true, None, false, NoUserMessage)
      case SignedUp(Some(id)) =>
        if roleInsertFails then SubmitResult(true, Some(id), false, RoleGrantFailedMessage)
        else SubmitResult(true, Some(id), true, "")
  }

  /** Success takes the whole chain: a valid form, a created user and a
      granted role; each missing link leaves an error instead. */
  lemma SuccessNeedsEveryStep(f: SetupForm, isEmail: string -> bool, signUp: SignUpAnswer, roleInsertFails: bool)
    ensures Submit(f, isEmail, signUp, roleInsertFails).success <==>
              && isEmail(f.email) && |f.password| >= MinPasswordLength && f.password == f.confirmPassword
              && signUp.SignedUp? && signUp.user.Some? && !roleInsertFails
  {
  }
}

=== FILE: admin_slideshow.dfy ===
/** Hero-slideshow management (src/components/admin/AdminSlideshow.tsx):
    the uploaded file's name, the new slide's order index and defaults, the
    partial update payload, the tagline edit, the active count, the switch,
    and the storage name used when a slide is deleted. */
module AdminSlideshow {
  import opened Wrappers
  import opened Text

  datatype Slide = Slide(
    id: string,
    imageUrl: string,
    tagline: Option<string>,
    orderIndex: Option<int>,
    active: Option<bool>,
    createdAt: string)

  // ---------------------------------------------------------------------
  // Order index of a new slide

  /** `s.order_index || 0`. */
  function OrderOf(s: Slide): int {
    s.orderIndex.GetOr(0)
  }

  /** `reduce((max, s) => Math.max(max, s.order_index || 0), 0)` over the
      slides, as a left fold. */
  function MaxOrderFold(slides: seq<Slide>): (r: int)
    ensures r >= 0
    ensures forall i :: 0 <= i < |slides| ==> OrderOf(slides[i]) <= r
    ensures r == 0 || exists i :: 0 <= i < |slides| && OrderOf(slides[i]) == r
    decreases |slides|
  {
    if |slides| == 0 then 0
    else
      var prev := MaxOrderFold(slides[..|slides| - 1]);
      var last := OrderOf(slides[|slides| - 1]);
      assert forall i :: 0 <= i < |slides| - 1 ==> slides[..|slides| - 1][i] == slides[i];
      if last > prev then last else prev
  }

  /** The new slide's order index: one more than the largest existing one
      (missing ones read as 0), so 1 for the first slide or before the list
      has loaded. */
  function NextOrderIndex(slides: Option<seq<Slide>>): (r: int)
    ensures r >= 1
    ensures slides.Some? ==> forall i :: 0 <= i < |slides.value| ==> OrderOf(slides.value[i]) < r
    ensures slides.None? ==> r == 1
    ensures slides.Some? && r > 1 ==> exists i :: 0 <= i < |slides.value| && OrderOf(slides.value[i]) == r - 1
  {
    (if slides.Some? then MaxOrderFold(slides.value) else 0) + 1
  }

  // ---------------------------------------------------------------------
  // Upload

  /** `slideshow-${Date.now()}.${file.name.split(".").pop()}`. */
  function UploadFileName(originalName: string, nowMs: nat): (r: string)
    ensures |r| > 11 && r[..10] == "slideshow-"
  {
    "slideshow-" + NatToDecimal(nowMs) + "." + LastSegment(originalName, '.')
  }

  /** The uploaded name keeps the original extension: the text after its
      last '.' is that of the original name. */
  lemma UploadKeepsExtension(originalName: string, nowMs: nat)
    ensures LastSegment(UploadFileName(originalName, nowMs), '.') == LastSegment(originalName, '.')
  {
    LastSegmentAfterSep("slideshow-" + NatToDecimal(nowMs), '.', LastSegment(originalName, '.'));
  }

  /** The upload time sits between the "slideshow-" prefix and the '.'
      before the extension, written in decimal. */
  lemma UploadNameCarriesTime(originalName: string, nowMs: nat)
    ensures |UploadFileName(originalName, nowMs)| > 10 + |NatToDecimal(nowMs)|
    ensures UploadFileName(originalName, nowMs)[10..10 + |NatToDecimal(nowMs)|] == NatToDecimal(nowMs)
    ensures UploadFileName(originalName, nowMs)[10 + |NatToDecimal(nowMs)|] == '.'
    ensures DecimalValue(UploadFileName(originalName, nowMs)[10..10 + |NatToDecimal(nowMs)|]) == nowMs
  {
    var digits := NatToDecimal(nowMs);
    var r := UploadFileName(originalName, nowMs);
    assert r == "slideshow-" + digits + "." + LastSegment(originalName, '.');
    assert r[10..10 + |digits|] == digits;
  }

  /** Two uploads of the same file get the same name exactly when they
      happen at the same millisecond. */
  lemma UploadNameDeterminesTime(originalName: string, t1: nat, t2: nat)
    ensures UploadFileName(originalName, t1) == UploadFileName(originalName, t2) <==> t1 == t2
  {
    var n1 := UploadFileName(originalName, t1);
    var n2 := UploadFileName(originalName, t2);
    if n1 == n2 {
      var ext := LastSegment(originalName, '.');
      var a1 := "slideshow-" + NatToDecimal(t1) + ".";
      var a2 := "slideshow-" + NatToDecimal(t2) + ".";
      assert n1 == a1 + ext && n2 == a2 + ext;
      assert a1 == n1[..|n1| - |ext|] == a2;
      assert NatToDecimal(t1) == a1[10..|a1| - 1] == NatToDecimal(t2);
    }
  }

  /** The record inserted for an uploaded file. */
  datatype NewSlide = NewSlide(imageUrl: string, tagline: Option<string>, orderIndex: int, active: bool)

  /** The insert after a successful upload: the file's public URL, an empty
      tagline as null, the next order index, and active. */
  function SlideToInsert(publicUrl: string, tagline: string, slides: Option<seq<Slide>>): (r: NewSlide)
    ensures r.active
    ensures r.imageUrl == publicUrl
    ensures r.tagline.None? <==> tagline == ""
    ensures r.tagline.Some? ==> r.tagline.value == tagline
    ensures r.orderIndex == NextOrderIndex(slides)
  {
    NewSlide(publicUrl, if tagline == "" then None else Some(tagline), NextOrderIndex(slides), true)
  }

  /** `split("/")` then the last part: the object name removed from storage
      when a slide is deleted. */
  function StorageName(imageUrl: string): (r: string)
    ensures '/' !in r
    ensures |r| <= |imageUrl| && r == imageUrl[|imageUrl| - |r|..]
    ensures |r| < |imageUrl| ==> imageUrl[|imageUrl| - |r| - 1] == '/'
  {
    LastSegment(imageUrl, '/')
  }

  /** Deleting an uploaded slide removes the file the upload stored: the
      public URL is the bucket URL, a '/', and the stored name. */
  lemma DeleteFindsUploadedFile(bucketUrl: string, originalName: string, nowMs: nat)
    requires '/' !in LastSegment(originalName, '.')
    ensures StorageName(bucketUrl + "/" + UploadFileName(originalName, nowMs)) == UploadFileName(originalName, nowMs)
  {
    var name := UploadFileName(originalName, nowMs);
    UploadNameHasNoSlash(originalName, nowMs);
    LastSegmentAfterSep(bucketUrl, '/', name);
  }

  /** An uploaded name contains no '/' when the extension has none. */
  lemma UploadNameHasNoSlash(originalName: string, nowMs: nat)
    requires '/' !in LastSegment(originalName, '.')
    ensures '/' !in UploadFileName(originalName, nowMs)
  {
    NameFromPartsHasNoSlash(NatToDecimal(nowMs), LastSegment(originalName, '.'));
  }

  lemma NameFromPartsHasNoSlash(digits: string, ext: string)
    requires AllDigits(digits) && '/' !in ext
    ensures '/' !in "slideshow-" + digits + "." + ext
  {
    FixedPartsHaveNoSlash();
    assert '/' !in digits by {
      assert forall i :: 0 <= i < |digits| ==> digits[i] != '/';
    }
    NotInConcat('/', "slideshow-", digits);
    NotInConcat('/', "slideshow-" + digits, ".");
    NotInConcat('/', "slideshow-" + digits + ".", ext);
  }

  lemma FixedPartsHaveNoSlash()
    ensures '/' !in "slideshow-" && '/' !in "."
  {
  }

  lemma NotInConcat(x: char, a: string, b: string)
    requires x !in a && x !in b
    ensures x !in a + b
  {
  }

  /** The upload form. */
  datatype UploadForm = UploadForm(selectedFile: Option<string>, previewUrl: string, tagline: string, uploading: bool)

  /** The upload button is enabled with a file chosen and no upload running. */
  predicate UploadEnabled(u: UploadForm) {
    u.selectedFile.Some? && !u.uploading
  }

  /** The mutation's success handler: the file, the preview and the
      tagline are cleared. */
  function OnUploadSuccess(u: UploadForm): (r: UploadForm)
    ensures r.selectedFile.None? && r.previewUrl == "" && r.tagline == ""
    ensures r.uploading == u.uploading
  {
    u.(selectedFile := None, previewUrl := "", tagline := "")
  }

  /** `handleUpload` as written: nothing without a file; otherwise
      `uploading` is set, the mutation awaited, and `uploading` cleared
      after it. A failed mutation rejects the awaited promise, so the line
      clearing `uploading` is not reached. */
  function HandleUploadAsWritten(u: UploadForm, succeeded: bool): (r: UploadForm)
    ensures u.selectedFile.None? ==> r == u
    ensures u.selectedFile.Some? && succeeded ==> r == OnUploadSuccess(u).(uploading := false)
    ensures u.selectedFile.Some? && !succeeded ==> r == u.(uploading := true)
  {
    if u.selectedFile.None? then u
    else if succeeded then OnUploadSuccess(u.(uploading := true)).(uploading := false)
    else u.(uploading := true)
  }

  /** One failed upload leaves the button disabled for good: the file is
      still chosen but `uploading` stays set. */
  lemma FailedUploadDisablesButton(u: UploadForm)
    requires UploadEnabled(u)
    ensures var r := HandleUploadAsWritten(u, false);
            r.selectedFile.Some? && !UploadEnabled(r)
  {
  }

  /** `handleUpload` with `uploading` cleared whatever the outcome (as a
      `finally` would). */
  function HandleUpload(u: UploadForm, succeeded: bool): (r: UploadForm)
    ensures u.selectedFile.None? ==> r == u
    ensures u.selectedFile.Some? && succeeded ==> r == OnUploadSuccess(u).(uploading := false)
    ensures u.selectedFile.Some? && !succeeded ==> r == u.(uploading := false)
  {
    if u.selectedFile.None? then u
    else if succeeded then OnUploadSuccess(u).(uploading := false)
    else u.(uploading := false)
  }

  /** After an upload attempt the button can be used again exactly when a
      file is still chosen, so a failed upload can be retried. */
  lemma UploadCanBeRetried(u: UploadForm, succeeded: bool)
    requires UploadEnabled(u)
    ensures UploadEnabled(HandleUpload(u, succeeded)) <==> !succeeded
    ensures !succeeded ==> HandleUpload(u, succeeded) == u
  {
  }

  // ---------------------------------------------------------------------
  // Updates

  datatype PayloadValue = Text(text: string) | Flag(flag: bool)

  /** The update payload: exactly the provided fields. */
  function UpdatePayload(tagline: Option<string>, active: Option<bool>): (r: map<string, PayloadValue>)
    ensures "tagline" in r <==> tagline.Some?
    ensures "active" in r <==> active.Some?
    ensures forall k :: k in r ==> k == "tagline" || k == "active"
    ensures tagline.Some? ==> r["tagline"] == Text(tagline.value)
    ensures active.Some? ==> r["active"] == Flag(active.value)
  {
    var withTagline := if tagline.Some? then map["tagline" := Text(tagline.value)] else map[];
    if active.Some? then withTagline["active" := Flag(active.value)] else withTagline
  }

  /** Writing a payload to a slide: only the fields in it change. */
  function ApplyPayload(s: Slide, p: map<string, PayloadValue>): (r: Slide)
    ensures r.id == s.id && r.imageUrl == s.imageUrl && r.orderIndex == s.orderIndex && r.createdAt == s.createdAt
    ensures "tagline" !in p || !p["tagline"].Text? ==> r.tagline == s.tagline
    ensures "active" !in p || !p["active"].Flag? ==> r.active == s.active
    ensures "tagline" in p && p["tagline"].Text? ==> r.tagline == Some(p["tagline"].text)
    ensures "active" in p && p["active"].Flag? ==> r.active == Some(p["active"].flag)
  {
    var t := if "tagline" in p && p["tagline"].Text? then Some(p["tagline"].text) else s.tagline;
    var a := if "active" in p && p["active"].Flag? then Some(p["active"].flag) else s.active;
    s.(tagline := t, active := a)
  }

  /** The tagline field's blur: an update with the new text is sent only
      when it differs from the stored tagline (null read as ""). */
  function TaglineBlur(s: Slide, value: string): (r: Option<map<string, PayloadValue>>)
    ensures r.None? <==> value == s.tagline.GetOr("")
    ensures r.Some? ==> r.value == UpdatePayload(Some(value), None)
  {
    if value != s.tagline.GetOr("") then Some(UpdatePayload(Some(value), None)) else None
  }

  /** Leaving the field untouched sends nothing; a sent edit stores the new
      text and leaves the active flag alone. */
  lemma TaglineBlurEffect(s: Slide, value: string)
    ensures TaglineBlur(s, s.tagline.GetOr("")).None?
    ensures TaglineBlur(s, value).Some? ==>
              var r := ApplyPayload(s, TaglineBlur(s, value).value);
              r.tagline == Some(value) && r.active == s.active
  {
  }

  // ---------------------------------------------------------------------
  // The active flag

  /** A slide the site shows: its flag is `true` (the public query selects
      `active = true`; the list label and dimming also read it as truthy). */
  predicate Shown(s: Slide) {
    s.active == Some(true)
  }

  /** "(n active)": the number of slides with a truthy flag. */
  function ActiveCount(slides: Option<seq<Slide>>): (r: nat)
    ensures slides.None? ==> r == 0
    ensures slides.Some? ==> r <= |slides.value|
    ensures slides.Some? ==> r == |set i | 0 <= i < |slides.value| && Shown(slides.value[i])|
  {
    if slides.None? then 0 else CountShown(slides.value)
  }

  function CountShown(ss: seq<Slide>): (r: nat)
    ensures r == |set i | 0 <= i < |ss| && Shown(ss[i])|
    ensures r <= |ss|
    decreases |ss|
  {
    if |ss| == 0 then 0
    else
      var n := |ss| - 1;
      var prev := set i | 0 <= i < n && Shown(ss[..n][i]);
      var all := set i | 0 <= i < |ss| && Shown(ss[i]);
      var rest := CountShown(ss[..n]);
      assert prev == set i | 0 <= i < n && Shown(ss[i]);
      if Shown(ss[n]) then
        assert all == prev + {n};
        rest + 1
      else
        assert all == prev;
        rest
  }

  /** The switch as written: `checked={slide.active ?? true}`. */
  function SwitchCheckedAsWritten(s: Slide): (r: bool)
    ensures r <==> s.active != Some(false)
    ensures s.active.None? ==> r
  {
    s.active.GetOr(true)
  }

  /** A slide stored with a null flag: the switch shows it on, while the
      label says "Hidden", the count leaves it out, and the site does not
      show it. */
  lemma NullActiveSwitchDisagrees(s: Slide)
    requires s.active.None?
    ensures SwitchCheckedAsWritten(s) && !Shown(s)
    ensures ActiveCount(Some([s])) == 0
  {
    assert (set i | 0 <= i < 1 && Shown([s][i])) == {};
  }

  /** The switch reading the flag the way the rest of the page does. */
  function SwitchChecked(s: Slide): (r: bool)
    ensures r <==> Shown(s)
  {
    s.active == Some(true)
  }

  /** With that reading the switch agrees with the count: the active count
      is the number of slides whose switch is on, and flipping a switch
      stores the opposite of what it shows. */
  lemma SwitchAgreesWithCount(slides: seq<Slide>, i: nat)
    requires i < |slides|
    ensures ActiveCount(Some(slides)) == |set k | 0 <= k < |slides| && SwitchChecked(slides[k])|
    ensures SwitchChecked(ApplyPayload(slides[i], UpdatePayload(None, Some(!SwitchChecked(slides[i]))))) != SwitchChecked(slides[i])
  {
    assert (set k | 0 <= k < |slides| && SwitchChecked(slides[k])) == (set k | 0 <= k < |slides| && Shown(slides[k]));
  }
}

=== FILE: admin_tournaments.dfy ===
/** The tournament editor (src/components/admin/AdminTournaments.tsx): the
    form and its defaults, the entry-fee input, submit validation with the
    create-or-update choice, loading a tournament for editing, and the
    status selects. */
module AdminTournaments {
  import opened Wrappers
  import opened Text
  import opened Tournaments

  datatype TournamentForm = TournamentForm(
    name: string,
    date: string,
    description: string,
    entryFee: int,
    prizePool: string,
    maxParticipants: int,
    status: TournamentStatus)

  datatype Editor = Editor(form: TournamentForm, showForm: bool, editingId: Option<string>)

  const DefaultMaxParticipants: int := 32

  /** `resetForm`: empty texts, entry fee 0, 32 places, status upcoming;
      the form closes and nothing is being edited. */
  function ResetForm(): (r: Editor)
    ensures r.form.name == "" && r.form.date == "" && r.form.description == "" && r.form.prizePool == ""
    ensures r.form.entryFee == 0 && r.form.maxParticipants == 32 && r.form.status == Upcoming
    ensures !r.showForm && r.editingId.None?
  {
    Editor(TournamentForm("", "", "", 0, "", DefaultMaxParticipants, Upcoming), false, None)
  }

  /** The entry-fee input: the decimal value of the typed digits, 0 if
      none; nothing else in the editor changes. */
  function EntryFeeInput(e: Editor, raw: string): (r: Editor)
    ensures r.form.entryFee == DecimalValue(OnlyDigits(raw))
    ensures r == e.(form := e.form.(entryFee := r.form.entryFee))
  {
    e.(form := e.form.(entryFee := SanitizeNumeric(raw)))
  }

  /** The field shows `entry_fee || ""`; reading that text back gives the
      same fee, so an untouched field keeps its value. */
  lemma EntryFeeRoundTrip(e: Editor, fee: nat)
    ensures EntryFeeInput(e, NumericDisplay(fee)).form.entryFee == fee
  {
    SanitizeDisplayRoundTrip(fee);
  }

  datatype Submission =
    | Rejected(toast: string)
    | CreateTournament(fields: TournamentForm)
    | UpdateTournament(id: string, fields: TournamentForm)

  /** `handleSubmit` up to the mutation: an empty name or date is rejected;
      otherwise the whole form goes out as an update of the tournament
      being edited (a non-empty id) or as a new tournament. */
  function Submit(e: Editor): (r: Submission)
    ensures r.Rejected? <==> e.form.name == "" || e.form.date == ""
    ensures r.Rejected? ==> r.toast == "Please fill required fields"
    ensures r.UpdateTournament? <==> !r.Rejected? && e.editingId.Some? && e.editingId.value != ""
    ensures r.UpdateTournament? ==> r.id == e.editingId.value && r.fields == e.form
    ensures r.CreateTournament? ==> r.fields == e.form
  {
    if e.form.name == "" || e.form.date == "" then Rejected("Please fill required fields")
    else if e.editingId.Some? && e.editingId.value != "" then UpdateTournament(e.editingId.value, e.form)
    else CreateTournament(e.form)
  }

  /** After the mutation: success resets the editor (whose empty form
      cannot be submitted again) and toasts whether the tournament was
      updated or created; a rejected mutation leaves the editor and shows
      no toast of its own. */
  function AfterSubmit(e: Editor, succeeded: bool): (r: (Editor, Option<string>))
    ensures succeeded ==> r.0 == ResetForm() && Submit(r.0).Rejected?
    ensures succeeded && Submit(e).UpdateTournament? ==> r.1 == Some("Tournament updated!")
    ensures succeeded && Submit(e).CreateTournament? ==> r.1 == Some("Tournament created!")
    ensures !succeeded ==> r == (e, None)
  {
    if !succeeded then (e, None)
    else if e.editingId.Some? && e.editingId.value != "" then (ResetForm(), Some("Tournament updated!"))
    else (ResetForm(), Some("Tournament created!"))
  }

  /** `handleEdit`: the tournament's values, missing description and prize
      pool as "", a missing entry fee as 0, a missing or zero participant
      limit as 32; the status is taken over as it is. */
  function HandleEdit(t: Tournament): (r: Editor)
    ensures r.showForm && r.editingId == Some(t.id)
    ensures r.form.name == t.name && r.form.date == t.date && r.form.status == t.status
    ensures r.form.description == t.description.GetOr("")
    ensures r.form.prizePool == t.prizePool.GetOr("")
    ensures r.form.entryFee == t.entryFee.GetOr(0)
    ensures t.maxParticipants.Some? && t.maxParticipants.value != 0 ==> r.form.maxParticipants == t.maxParticipants.value
    ensures t.maxParticipants.None? || t.maxParticipants == Some(0) ==> r.form.maxParticipants == 32
    ensures r.form.maxParticipants != 0
  {
    var maxP := if t.maxParticipants.Some? && t.maxParticipants.value != 0 then t.maxParticipants.value else DefaultMaxParticipants;
    Editor(
      TournamentForm(t.name, t.date, t.description.GetOr(""), t.entryFee.GetOr(0), t.prizePool.GetOr(""), maxP, t.status),
      true, Some(t.id))
  }

  /** Editing a tournament and saving it unchanged writes back what was
      read, for a tournament whose optional fields are all set. */
  lemma EditThenSaveWritesBack(t: Tournament)
    requires t.name != "" && t.date != "" && t.id != ""
    requires t.description.Some? && t.prizePool.Some? && t.entryFee.Some?
    requires t.maxParticipants.Some? && t.maxParticipants.value != 0
    ensures var s := Submit(HandleEdit(t));
            && s.UpdateTournament? && s.id == t.id
            && s.fields == TournamentForm(t.name, t.date, t.description.value, t.entryFee.value,
                                          t.prizePool.value, t.maxParticipants.value, t.status)
  {
  }

  /** The statuses both selects offer. */
  const StatusOptions: seq<TournamentStatus> := [Upcoming, Ongoing, Completed]

  /** Picking an option of the form's select. */
  function SelectFormStatus(e: Editor, i: nat): (r: Editor)
    requires i < |StatusOptions|
    ensures r.form.status == StatusOptions[i] && r.form.status != Cancelled
    ensures r.(form := r.form.(status := e.form.status)) == e
  {
    e.(form := e.form.(status := StatusOptions[i]))
  }

  /** `handleStatusChange` from a tournament row's select: that tournament
      gets the picked status, which is never "cancelled". */
  function ChangeStatus(rows: seq<Tournament>, id: string, i: nat): (r: seq<Tournament>)
    requires i < |StatusOptions|
    ensures |r| == |rows|
    ensures forall k :: 0 <= k < |rows| && rows[k].id == id ==> r[k].status == StatusOptions[i] && r[k].status != Cancelled
    ensures forall k :: 0 <= k < |rows| && rows[k].id != id ==> r[k] == rows[k]
  {
    SetStatus(rows, id, StatusOptions[i])
  }

  /** No status change made through the admin selects turns a tournament
      into a cancelled one: a tournament is cancelled afterwards only if
      it was before. */
  lemma SelectsNeverCancel(rows: seq<Tournament>, id: string, i: nat, k: nat)
    requires i < |StatusOptions| && k < |rows|
    ensures ChangeStatus(rows, id, i)[k].status == Cancelled ==> rows[k].status == Cancelled
  {
  }
}

=== FILE: booking_section.dfy ===
/** The public booking form (src/components/BookingSection.tsx): which
    (time slot, table) pairs of the chosen date are booked, blocked or
    available, the slot and table pickers built from that, the selection
    resets, and the submit flow with its error classification. */
module BookingSection {
  import opened Wrappers
  import opened Seqs
  import opened Text
  import opened Bookings

  /** The two lists fetched for the selected date; None while a query has
      not returned (`data` is undefined). */
  datatype DayData = DayData(bookings: Option<seq<Booking>>, blocked: Option<seq<BlockedSlot>>)

  // ---------------------------------------------------------------------
  // The availability rule

  /** A confirmed booking of exactly this slot and table. */
  predicate Occupies(b: Booking, slot: string, table: int) {
    b.timeSlot == slot && b.tableNumber == table && b.status == Confirmed
  }

  /** A blocked row whose fields are each missing or equal to the pair. */
  predicate Covers(row: BlockedSlot, slot: string, table: int) {
    && (row.timeSlot.None? || row.timeSlot.value == slot)
    && (row.tableNumber.None? || row.tableNumber.value == table)
  }

  /** `isSlotBooked`: some fetched booking occupies the pair. */
  function IsSlotBooked(d: DayData, slot: string, table: int): (r: bool)
    ensures r <==> d.bookings.Some? && exists b :: b in d.bookings.value && Occupies(b, slot, table)
  {
    d.bookings.Some? && Any((b: Booking) => Occupies(b, slot, table), d.bookings.value)
  }

  /** `isSlotBlocked`: some fetched blocked row covers the pair. */
  function IsSlotBlocked(d: DayData, slot: string, table: int): (r: bool)
    ensures r <==> d.blocked.Some? && exists row :: row in d.blocked.value && Covers(row, slot, table)
  {
    d.blocked.Some? && Any((row: BlockedSlot) => Covers(row, slot, table), d.blocked.value)
  }

  /** `isSlotAvailable`: neither booked nor blocked. */
  function IsSlotAvailable(d: DayData, slot: string, table: int): (r: bool)
    ensures r <==> !IsSlotBooked(d, slot, table) && !IsSlotBlocked(d, slot, table)
    ensures r <==> && (d.bookings.None? || forall b :: b in d.bookings.value ==> !Occupies(b, slot, table))
                   && (d.blocked.None? || forall row :: row in d.blocked.value ==> !Covers(row, slot, table))
  {
    !IsSlotBooked(d, slot, table) && !IsSlotBlocked(d, slot, table)
  }

  /** Before either list has loaded, every pair is available. */
  lemma NothingLoadedAllAvailable(slot: string, table: int)
    ensures IsSlotAvailable(DayData(None, None), slot, table)
  {
  }

  /** Cancelled and completed bookings never occupy a pair: adding one to
      the fetched list leaves the booked state of every pair unchanged. */
  lemma UnconfirmedNeverOccupies(bs: seq<Booking>, b: Booking, blocked: Option<seq<BlockedSlot>>, slot: string, table: int)
    requires b.status != Confirmed
    ensures IsSlotBooked(DayData(Some(bs + [b]), blocked), slot, table)
        == IsSlotBooked(DayData(Some(bs), blocked), slot, table)
  {
    assert forall x :: x in bs + [b] <==> x in bs || x == b;
  }

  /** A blocked row with neither a slot nor a table blocks all 78 pairs of
      its date. */
  lemma WholeDayBlock(d: DayData, row: BlockedSlot)
    requires d.blocked.Some? && row in d.blocked.value
    requires row.timeSlot.None? && row.tableNumber.None?
    ensures forall slot, table :: slot in TimeSlots && table in Tables ==> !IsSlotAvailable(d, slot, table)
  {
    assert forall slot, table :: Covers(row, slot, table);
  }

  /** `getAvailableTablesForSlot`: the available tables, in table order,
      each once. */
  function AvailableTablesForSlot(d: DayData, slot: string): (r: seq<int>)
    ensures forall t :: t in r <==> t in Tables && IsSlotAvailable(d, slot, t)
    ensures StrictlyIncreasing(r)
    ensures |r| <= |Tables|
  {
    var p := (t: int) => IsSlotAvailable(d, slot, t);
    TablesAreOneToSix();
    FilterKeepsIncreasing(p, Tables);
    Filter(p, Tables)
  }

  /** A pair booked at table 3 leaves the other five tables of that slot
      free when nothing else is booked or blocked. */
  lemma OneBookingLeavesFiveTables(b: Booking)
    requires b.timeSlot == "5:00 PM" && b.tableNumber == 3 && b.status == Confirmed
    ensures var d := DayData(Some([b]), Some([]));
            && !IsSlotAvailable(d, "5:00 PM", 3)
            && IsSlotAvailable(d, "5:00 PM", 4)
            && AvailableTablesForSlot(d, "5:00 PM") == [1, 2, 4, 5, 6]
  {
    OnlyTableThreeTaken(b);
    TablesBesidesThree(AvailableTablesForSlot(DayData(Some([b]), Some([])), "5:00 PM"));
  }

  lemma OnlyTableThreeTaken(b: Booking)
    requires b.timeSlot == "5:00 PM" && b.tableNumber == 3 && b.status == Confirmed
    ensures forall t :: IsSlotAvailable(DayData(Some([b]), Some([])), "5:00 PM", t) <==> t != 3
  {
    assert forall x :: x in [b] <==> x == b;
  }

  /** The tables other than 3, in order and each once, are 1, 2, 4, 5, 6. */
  lemma TablesBesidesThree(r: seq<int>)
    requires StrictlyIncreasing(r)
    requires forall t :: t in r <==> t in Tables && t != 3
    ensures r == [1, 2, 4, 5, 6]
  {
    assert forall t :: t in r <==> t in [1, 2, 4, 5, 6];
    StrictlySameElements(r, [1, 2, 4, 5, 6]);
  }

  /** Two strictly increasing sequences with the same elements are equal. */
  lemma {:induction false} StrictlySameElements(a: seq<int>, b: seq<int>)
    requires StrictlyIncreasing(a) && StrictlyIncreasing(b)
    requires forall x :: x in a <==> x in b
    ensures a == b
    decreases |a| + |b|
  {
    assert forall i :: 0 <= i < |a| ==> a[i] in a;
    assert forall i :: 0 <= i < |b| ==> b[i] in b;
    if |a| > 0 && |b| > 0 {
      HeadAndTail(a);
      HeadAndTail(b);
      HeadIsLeast(a);
      HeadIsLeast(b);
      assert a[0] == b[0];
      StrictlySameElements(a[1..], b[1..]);
      HeadAndTailEqual(a, b);
    }
  }

  /** Membership in a non-empty sequence: the head or a member of the tail. */
  lemma HeadAndTail(s: seq<int>)
    requires |s| > 0
    ensures forall x :: x in s <==> x == s[0] || x in s[1..]
  {
    assert s == [s[0]] + s[1..];
  }

  lemma HeadAndTailEqual(a: seq<int>, b: seq<int>)
    requires |a| > 0 && |b| > 0 && a[0] == b[0] && a[1..] == b[1..]
    ensures a == b
  {
    assert a == [a[0]] + a[1..];
    assert b == [b[0]] + b[1..];
  }

  /** The head of a strictly increasing sequence is below everything after
      it. */
  lemma HeadIsLeast(s: seq<int>)
    requires StrictlyIncreasing(s) && |s| > 0
    ensures forall x :: x in s[1..] ==> s[0] < x
  {
    forall x | x in s[1..]
      ensures s[0] < x
    {
      var k :| 0 <= k < |s[1..]| && s[1..][k] == x;
      assert s[k + 1] == x;
    }
  }


  /** A row blocking table 2 for the whole day makes table 2 unavailable at
      every slot and leaves the other tables untouched. */
  lemma TableBlockedAllDay(row: BlockedSlot)
    requires row.timeSlot.None? && row.tableNumber == Some(2)
    ensures var d := DayData(Some([]), Some([row]));
            forall slot, table :: !IsSlotAvailable(d, slot, table) <==> table == 2
  {
    var d := DayData(Some([]), Some([row]));
    forall slot, table
      ensures !IsSlotAvailable(d, slot, table) <==> table == 2
    {
      assert Covers(row, slot, table) <==> table == 2;
    }
  }

  // ---------------------------------------------------------------------
  // The pickers

  datatype SlotButton = SlotButton(slot: string, freeTables: nat, disabled: bool)

  /** The slot picker: one button per time slot, in order, showing its count
      of free tables and disabled exactly when no table is free. */
  function SlotPicker(d: DayData): (r: seq<SlotButton>)
    ensures |r| == |TimeSlots|
    ensures forall i :: 0 <= i < |r| ==> r[i].slot == TimeSlots[i]
    ensures forall i :: 0 <= i < |r| ==>
              (r[i].disabled <==> forall t :: t in Tables ==> !IsSlotAvailable(d, TimeSlots[i], t))
    ensures forall i :: 0 <= i < |r| ==> r[i].freeTables <= |Tables|
    ensures forall i :: 0 <= i < |r| ==>
              r[i].freeTables == |set t | t in Tables && IsSlotAvailable(d, TimeSlots[i], t)|
  {
    seq(|TimeSlots|, i requires 0 <= i < |TimeSlots| => SlotButtonFor(d, TimeSlots[i]))
  }

  /** The button of one slot. */
  function SlotButtonFor(d: DayData, slot: string): (r: SlotButton)
    ensures r.slot == slot
    ensures r.disabled <==> forall t :: t in Tables ==> !IsSlotAvailable(d, slot, t)
    ensures r.freeTables <= |Tables|
    ensures r.freeTables == |set t | t in Tables && IsSlotAvailable(d, slot, t)|
  {
    var free := AvailableTablesForSlot(d, slot);
    FreeTableCount(d, slot);
    if |free| > 0 then
      assert free[0] in free;
      SlotButton(slot, |free|, false)
    else
      SlotButton(slot, 0, true)
  }

  /** The free tables of a slot are as many as the tables available there. */
  lemma FreeTableCount(d: DayData, slot: string)
    ensures |AvailableTablesForSlot(d, slot)| == |set t | t in Tables && IsSlotAvailable(d, slot, t)|
  {
    ListedCard(AvailableTablesForSlot(d, slot), set t | t in Tables && IsSlotAvailable(d, slot, t));
  }

  datatype TableButton = TableButton(table: int, disabled: bool)

  /** The table picker of a slot: one button per table, disabled exactly
      when that pair is not available. */
  function TablePicker(d: DayData, slot: string): (r: seq<TableButton>)
    ensures |r| == |Tables|
    ensures forall i :: 0 <= i < |r| ==> r[i].table == Tables[i]
    ensures forall i :: 0 <= i < |r| ==> (r[i].disabled <==> !IsSlotAvailable(d, slot, Tables[i]))
  {
    seq(|Tables|, i requires 0 <= i < |Tables| => TableButton(Tables[i], !IsSlotAvailable(d, slot, Tables[i])))
  }

  // ---------------------------------------------------------------------
  // The form

  /** The form's state; `date` None stands for the empty date string and
      `table` None for `null`. */
  datatype BookingForm = BookingForm(
    date: Option<Day>,
    timeSlot: string,
    table: Option<int>,
    userName: string,
    phoneNumber: string,
    showConfirmation: bool)

  function InitialForm(today: Day): BookingForm {
    BookingForm(Some(today), "", None, "", "", false)
  }

  /** A chosen table is a free table of the chosen slot. */
  ghost predicate SelectionConsistent(f: BookingForm, d: DayData) {
    f.table.Some? ==> f.timeSlot != "" && IsSlotAvailable(d, f.timeSlot, f.table.value)
  }

  /** A date button: the slot and table are cleared, the contact fields
      kept. */
  function ChooseDate(f: BookingForm, date: Day): (r: BookingForm)
    ensures r.date == Some(date) && r.timeSlot == "" && r.table.None?
    ensures r.userName == f.userName && r.phoneNumber == f.phoneNumber
    ensures r.showConfirmation == f.showConfirmation
  {
    f.(date := Some(date), timeSlot := "", table := None)
  }

  /** After a date change no stale table survives, whatever the new date's
      rows are. */
  lemma ChooseDateClearsSelection(f: BookingForm, date: Day, d: DayData)
    ensures SelectionConsistent(ChooseDate(f, date), d)
  {
  }

  /** A slot button: a disabled button does nothing, an enabled one selects
      its slot and clears the table. */
  function ChooseSlot(f: BookingForm, d: DayData, slot: string): (r: BookingForm)
    ensures |AvailableTablesForSlot(d, slot)| == 0 ==> r == f
    ensures |AvailableTablesForSlot(d, slot)| > 0 ==> r == f.(timeSlot := slot, table := None)
    ensures r.date == f.date && r.userName == f.userName && r.phoneNumber == f.phoneNumber
  {
    if |AvailableTablesForSlot(d, slot)| > 0 then f.(timeSlot := slot, table := None) else f
  }

  /** A table button, shown only once a slot is chosen and disabled when the
      pair is not available. */
  function ChooseTable(f: BookingForm, d: DayData, table: int): (r: BookingForm)
    ensures (f.timeSlot == "" || !IsSlotAvailable(d, f.timeSlot, table)) ==> r == f
    ensures f.timeSlot != "" && IsSlotAvailable(d, f.timeSlot, table) ==>
              r == f.(table := Some(table))
  {
    if f.timeSlot != "" && IsSlotAvailable(d, f.timeSlot, table) then f.(table := Some(table)) else f
  }

  /** Choosing a slot for the same date keeps the selection consistent
      with that date's rows. */
  lemma ChooseSlotKeepsSelectionConsistent(f: BookingForm, d: DayData, slot: string)
    requires SelectionConsistent(f, d)
    ensures SelectionConsistent(ChooseSlot(f, d, slot), d)
  {
    var r := ChooseSlot(f, d, slot);
    assert r == f || r.table.None?;
  }

  /** A table can only be chosen when it is free at the chosen slot. */
  lemma ChooseTableKeepsSelectionConsistent(f: BookingForm, d: DayData, table: int)
    requires SelectionConsistent(f, d)
    ensures SelectionConsistent(ChooseTable(f, d, table), d)
  {
  }

  datatype Toast = Toast(title: string, description: string)

  const MissingInformationToast := Toast("Missing Information", "Please fill in all fields to complete your booking.")
  const SlotAlreadyBookedToast := Toast("Slot Already Booked", "This time slot has just been booked. Please select another.")
  const BookingFailedToast := Toast("Booking Failed", "Something went wrong. Please try again.")

  /** One of the five values is falsy (an empty string, a null table or
      table 0). */
  function MissingInformation(f: BookingForm): (r: bool)
    ensures f.table == Some(0) ==> r
    ensures !r <==> && f.date.Some? && f.timeSlot != "" && f.table.Some? && f.table.value != 0
                    && f.userName != "" && f.phoneNumber != ""
  {
    || f.date.None? || f.timeSlot == "" || f.table.None? || f.table.value == 0
    || f.userName == "" || f.phoneNumber == ""
  }

  datatype SubmitStep = Rejected(toast: Toast) | Insert(req: NewBooking)

  /** `handleSubmit` up to the insert: a form missing any field is rejected
      with no insert, a complete one becomes an insert request carrying
      exactly the form's values and no notes. */
  function Submit(f: BookingForm): (r: SubmitStep)
    ensures r.Rejected? <==> MissingInformation(f)
    ensures r.Rejected? ==> r.toast.title == "Missing Information"
    ensures r.Insert? ==>
              && Some(r.req.bookingDate) == f.date && r.req.timeSlot == f.timeSlot
              && Some(r.req.tableNumber) == f.table && r.req.userName == f.userName
              && r.req.phoneNumber == f.phoneNumber && r.req.notes.None?
  {
    if MissingInformation(f) then Rejected(MissingInformationToast)
    else Insert(NewBooking(f.userName, f.phoneNumber, f.date.value, f.timeSlot, f.table.value, None))
  }

  /** The toast for a failed insert: the database's uniqueness violation is
      recognised by "unique_booking" in the message, anything else (a
      missing message included) is a generic failure. */
  function ClassifyInsertError(message: Option<string>): (r: Toast)
    ensures r == SlotAlreadyBookedToast || r == BookingFailedToast
    ensures r == SlotAlreadyBookedToast <==>
              message.Some? && exists i :: OccursAt(message.value, "unique_booking", i)
  {
    if message.Some? then ContainsIff(message.value, "unique_booking"); ClassifyStep(message)
    else ClassifyStep(message)
  }

  function ClassifyStep(message: Option<string>): Toast {
    if message.Some? && Contains(message.value, "unique_booking") then SlotAlreadyBookedToast
    else BookingFailedToast
  }

  datatype InsertOutcome = Inserted | InsertFailed(message: Option<string>)

  /** The form after the insert settles: success shows the confirmation and
      keeps every field (for the summary); failure keeps the form and shows
      the classified toast. */
  function AfterInsert(f: BookingForm, outcome: InsertOutcome): (r: (BookingForm, Option<Toast>))
    ensures outcome.Inserted? ==> r.0 == f.(showConfirmation := true) && r.1.None?
    ensures outcome.InsertFailed? ==> r.0 == f && r.1 == Some(ClassifyInsertError(outcome.message))
  {
    match outcome
    case Inserted => (f.(showConfirmation := true), None)
    case InsertFailed(m) => (f, Some(ClassifyInsertError(m)))
  }

  /** Five seconds after a successful booking: the confirmation closes and
      slot, table, name and phone are cleared; the date stays. */
  function ConfirmationElapsed(f: BookingForm): (r: BookingForm)
    ensures r.date == f.date
    ensures !r.showConfirmation && r.timeSlot == "" && r.table.None?
    ensures r.userName == "" && r.phoneNumber == ""
    ensures MissingInformation(r)
  {
    BookingForm(f.date, "", None, "", "", false)
  }

  /** A submitted booking, once inserted, occupies its pair: the same date's
      re-fetched bookings show the pair booked and no longer available. */
  lemma SubmittedBookingOccupiesPair(f: BookingForm, rows: seq<Booking>, id: string, now: string, blocked: Option<seq<BlockedSlot>>)
    requires Submit(f).Insert?
    ensures var req := Submit(f).req;
            var fetched := BookingsOn(CreateBooking(rows, req, id, now), f.date);
            && IsSlotBooked(DayData(Some(fetched), blocked), f.timeSlot, f.table.value)
            && !IsSlotAvailable(DayData(Some(fetched), blocked), f.timeSlot, f.table.value)
  {
    var req := Submit(f).req;
    var all := CreateBooking(rows, req, id, now);
    var b := all[|rows|];
    assert b in all;
    assert b in BookingsOn(all, f.date);
    assert Occupies(b, f.timeSlot, f.table.value);
  }
}

=== FILE: bookings.dfy ===
/** The `bookings` and `blocked_slots` tables as the client sees them
    (src/hooks/useBookings.ts): row shapes, the fixed time slots and tables,
    and each query or mutation as a pure function over the rows. */
module Bookings {
  import opened Wrappers
  import opened Seqs
  import opened Text

  /** A calendar date ("yyyy-MM-dd") as an abstract day number. */
  type Day = int

  datatype Status = Confirmed | Cancelled | Completed

  datatype Booking = Booking(
    id: string,
    userName: string,
    phoneNumber: string,
    bookingDate: Day,
    timeSlot: string,
    tableNumber: int,
    status: Status,
    notes: Option<string>,
    createdAt: string,
    updatedAt: string)

  /** An admin exclusion rule: a missing time slot or table number stands
      for every slot or every table of the date. */
  datatype BlockedSlot = BlockedSlot(
    id: string,
    blockedDate: Day,
    timeSlot: Option<string>,
    tableNumber: Option<int>,
    reason: Option<string>,
    createdAt: string)

  /** What a caller may supply when creating a booking: everything but the
      id, the status and the timestamps. */
  datatype NewBooking = NewBooking(
    userName: string,
    phoneNumber: string,
    bookingDate: Day,
    timeSlot: string,
    tableNumber: int,
    notes: Option<string>)

  /** What a caller may supply when creating a blocked slot. */
  datatype NewBlockedSlot = NewBlockedSlot(
    blockedDate: Day,
    timeSlot: Option<string>,
    tableNumber: Option<int>,
    reason: Option<string>)

  /** A partial update: each present field replaces the stored one. */
  datatype BookingPatch = BookingPatch(
    userName: Option<string>,
    phoneNumber: Option<string>,
    bookingDate: Option<Day>,
    timeSlot: Option<string>,
    tableNumber: Option<int>,
    status: Option<Status>,
    notes: Option<Option<string>>)

  const TimeSlots: seq<string> := [
    "10:00 AM", "11:00 AM", "12:00 PM", "1:00 PM", "2:00 PM", "3:00 PM", "4:00 PM",
    "5:00 PM", "6:00 PM", "7:00 PM", "8:00 PM", "9:00 PM", "10:00 PM"
  ]

  const Tables: seq<int> := [1, 2, 3, 4, 5, 6]

  /** The 12-hour clock label of hour `h` of the day (0..23), written the way
      the slot labels are: no leading zero, ":00", then AM or PM. */
  function HourLabel(h: nat): string
    requires h < 24
  {
    var h12 := if h % 12 == 0 then 12 else h % 12;
    var digits := if h12 < 10 then [DigitChar(h12)] else ['1', DigitChar(h12 - 10)];
    digits + ":00 " + (if h < 12 then "AM" else "PM")
  }

  /** The time slots are the thirteen whole hours from 10 AM to 10 PM, in
      ascending order. */
  lemma TimeSlotsAreHourly()
    ensures |TimeSlots| == 13
    ensures forall i :: 0 <= i < |TimeSlots| ==> TimeSlots[i] == HourLabel(10 + i)
    ensures TimeSlots[0] == "10:00 AM" && TimeSlots[12] == "10:00 PM"
  {
    MorningLabels();
    EveningLabels();
    forall i | 0 <= i < |TimeSlots|
      ensures TimeSlots[i] == HourLabel(10 + i)
    {
      if i < 6 {
        assert i == 0 || i == 1 || i == 2 || i == 3 || i == 4 || i == 5;
      } else {
        assert i == 6 || i == 7 || i == 8 || i == 9 || i == 10 || i == 11 || i == 12;
      }
    }
  }

  lemma MorningLabels()
    ensures HourLabel(10) == "10:00 AM" && HourLabel(11) == "11:00 AM" && HourLabel(12) == "12:00 PM"
    ensures HourLabel(13) == "1:00 PM" && HourLabel(14) == "2:00 PM" && HourLabel(15) == "3:00 PM"
  {
    assert DigitChar(0) == '0' && DigitChar(1) == '1' && DigitChar(2) == '2';
    assert DigitChar(3) == '3';
  }

  lemma EveningLabels()
    ensures HourLabel(16) == "4:00 PM" && HourLabel(17) == "5:00 PM" && HourLabel(18) == "6:00 PM"
    ensures HourLabel(19) == "7:00 PM" && HourLabel(20) == "8:00 PM" && HourLabel(21) == "9:00 PM"
    ensures HourLabel(22) == "10:00 PM"
  {
    assert DigitChar(4) == '4' && DigitChar(5) == '5' && DigitChar(6) == '6';
    assert DigitChar(7) == '7' && DigitChar(8) == '8' && DigitChar(9) == '9';
    assert DigitChar(0) == '0' && DigitChar(1) == '1';
  }


  /** No label is listed twice. */
  lemma TimeSlotsDistinct()
    ensures forall i, j :: 0 <= i < j < |TimeSlots| ==> TimeSlots[i] != TimeSlots[j]
  {
  }

  /** The tables are numbered one to six, in order. */
  lemma TablesAreOneToSix()
    ensures |Tables| == 6
    ensures forall i :: 0 <= i < |Tables| ==> Tables[i] == i + 1
    ensures StrictlyIncreasing(Tables)
  {
  }

  /** Inserting a booking stores it with status "confirmed", whatever it was
      asked for; `id` and the timestamps are the database's. */
  function CreateBooking(rows: seq<Booking>, req: NewBooking, id: string, now: string): (r: seq<Booking>)
    ensures |r| == |rows| + 1 && r[..|rows|] == rows
    ensures var b := r[|rows|];
            && b.status == Confirmed && b.id == id
            && b.userName == req.userName && b.phoneNumber == req.phoneNumber
            && b.bookingDate == req.bookingDate && b.timeSlot == req.timeSlot
            && b.tableNumber == req.tableNumber && b.notes == req.notes
  {
    rows + [Booking(id, req.userName, req.phoneNumber, req.bookingDate, req.timeSlot,
                    req.tableNumber, Confirmed, req.notes, now, now)]
  }

  /** One row with the present fields of a patch written over it. */
  function ApplyPatch(b: Booking, p: BookingPatch): (r: Booking)
    ensures r.id == b.id && r.createdAt == b.createdAt
    ensures r.status == p.status.GetOr(b.status)
    ensures r.bookingDate == p.bookingDate.GetOr(b.bookingDate)
    ensures r.timeSlot == p.timeSlot.GetOr(b.timeSlot)
    ensures r.tableNumber == p.tableNumber.GetOr(b.tableNumber)
    ensures r.userName == p.userName.GetOr(b.userName)
    ensures r.phoneNumber == p.phoneNumber.GetOr(b.phoneNumber)
    ensures r.notes == p.notes.GetOr(b.notes)
  {
    b.(userName := p.userName.GetOr(b.userName),
       phoneNumber := p.phoneNumber.GetOr(b.phoneNumber),
       bookingDate := p.bookingDate.GetOr(b.bookingDate),
       timeSlot := p.timeSlot.GetOr(b.timeSlot),
       tableNumber := p.tableNumber.GetOr(b.tableNumber),
       status := p.status.GetOr(b.status),
       notes := p.notes.GetOr(b.notes))
  }

  /** A patch that changes only the status. */
  function StatusPatch(s: Status): BookingPatch {
    BookingPatch(None, None, None, None, None, Some(s), None)
  }

  /** `update(updates).eq("id", id)`: the rows with that id get the patch,
      all other rows are untouched. */
  function UpdateBooking(rows: seq<Booking>, id: string, p: BookingPatch): (r: seq<Booking>)
    ensures |r| == |rows|
    ensures forall i :: 0 <= i < |rows| && rows[i].id != id ==> r[i] == rows[i]
    ensures forall i :: 0 <= i < |rows| && rows[i].id == id ==> r[i] == ApplyPatch(rows[i], p)
    ensures forall i :: 0 <= i < |rows| ==> r[i].id == rows[i].id
  {
    seq(|rows|, i requires 0 <= i < |rows| => if rows[i].id == id then ApplyPatch(rows[i], p) else rows[i])
  }

  /** Setting a status a row already has changes nothing: re-confirming a
      confirmed booking is a no-op. */
  lemma UpdateStatusIdempotent(rows: seq<Booking>, id: string, s: Status)
    requires forall i :: 0 <= i < |rows| && rows[i].id == id ==> rows[i].status == s
    ensures UpdateBooking(rows, id, StatusPatch(s)) == rows
  {
    var r := UpdateBooking(rows, id, StatusPatch(s));
    assert forall i :: 0 <= i < |rows| ==> r[i] == rows[i];
  }

  /** `delete().eq("id", id)`: exactly the rows with that id disappear. */
  function DeleteBooking(rows: seq<Booking>, id: string): (r: seq<Booking>)
    ensures forall b :: b in r <==> b in rows && b.id != id
    ensures (forall i :: 0 <= i < |rows| ==> rows[i].id != id) ==> r == rows
    ensures |r| <= |rows|
  {
    var keep := (b: Booking) => b.id != id;
    if forall i :: 0 <= i < |rows| ==> rows[i].id != id then
      FilterAll(keep, rows);
      Filter(keep, rows)
    else
      Filter(keep, rows)
  }

  /** Deleting a just-created booking by its new id gives back the table as
      it was, when no earlier row had that id. */
  lemma CreateThenDelete(rows: seq<Booking>, req: NewBooking, id: string, now: string)
    requires forall i :: 0 <= i < |rows| ==> rows[i].id != id
    ensures DeleteBooking(CreateBooking(rows, req, id, now), id) == rows
  {
    var keep := (b: Booking) => b.id != id;
    var created := CreateBooking(rows, req, id, now);
    assert created == rows + [created[|rows|]];
    FilterConcat(keep, rows, [created[|rows|]]);
    FilterAll(keep, rows);
    assert Filter(keep, [created[|rows|]]) == [];
  }

  /** `eq("booking_date", date)` when a date is given, all rows otherwise. */
  function BookingsOn(rows: seq<Booking>, date: Option<Day>): (r: seq<Booking>)
    ensures date.Some? ==> forall b :: b in r <==> b in rows && b.bookingDate == date.value
    ensures date.Some? ==>
              forall b :: multiset(r)[b] == if b.bookingDate == date.value then multiset(rows)[b] else 0
    ensures date.None? ==> r == rows
    ensures multiset(r) <= multiset(rows)
  {
    match date
    case None => rows
    case Some(d) =>
      FilterMultiplicities((b: Booking) => b.bookingDate == d, rows);
      Filter((b: Booking) => b.bookingDate == d, rows)
  }

  /** `eq("blocked_date", date)` when a date is given, all rows otherwise. */
  function BlockedSlotsOn(rows: seq<BlockedSlot>, date: Option<Day>): (r: seq<BlockedSlot>)
    ensures date.Some? ==> forall b :: b in r <==> b in rows && b.blockedDate == date.value
    ensures date.Some? ==>
              forall b :: multiset(r)[b] == if b.blockedDate == date.value then multiset(rows)[b] else 0
    ensures date.None? ==> r == rows
    ensures multiset(r) <= multiset(rows)
  {
    match date
    case None => rows
    case Some(d) =>
      FilterMultiplicities((b: BlockedSlot) => b.blockedDate == d, rows);
      Filter((b: BlockedSlot) => b.blockedDate == d, rows)
  }

  function CreateBlockedSlot(rows: seq<BlockedSlot>, req: NewBlockedSlot, id: string, now: string): (r: seq<BlockedSlot>)
    ensures |r| == |rows| + 1 && r[..|rows|] == rows
    ensures var b := r[|rows|];
            && b.id == id && b.blockedDate == req.blockedDate
            && b.timeSlot == req.timeSlot && b.tableNumber == req.tableNumber
            && b.reason == req.reason
  {
    rows + [BlockedSlot(id, req.blockedDate, req.timeSlot, req.tableNumber, req.reason, now)]
  }

  function DeleteBlockedSlot(rows: seq<BlockedSlot>, id: string): (r: seq<BlockedSlot>)
    ensures forall b :: b in r <==> b in rows && b.id != id
    ensures |r| <= |rows|
  {
    Filter((b: BlockedSlot) => b.id != id, rows)
  }

  /** Deleting a just-created blocked slot by its new id gives back the rows
      as they were, when no earlier row had that id. */
  lemma CreateThenDeleteBlockedSlot(rows: seq<BlockedSlot>, req: NewBlockedSlot, id: string, now: string)
    requires forall i :: 0 <= i < |rows| ==> rows[i].id != id
    ensures DeleteBlockedSlot(CreateBlockedSlot(rows, req, id, now), id) == rows
  {
    var keep := (b: BlockedSlot) => b.id != id;
    var created := CreateBlockedSlot(rows, req, id, now);
    assert created == rows + [created[|rows|]];
    FilterConcat(keep, rows, [created[|rows|]]);
    FilterAll(keep, rows);
    assert Filter(keep, [created[|rows|]]) == [];
  }
}

=== FILE: club_settings.dfy ===
/** The club's single settings row (src/hooks/useSettings.ts) and the update
    the settings mutation performs on it. */
module ClubSettings {
  import opened Wrappers

  datatype Settings = Settings(
    id: string,
    clubName: string,
    address: string,
    googleMapsLink: Option<string>,
    openingHours: string,
    contactNumber: Option<string>,
    whatsappNumber: Option<string>,
    createdAt: string,
    updatedAt: string)

  /** The columns the settings form writes, all six as text. */
  datatype SettingsUpdate = SettingsUpdate(
    clubName: string,
    address: string,
    openingHours: string,
    contactNumber: string,
    whatsappNumber: string,
    googleMapsLink: string)

  /** The mutation: with a row present, that row gets the six columns; with
      no row nothing is written (and the call still succeeds). */
  function UpdateSettings(row: Option<Settings>, u: SettingsUpdate): (r: Option<Settings>)
    ensures r.None? <==> row.None?
    ensures r.Some? ==> r.value.id == row.value.id && r.value.createdAt == row.value.createdAt
    ensures r.Some? ==>
              && r.value.clubName == u.clubName && r.value.address == u.address
              && r.value.openingHours == u.openingHours
              && r.value.contactNumber == Some(u.contactNumber)
              && r.value.whatsappNumber == Some(u.whatsappNumber)
              && r.value.googleMapsLink == Some(u.googleMapsLink)
  {
    match row
    case None => None
    case Some(s) =>
      Some(s.(clubName := u.clubName, address := u.address, openingHours := u.openingHours,
              contactNumber := Some(u.contactNumber), whatsappNumber := Some(u.whatsappNumber),
              googleMapsLink := Some(u.googleMapsLink)))
  }
}

=== FILE: contact_section.dfy ===
/** The public contact section (src/components/ContactSection.tsx): the
    WhatsApp link built from the configured number, and the contact form. */
module ContactSection {
  import opened Wrappers
  import opened Text
  import opened ClubSettings

  /** The number used when none is configured. */
  const DefaultWhatsAppNumber: string := "919876543210"

  const WhatsAppPrefix: string := "https://wa.me/"

  /** `settings?.whatsapp_number?.replace(/\D/g, "") || "919876543210"`: the
      digits of the configured number, or the default when there are no
      settings, no number, or no digits in it. */
  function WhatsAppNumber(settings: Option<Settings>): (r: string)
    ensures r != "" && AllDigits(r)
    ensures settings.Some? && settings.value.whatsappNumber.Some? && OnlyDigits(settings.value.whatsappNumber.value) != "" ==>
              r == OnlyDigits(settings.value.whatsappNumber.value)
    ensures settings.None? || settings.value.whatsappNumber.None? || OnlyDigits(settings.value.whatsappNumber.value) == "" ==>
              r == DefaultWhatsAppNumber
  {
    var digits := if settings.Some? && settings.value.whatsappNumber.Some?
                  then OnlyDigits(settings.value.whatsappNumber.value) else "";
    if digits != "" then digits else DefaultWhatsAppNumber
  }

  /** The page opened by the WhatsApp button. */
  function WhatsAppLink(settings: Option<Settings>): (r: string)
    ensures |r| > |WhatsAppPrefix| && r[..|WhatsAppPrefix|] == WhatsAppPrefix
  {
    WhatsAppPrefix + WhatsAppNumber(settings)
  }

  /** The link carries exactly the number: what follows its last '/' is the
      chosen number. */
  lemma LinkEndsWithNumber(settings: Option<Settings>)
    ensures LastSegment(WhatsAppLink(settings), '/') == WhatsAppNumber(settings)
  {
    var n := WhatsAppNumber(settings);
    assert forall i :: 0 <= i < |n| ==> n[i] != '/';
    assert WhatsAppLink(settings) == "https://wa.me" + ['/'] + n;
    LastSegmentAfterSep("https://wa.me", '/', n);
  }

  /** A number configured as bare digits is used as it is. */
  lemma DigitNumberUsedAsIs(s: Settings, n: string)
    requires s.whatsappNumber == Some(n) && n != "" && AllDigits(n)
    ensures WhatsAppNumber(Some(s)) == n
  {
    OnlyDigitsKeepsDigits(n);
  }

  /** The three fields of the form. */
  datatype ContactForm = ContactForm(name: string, email: string, message: string)

  /** The row inserted into contact_messages. */
  datatype ContactInsert = ContactInsert(name: string, email: string, message: string)

  datatype SubmitStep = Blocked | Insert(row: ContactInsert)

  /** Submitting: the fields are marked `required`, so an empty field stops
      the browser from submitting; otherwise the three values are sent
      trimmed. */
  function Submit(f: ContactForm): (r: SubmitStep)
    ensures r.Blocked? <==> f.name == "" || f.email == "" || f.message == ""
    ensures r.Insert? ==> r.row == ContactInsert(Trim(f.name), Trim(f.email), Trim(f.message))
  {
    if f.name == "" || f.email == "" || f.message == "" then Blocked
    else Insert(ContactInsert(Trim(f.name), Trim(f.email), Trim(f.message)))
  }

  /** The inserted values carry no surrounding whitespace: trimming them
      again changes nothing. */
  lemma InsertedValuesAreTrimmed(f: ContactForm)
    requires Submit(f).Insert?
    ensures var row := Submit(f).row;
            Trim(row.name) == row.name && Trim(row.email) == row.email && Trim(row.message) == row.message
  {
    TrimIdempotent(f.name);
    TrimIdempotent(f.email);
    TrimIdempotent(f.message);
  }

  /** A message of spaces only passes the `required` check and is stored
      empty. */
  lemma BlankMessageStoredEmpty(f: ContactForm)
    requires f.name != "" && f.email != "" && f.message != ""
    requires forall i :: 0 <= i < |f.message| ==> IsSpace(f.message[i])
    ensures Submit(f).Insert? && Submit(f).row.message == ""
  {
    TrimEmptyIff(f.message);
  }

  const FailureDefault: string := "Failed to send message. Please try again."

  datatype Toast = Toast(title: string, description: string, destructive: bool)

  datatype InsertOutcome = Sent | Failed(message: string)

  /** After the insert: success clears the three fields, a failure keeps
      them; the toast reports which, with the error's message or a default. */
  function AfterInsert(f: ContactForm, outcome: InsertOutcome): (r: (ContactForm, Toast))
    ensures outcome.Sent? ==> r.0 == ContactForm("", "", "") && !r.1.destructive && r.1.title == "Message Sent!"
    ensures outcome.Failed? ==> r.0 == f && r.1.destructive && r.1.title == "Error"
    ensures outcome.Failed? && outcome.message != "" ==> r.1.description == outcome.message
    ensures outcome.Failed? && outcome.message == "" ==> r.1.description == FailureDefault
  {
    match outcome
    case Sent => (ContactForm("", "", ""), Toast("Message Sent!", "We'll get back to you as soon as possible.", false))
    case Failed(m) => (f, Toast("Error", if m != "" then m else FailureDefault, true))
  }

  /** After a failure the same form can be sent again and produces the same
      row; after a success the cleared form cannot be submitted. */
  lemma RetryAfterFailure(f: ContactForm, m: string)
    ensures Submit(AfterInsert(f, Failed(m)).0) == Submit(f)
    ensures Submit(AfterInsert(f, Sent).0).Blocked?
  {
  }
}

=== FILE: gallery.dfy ===
/** The `gallery` table's row shape and insert (src/hooks/useGallery.ts). */
module Gallery {
  import opened Wrappers

  datatype GalleryImage = GalleryImage(
    id: string,
    imageUrl: string,
    caption: Option<string>,
    orderIndex: Option<int>,
    createdAt: string)

  /** An insert request: everything but the id and the timestamp. */
  datatype NewGalleryImage = NewGalleryImage(imageUrl: string, caption: Option<string>, orderIndex: Option<int>)

  /** The insert: the new row is appended with the request's fields. */
  function CreateImage(rows: seq<GalleryImage>, req: NewGalleryImage, id: string, now: string): (r: seq<GalleryImage>)
    ensures |r| == |rows| + 1 && r[..|rows|] == rows
    ensures r[|rows|].imageUrl == req.imageUrl && r[|rows|].caption == req.caption
    ensures r[|rows|].orderIndex == req.orderIndex && r[|rows|].id == id
  {
    rows + [GalleryImage(id, req.imageUrl, req.caption, req.orderIndex, now)]
  }
}

=== FILE: gallery_section.dfy ===
/** The public gallery (src/components/GallerySection.tsx): which images are
    shown and the lightbox selection. */
module GallerySection {
  import opened Wrappers
  import opened Gallery

  /** The four bundled pictures shown when the gallery table is empty. */
  const DefaultImages: seq<string> := ["hero-1.jpg", "hero-2.jpg", "hero-3.jpg", "club-interior.jpg"]

  /** A loaded, non-empty gallery shows its image URLs in order; otherwise
      the default pictures are shown. */
  function DisplayedImages(gallery: Option<seq<GalleryImage>>): (r: seq<string>)
    ensures |r| > 0
    ensures gallery.Some? && |gallery.value| > 0 ==>
              |r| == |gallery.value| && forall i :: 0 <= i < |r| ==> r[i] == gallery.value[i].imageUrl
    ensures gallery.None? || gallery.value == [] ==> r == DefaultImages
  {
    if gallery.Some? && |gallery.value| > 0 then
      seq(|gallery.value|, i requires 0 <= i < |gallery.value| => gallery.value[i].imageUrl)
    else DefaultImages
  }

  /** The selected image; the lightbox is open while it is a non-empty URL. */
  datatype Lightbox = Lightbox(selected: Option<string>)

  predicate IsOpen(l: Lightbox) {
    l.selected.Some? && l.selected.value != ""
  }

  /** A click on a tile selects that tile's image. */
  function ClickImage(l: Lightbox, images: seq<string>, i: nat): (r: Lightbox)
    requires i < |images|
    ensures r.selected == Some(images[i])
    ensures images[i] != "" ==> IsOpen(r)
  {
    Lightbox(Some(images[i]))
  }

  /** The backdrop and the close button both clear the selection. */
  function Close(l: Lightbox): (r: Lightbox)
    ensures !IsOpen(r) && r.selected.None?
  {
    Lightbox(None)
  }

  /** Opening a displayed picture and closing again returns to the closed
      lightbox, whichever picture it was. */
  lemma OpenThenClose(l: Lightbox, gallery: Option<seq<GalleryImage>>, i: nat)
    requires i < |DisplayedImages(gallery)|
    ensures Close(ClickImage(l, DisplayedImages(gallery), i)) == Lightbox(None)
  {
  }

  /** Before any upload every tile is one of the default pictures, and each
      of them can be opened. */
  lemma DefaultsCanBeOpened(l: Lightbox, i: nat)
    requires i < 4
    ensures IsOpen(ClickImage(l, DisplayedImages(None), i))
    ensures ClickImage(l, DisplayedImages(None), i).selected.value == DefaultImages[i]
  {
  }
}

=== FILE: hero_section.dfy ===
/** The landing carousel (src/components/HeroSection.tsx): three background
    pictures and three taglines cycled by a timer, and the indicator
    buttons that jump to a picture. */
module HeroSection {
  const HeroImages: seq<string> := ["hero-1.jpg", "hero-2.jpg", "hero-3.jpg"]

  const Taglines: seq<string> := [
    "Precision. Focus. Class.",
    "Where Legends Are Made.",
    "The Art of the Perfect Shot."
  ]

  /** The number of pictures the timer cycles through. */
  const SlideCount: nat := |HeroImages|

  /** A slide index is in range for both lists. */
  predicate InRange(i: int) {
    0 <= i < SlideCount
  }

  /** One timer tick: `(prev + 1) % heroImages.length`. */
  function Advance(i: nat): (r: nat)
    ensures InRange(r)
    ensures InRange(i) && i + 1 < SlideCount ==> r == i + 1
    ensures i + 1 == SlideCount ==> r == 0
  {
    (i + 1) % SlideCount
  }

  /** The tagline shown with the current picture. */
  function CurrentTagline(i: nat): (r: string)
    requires InRange(i)
    ensures r in Taglines
  {
    Taglines[i]
  }

  /** Both lists have one entry per slide, so the tagline is defined at
      every index the carousel reaches. */
  lemma TaglinesMatchImages()
    ensures |Taglines| == |HeroImages| == SlideCount == 3
  {
  }

  /** `k` ticks in a row. */
  function AdvanceTimes(i: nat, k: nat): (r: nat)
    decreases k
  {
    if k == 0 then i else Advance(AdvanceTimes(i, k - 1))
  }

  /** From any slide, k ticks land k places further on, modulo the count. */
  lemma {:induction false} AdvanceTimesIsModular(i: nat, k: nat)
    requires InRange(i)
    ensures AdvanceTimes(i, k) == (i + k) % SlideCount
    decreases k
  {
    if k > 0 {
      AdvanceTimesIsModular(i, k - 1);
    }
  }

  /** Three ticks return to the starting slide, and every slide is reached
      from slide 0. */
  lemma CycleReturnsToStart(i: nat, target: nat)
    requires InRange(i) && InRange(target)
    ensures AdvanceTimes(i, SlideCount) == i
    ensures AdvanceTimes(0, target) == target
  {
    AdvanceTimesIsModular(i, SlideCount);
    AdvanceTimesIsModular(0, target);
  }

  /** The indicator drawn wide: the one whose index is the current slide. */
  predicate IndicatorActive(current: nat, index: nat) {
    current == index
  }

  datatype HeroEvent = Tick | ClickIndicator(index: nat)

  /** The indicators are drawn one per picture, so a click names an index
      in range. */
  predicate ValidEvent(e: HeroEvent) {
    e.ClickIndicator? ==> InRange(e.index)
  }

  /** A tick advances; an indicator click jumps to its index. */
  function Step(i: nat, e: HeroEvent): (r: nat)
    requires ValidEvent(e)
    ensures InRange(r)
    ensures e.Tick? ==> r == Advance(i)
    ensures e.ClickIndicator? ==> r == e.index && IndicatorActive(r, e.index)
  {
    match e
    case Tick => Advance(i)
    case ClickIndicator(k) => k
  }

  function Run(i: nat, events: seq<HeroEvent>): (r: nat)
    requires forall k :: 0 <= k < |events| ==> ValidEvent(events[k])
    decreases |events|
  {
    if |events| == 0 then i else Run(Step(i, events[0]), events[1..])
  }

  /** From any slide in range (the first is 0), whatever ticks and clicks happen, the index
      stays a valid index of both lists and exactly one indicator is
      active. */
  lemma {:induction false} RunStaysInRange(i: nat, events: seq<HeroEvent>)
    requires InRange(i)
    requires forall k :: 0 <= k < |events| ==> ValidEvent(events[k])
    ensures InRange(Run(i, events))
    ensures CurrentTagline(Run(i, events)) == Taglines[Run(i, events)]
    decreases |events|
  {
    if |events| > 0 {
      RunStaysInRange(Step(i, events[0]), events[1..]);
    }
  }
}

=== FILE: seqs.dfy ===
/** Array operations the components use on fetched rows: `filter` and
    `some`, with the facts about them the rest of the model relies on. */
module Seqs {

  /** The elements of `s` that satisfy `p`, in their original order
      (`Array.prototype.filter`). */
  function Filter<T(!new)>(p: T -> bool, s: seq<T>): (r: seq<T>)
    ensures |r| <= |s|
    ensures forall i :: 0 <= i < |r| ==> p(r[i])
    ensures forall x :: x in r <==> x in s && p(x)
    ensures multiset(r) <= multiset(s)
    decreases |s|
  {
    if |s| == 0 then []
    else
      assert s == [s[0]] + s[1..];
      if p(s[0]) then [s[0]] + Filter(p, s[1..]) else Filter(p, s[1..])
  }

  /** True when some element of `s` satisfies `p` (`Array.prototype.some`). */
  function Any<T>(p: T -> bool, s: seq<T>): (r: bool)
    ensures r <==> exists i :: 0 <= i < |s| && p(s[i])
    decreases |s|
  {
    if |s| == 0 then false
    else if p(s[0]) then true
    else
      assert forall i :: 1 <= i < |s| ==> s[i] == s[1..][i - 1];
      Any(p, s[1..])
  }

  /** Filtering a non-empty sequence, from the front. */
  lemma FilterUnfold<T(!new)>(p: T -> bool, s: seq<T>)
    requires |s| > 0
    ensures Filter(p, s) == (if p(s[0]) then [s[0]] else []) + Filter(p, s[1..])
  {
    if !p(s[0]) {
      assert [] + Filter(p, s[1..]) == Filter(p, s[1..]);
    }
  }

  /** Filtering a sequence with a known first element. */
  lemma FilterCons<T(!new)>(p: T -> bool, x: T, t: seq<T>)
    ensures Filter(p, [x] + t) == (if p(x) then [x] else []) + Filter(p, t)
  {
    assert ([x] + t)[1..] == t;
  }

  /** Filtering distributes over concatenation, which is what "order
      preserved" means for a filter. */
  lemma {:induction false} FilterConcat<T(!new)>(p: T -> bool, a: seq<T>, b: seq<T>)
    ensures Filter(p, a + b) == Filter(p, a) + Filter(p, b)
    decreases |a|
  {
    if |a| == 0 {
      assert a + b == b;
    } else {
      assert (a + b)[1..] == a[1..] + b;
      FilterConcat(p, a[1..], b);
    }
  }

  /** A filter keeps as many elements as there are positions whose element
      satisfies the predicate. */
  lemma {:induction false} FilterCountsPositions<T(!new)>(p: T -> bool, s: seq<T>)
    ensures |Filter(p, s)| == |Positions(p, s)|
    decreases |s|
  {
    if |s| > 0 {
      var t, x := s[..|s| - 1], s[|s| - 1];
      assert s == t + [x];
      FilterCountsPositions(p, t);
      FilterSnoc(p, t, x);
      PositionsSnoc(p, t, x);
      assert |Filter(p, s)| == |Filter(p, t + [x])|;
      assert |Positions(p, s)| == |Positions(p, t + [x])|;
    }
  }

  /** Filtering a sequence with a known last element. */
  lemma FilterSnoc<T(!new)>(p: T -> bool, t: seq<T>, x: T)
    ensures |Filter(p, t + [x])| == |Filter(p, t)| + (if p(x) then 1 else 0)
  {
    FilterConcat(p, t, [x]);
    assert [x][1..] == [];
  }

  /** The positions of `s` whose element satisfies `p`. */
  function Positions<T>(p: T -> bool, s: seq<T>): set<int> {
    set i | 0 <= i < |s| && p(s[i])
  }

  /** The satisfying positions of a sequence with a known last element. */
  lemma PositionsSnoc<T>(p: T -> bool, t: seq<T>, x: T)
    ensures |Positions(p, t + [x])| == |Positions(p, t)| + (if p(x) then 1 else 0)
  {
    var s := t + [x];
    var prev := Positions(p, t);
    var all := Positions(p, s);
    assert prev == set i | 0 <= i < |t| && p(s[i]);
    if p(x) {
      assert all == prev + {|t|};
    } else {
      assert all == prev;
    }
  }

  /** A filter whose predicate holds everywhere keeps the whole sequence. */
  lemma {:induction false} FilterAll<T(!new)>(p: T -> bool, s: seq<T>)
    requires forall i :: 0 <= i < |s| ==> p(s[i])
    ensures Filter(p, s) == s
    decreases |s|
  {
    if |s| > 0 {
      FilterAll(p, s[1..]);
    }
  }

  /** Each value occurs in the filtered sequence exactly as often as in the
      input when it satisfies `p`, and not at all otherwise. */
  lemma {:induction false} FilterMultiplicity<T(!new)>(p: T -> bool, s: seq<T>, x: T)
    ensures multiset(Filter(p, s))[x] == if p(x) then multiset(s)[x] else 0
    decreases |s|
  {
    if |s| > 0 {
      assert s == [s[0]] + s[1..];
      FilterMultiplicity(p, s[1..], x);
    }
  }

  /** `FilterMultiplicity` for every value at once. */
  lemma FilterMultiplicities<T(!new)>(p: T -> bool, s: seq<T>)
    ensures forall x :: multiset(Filter(p, s))[x] == if p(x) then multiset(s)[x] else 0
  {
    forall x
      ensures multiset(Filter(p, s))[x] == if p(x) then multiset(s)[x] else 0
    {
      FilterMultiplicity(p, s, x);
    }
  }

  /** Filtering twice is filtering once by the conjunction. */
  lemma {:induction false} FilterFilter<T(!new)>(p: T -> bool, q: T -> bool, pq: T -> bool, s: seq<T>)
    requires forall x :: pq(x) == (p(x) && q(x))
    ensures Filter(q, Filter(p, s)) == Filter(pq, s)
    decreases |s|
  {
    if |s| > 0 {
      FilterFilter(p, q, pq, s[1..]);
    }
  }

  /** Complementary filters split a sequence: their lengths add up to the
      whole length. */
  lemma {:induction false} FilterPartition<T(!new)>(p: T -> bool, q: T -> bool, s: seq<T>)
    requires forall x :: q(x) == !p(x)
    ensures |Filter(p, s)| + |Filter(q, s)| == |s|
    ensures multiset(Filter(p, s)) + multiset(Filter(q, s)) == multiset(s)
    decreases |s|
  {
    if |s| > 0 {
      assert s == [s[0]] + s[1..];
      FilterPartition(p, q, s[1..]);
    }
  }

  /** Filters by predicates that never hold together select at most the
      whole sequence between them. */
  lemma {:induction false} FilterDisjoint<T(!new)>(p: T -> bool, q: T -> bool, s: seq<T>)
    requires forall x :: !(p(x) && q(x))
    ensures |Filter(p, s)| + |Filter(q, s)| <= |s|
    decreases |s|
  {
    if |s| > 0 {
      FilterDisjoint(p, q, s[1..]);
    }
  }

  /** A filter by a stronger predicate selects a sub-multiset of a filter by
      a weaker one. */
  lemma {:induction false} FilterMonotone<T(!new)>(p: T -> bool, q: T -> bool, s: seq<T>)
    requires forall x :: p(x) ==> q(x)
    ensures multiset(Filter(p, s)) <= multiset(Filter(q, s))
    ensures |Filter(p, s)| <= |Filter(q, s)|
    decreases |s|
  {
    if |s| > 0 {
      assert s == [s[0]] + s[1..];
      FilterMonotone(p, q, s[1..]);
    }
  }

  /** A strictly increasing sequence of integers. */
  predicate StrictlyIncreasing(s: seq<int>) {
    forall i, j :: 0 <= i < j < |s| ==> s[i] < s[j]
  }

  /** A strictly increasing sequence holds as many distinct values as it
      has elements. */
  lemma {:induction false} IncreasingCard(s: seq<int>)
    requires StrictlyIncreasing(s)
    ensures |set x | x in s| == |s|
    decreases |s|
  {
    if |s| > 0 {
      var n := |s| - 1;
      IncreasingCard(s[..n]);
      var prev := set x | x in s[..n];
      var all := set x | x in s;
      assert all == prev + {s[n]} by {
        assert s == s[..n] + [s[n]];
      }
      assert s[n] !in prev by {
        forall x | x in s[..n]
          ensures x < s[n]
        {
          var k :| 0 <= k < n && s[..n][k] == x;
        }
      }
    }
  }

  /** A strictly increasing sequence listing exactly the members of a set
      is as long as the set is large. */
  lemma ListedCard(r: seq<int>, members: set<int>)
    requires StrictlyIncreasing(r)
    requires forall x :: x in r <==> x in members
    ensures |r| == |members|
  {
    IncreasingCard(r);
    assert (set x | x in r) == members;
  }

  /** Filtering keeps a strictly increasing sequence strictly increasing,
      so the result has no duplicates. */
  lemma {:induction false} FilterKeepsIncreasing(p: int -> bool, s: seq<int>)
    requires StrictlyIncreasing(s)
    ensures StrictlyIncreasing(Filter(p, s))
    decreases |s|
  {
    if |s| > 0 {
      FilterKeepsIncreasing(p, s[1..]);
      var rest := Filter(p, s[1..]);
      forall x | x in rest
        ensures s[0] < x
      {
        assert x in s[1..];
      }
    }
  }
}

=== FILE: text.dfy ===
/** String operations the components use: `replace(/\D/g, "")`, the numeric
    input sanitiser, `trim`, `toLowerCase`, `includes`, `split(sep).pop()`
    and the decimal rendering of a number inside a template string. */
module Text {
  import opened Seqs

  // ---------------------------------------------------------------------
  // Digits and decimal values

  /** `\d` without the `u` flag: the ASCII digits only. */
  predicate IsDigit(c: char) {
    '0' <= c <= '9'
  }

  predicate AllDigits(s: string) {
    forall i :: 0 <= i < |s| ==> IsDigit(s[i])
  }

  function DigitValue(c: char): nat
    requires IsDigit(c)
  {
    (c as int) - ('0' as int)
  }

  function DigitChar(d: nat): (c: char)
    requires d < 10
    ensures IsDigit(c) && DigitValue(c) == d
  {
    (('0' as int) + d) as char
  }

  /** The value of a digit string read in base 10, as `parseInt(s, 10)` reads
      it; the empty string has value 0 here. */
  function DecimalValue(s: string): nat
    requires AllDigits(s)
    decreases |s|
  {
    if |s| == 0 then 0 else 10 * DecimalValue(s[..|s| - 1]) + DigitValue(s[|s| - 1])
  }

  /** `s.replace(/\D/g, "")`: the digit characters of `s`, in order. */
  function OnlyDigits(s: string): (r: string)
    ensures AllDigits(r)
    ensures forall c :: c in r <==> c in s && IsDigit(c)
    ensures |r| <= |s|
  {
    Filter(IsDigit, s)
  }

  /** `s.replace(/^0+/, "")`: the run of leading '0' characters removed. */
  function StripLeadingZeros(s: string): (r: string)
    ensures |r| <= |s| && r == s[|s| - |r|..]
    ensures forall i :: 0 <= i < |s| - |r| ==> s[i] == '0'
    ensures |r| == 0 || r[0] != '0'
    decreases |s|
  {
    if |s| > 0 && s[0] == '0' then StripLeadingZeros(s[1..]) else s
  }

  /** Leading zeros do not change a decimal value. */
  lemma {:induction false} LeadingZerosIgnored(z: string, t: string)
    requires forall i :: 0 <= i < |z| ==> z[i] == '0'
    requires AllDigits(t)
    ensures AllDigits(z + t)
    ensures DecimalValue(z + t) == DecimalValue(t)
    decreases |t|
  {
    if |t| == 0 {
      assert z + t == z;
      ZerosHaveValueZero(z);
    } else {
      var t' := t[..|t| - 1];
      assert (z + t)[..|z + t| - 1] == z + t';
      LeadingZerosIgnored(z, t');
    }
  }

  lemma {:induction false} ZerosHaveValueZero(z: string)
    requires forall i :: 0 <= i < |z| ==> z[i] == '0'
    ensures AllDigits(z) && DecimalValue(z) == 0
    decreases |z|
  {
    if |z| > 0 {
      ZerosHaveValueZero(z[..|z| - 1]);
    }
  }

  /** The price and entry-fee input handler:
      `v = raw.replace(/^0+/, "").replace(/\D/g, ""); v ? parseInt(v, 10) : 0`.
      Its result is the decimal value of all the digit characters of the
      input, and 0 when the input has none. */
  function SanitizeNumeric(raw: string): (r: nat)
    ensures r == DecimalValue(OnlyDigits(raw))
    ensures OnlyDigits(raw) == [] ==> r == 0
  {
    var stripped := StripLeadingZeros(raw);
    var v := OnlyDigits(stripped);
    SanitizeIgnoresStrip(raw);
    if v == [] then 0 else DecimalValue(v)
  }

  lemma SanitizeIgnoresStrip(raw: string)
    ensures DecimalValue(OnlyDigits(StripLeadingZeros(raw))) == DecimalValue(OnlyDigits(raw))
  {
    var rest := StripLeadingZeros(raw);
    var z := raw[..|raw| - |rest|];
    assert raw == z + rest;
    ZerosSurviveDigitFilter(z, rest);
    LeadingZerosIgnored(z, OnlyDigits(rest));
  }

  /** A run of '0' characters passes the digit filter unchanged. */
  lemma ZerosSurviveDigitFilter(z: string, rest: string)
    requires forall i :: 0 <= i < |z| ==> z[i] == '0'
    ensures OnlyDigits(z + rest) == z + OnlyDigits(rest)
  {
    FilterConcat(IsDigit, z, rest);
    FilterAll(IsDigit, z);
  }

  /** The decimal rendering of a number (`${n}` in a template string). */
  function NatToDecimal(n: nat): (r: string)
    ensures |r| > 0 && AllDigits(r)
    ensures DecimalValue(r) == n
    ensures |r| > 1 ==> r[0] != '0'
    decreases n
  {
    if n < 10 then [DigitChar(n)]
    else
      var r := NatToDecimal(n / 10) + [DigitChar(n % 10)];
      assert r[..|r| - 1] == NatToDecimal(n / 10);
      r
  }

  /** A string of digits loses nothing to the digit filter. */
  lemma OnlyDigitsKeepsDigits(s: string)
    requires AllDigits(s)
    ensures OnlyDigits(s) == s
  {
    FilterAll(IsDigit, s);
  }

  /** How a numeric input shows its value: `value || ""`, so 0 shows as an
      empty field. */
  function NumericDisplay(n: nat): (r: string)
    ensures AllDigits(r)
    ensures r == "" <==> n == 0
  {
    if n == 0 then "" else NatToDecimal(n)
  }

  /** Reading back what a numeric input shows gives the value it holds. */
  lemma SanitizeDisplayRoundTrip(n: nat)
    ensures SanitizeNumeric(NumericDisplay(n)) == n
  {
    OnlyDigitsKeepsDigits(NumericDisplay(n));
  }

  // ---------------------------------------------------------------------
  // Whitespace and trimming

  /** The characters `String.prototype.trim` removes and the regular
      expression class `\s` matches: ECMAScript WhiteSpace and
      LineTerminator. */
  predicate IsSpace(c: char) {
    || c == ' ' || c == '\t' || c == '\n' || c == '\r'
    || c == '\U{000B}' || c == '\U{000C}' || c == '\U{00A0}' || c == '\U{1680}'
    || ('\U{2000}' <= c <= '\U{200A}')
    || c == '\U{2028}' || c == '\U{2029}' || c == '\U{202F}' || c == '\U{205F}'
    || c == '\U{3000}' || c == '\U{FEFF}'
  }

  /** The index of the first non-whitespace character at or after `i`
      (`|s|` when there is none). */
  function SkipSpaces(s: string, i: nat): (k: nat)
    requires i <= |s|
    ensures i <= k <= |s|
    ensures forall j :: i <= j < k ==> IsSpace(s[j])
    ensures k == |s| || !IsSpace(s[k])
    decreases |s| - i
  {
    if i < |s| && IsSpace(s[i]) then SkipSpaces(s, i + 1) else i
  }

  /** One past the last non-whitespace character of `s[lo..e]` (`lo` when
      there is none). */
  function SkipSpacesBack(s: string, lo: nat, e: nat): (k: nat)
    requires lo <= e <= |s|
    ensures lo <= k <= e
    ensures forall j :: k <= j < e ==> IsSpace(s[j])
    ensures k == lo || !IsSpace(s[k - 1])
    decreases e - lo
  {
    if e > lo && IsSpace(s[e - 1]) then SkipSpacesBack(s, lo, e - 1) else e
  }

  /** `s.trim()`: the longest slice of `s` that neither starts nor ends with
      whitespace, everything around it being whitespace. */
  function Trim(s: string): (r: string)
    ensures var k := SkipSpaces(s, 0);
            && k + |r| <= |s| && r == s[k..k + |r|]
            && (forall i :: 0 <= i < k ==> IsSpace(s[i]))
            && (forall i :: k + |r| <= i < |s| ==> IsSpace(s[i]))
    ensures |r| == 0 || (!IsSpace(r[0]) && !IsSpace(r[|r| - 1]))
  {
    var k := SkipSpaces(s, 0);
    s[k..SkipSpacesBack(s, k, |s|)]
  }

  /** Trimming a trimmed string changes nothing. */
  lemma TrimIdempotent(s: string)
    ensures Trim(Trim(s)) == Trim(s)
  {
    var t := Trim(s);
    if t != "" {
      assert SkipSpaces(t, 0) == 0;
      assert SkipSpacesBack(t, 0, |t|) == |t|;
      assert t[0..|t|] == t;
    }
  }

  /** A string trims to "" exactly when every character is whitespace, so
      `s.trim()` is truthy exactly when `s` has a non-space character. */
  lemma TrimEmptyIff(s: string)
    ensures Trim(s) == "" <==> forall i :: 0 <= i < |s| ==> IsSpace(s[i])
  {
    var r := Trim(s);
    var k := SkipSpaces(s, 0);
    if r != "" {
      assert s[k] == r[0];
    }
  }

  // ---------------------------------------------------------------------
  // Case and substrings

  function ToLowerChar(c: char): char {
    if 'A' <= c <= 'Z' then ((c as int) + 32) as char else c
  }

  /** `s.toLowerCase()` on the ASCII letters. */
  function ToLower(s: string): (r: string)
    ensures |r| == |s|
    ensures forall i :: 0 <= i < |r| ==> !('A' <= r[i] <= 'Z')
    ensures forall i :: 0 <= i < |s| && !('A' <= s[i] <= 'Z') ==> r[i] == s[i]
  {
    seq(|s|, i requires 0 <= i < |s| => ToLowerChar(s[i]))
  }

  /** `needle` occurs in `hay` starting at index `i`. */
  predicate OccursAt(hay: string, needle: string, i: int) {
    0 <= i <= |hay| - |needle| && hay[i..i + |needle|] == needle
  }

  /** `hay.includes(needle)`. */
  function Contains(hay: string, needle: string): bool
    decreases |hay|
  {
    if |needle| <= |hay| && hay[..|needle|] == needle then true
    else if |hay| == 0 then false
    else Contains(hay[1..], needle)
  }

  /** `Contains` holds exactly when the needle occurs at some index. */
  lemma {:induction false} ContainsIff(hay: string, needle: string)
    ensures Contains(hay, needle) <==> exists i :: OccursAt(hay, needle, i)
    decreases |hay|
  {
    if |needle| <= |hay| && hay[..|needle|] == needle {
      assert OccursAt(hay, needle, 0);
    } else if |hay| == 0 {
      assert forall i :: !OccursAt(hay, needle, i);
    } else {
      ContainsIff(hay[1..], needle);
      if exists i :: OccursAt(hay, needle, i) {
        var i :| OccursAt(hay, needle, i);
        assert i != 0;
        assert hay[1..][i - 1..i - 1 + |needle|] == hay[i..i + |needle|];
        assert OccursAt(hay[1..], needle, i - 1);
      }
      if exists j :: OccursAt(hay[1..], needle, j) {
        var j :| OccursAt(hay[1..], needle, j);
        assert hay[1..][j..j + |needle|] == hay[j + 1..j + 1 + |needle|];
        assert OccursAt(hay, needle, j + 1);
      }
    }
  }

  /** `s.split(sep).pop()`: the text after the last `sep`, or all of `s`
      when it has none. */
  function LastSegment(s: string, sep: char): (r: string)
    ensures sep !in r
    ensures |r| <= |s| && r == s[|s| - |r|..]
    ensures |r| < |s| ==> s[|s| - |r| - 1] == sep
    decreases |s|
  {
    if |s| == 0 then ""
    else if s[|s| - 1] == sep then ""
    else
      var init := s[..|s| - 1];
      var r := LastSegment(init, sep) + [s[|s| - 1]];
      assert r == s[|s| - |r|..];
      r
  }

  /** Whatever precedes the last separator does not affect the segment after
      it. */
  lemma LastSegmentAfterSep(a: string, sep: char, b: string)
    requires sep !in b
    ensures LastSegment(a + [sep] + b, sep) == b
  {
    var s := a + [sep] + b;
    assert s[|s| - |b| - 1] == sep;
    assert s[|s| - |b|..] == b;
  }
}

=== FILE: tournaments.dfy ===
/** The `tournaments` and `tournament_registrations` row shapes
    (src/hooks/useTournaments.ts). */
module Tournaments {
  import opened Wrappers

  datatype TournamentStatus = Upcoming | Ongoing | Completed | Cancelled

  datatype Tournament = Tournament(
    id: string,
    name: string,
    date: string,
    description: Option<string>,
    entryFee: Option<int>,
    prizePool: Option<string>,
    maxParticipants: Option<int>,
    status: TournamentStatus,
    createdAt: string,
    updatedAt: string)

  datatype TournamentRegistration = TournamentRegistration(
    id: string,
    tournamentId: string,
    playerName: string,
    phoneNumber: string,
    email: Option<string>,
    createdAt: string)

  /** `update({ status }).eq("id", id)`: the rows with that id get the
      status, every other row and every other field is unchanged. */
  function SetStatus(rows: seq<Tournament>, id: string, s: TournamentStatus): (r: seq<Tournament>)
    ensures |r| == |rows|
    ensures forall i :: 0 <= i < |rows| && rows[i].id == id ==> r[i] == rows[i].(status := s)
    ensures forall i :: 0 <= i < |rows| && rows[i].id != id ==> r[i] == rows[i]
  {
    seq(|rows|, i requires 0 <= i < |rows| => if rows[i].id == id then rows[i].(status := s) else rows[i])
  }
}

=== FILE: tournaments_section.dfy ===
/** Tournament registration on the public page
    (src/components/TournamentsSection.tsx): the registration schema, the
    input caps, the request actually sent, and the dialog's state around
    the submit. */
module TournamentsSection {
  import opened Wrappers
  import opened Text
  import opened Tournaments

  // ---------------------------------------------------------------------
  // The registration schema

  const NameRequired := "Player name is required"
  const NameTooLong := "Player name must be less than 100 characters"
  const InvalidPhone := "Please enter a valid phone number"
  const InvalidEmail := "Please enter a valid email address"

  /** A character of the phone pattern's class `[0-9\s()-]`. */
  predicate PhoneChar(c: char) {
    IsDigit(c) || IsSpace(c) || c == '(' || c == ')' || c == '-'
  }

  /** `[0-9\s()-]{7,20}` matching a whole string. */
  predicate PhoneBody(s: string) {
    7 <= |s| <= 20 && forall i :: 0 <= i < |s| ==> PhoneChar(s[i])
  }

  /** `^[+]?[0-9\s()-]{7,20}$`: the body alone, or a '+' followed by it. */
  predicate MatchesPhonePattern(s: string) {
    PhoneBody(s) || (|s| > 0 && s[0] == '+' && PhoneBody(s[1..]))
  }

  /** A matching number is 7 to 21 characters long, and a '+' can only be
      its first character. */
  lemma PhonePatternShape(s: string)
    requires MatchesPhonePattern(s)
    ensures 7 <= |s| <= 21
    ensures forall i :: 0 < i < |s| ==> s[i] != '+'
  {
    if !PhoneBody(s) {
      assert forall i :: 0 < i < |s| ==> s[i] == s[1..][i - 1];
    }
  }

  /** The schema's verdict on the trimmed name: required, at most 100
      characters. */
  function NameIssue(name: string): (r: Option<string>)
    ensures r.None? <==> 1 <= |Trim(name)| <= 100
    ensures r == Some(NameRequired) <==> Trim(name) == ""
    ensures r == Some(NameTooLong) <==> |Trim(name)| > 100
  {
    var n := Trim(name);
    if |n| < 1 then Some(NameRequired) else if |n| > 100 then Some(NameTooLong) else None
  }

  /** The schema's verdict on the trimmed phone number. */
  function PhoneIssue(phone: string): (r: Option<string>)
    ensures r.None? <==> MatchesPhonePattern(Trim(phone))
    ensures r.Some? ==> r.value == InvalidPhone
  {
    if MatchesPhonePattern(Trim(phone)) then None else Some(InvalidPhone)
  }

  /** The schema's verdict on the e-mail: an absent one is accepted, a
      present one must be an address once trimmed. `isEmail` stands for
      the schema library's e-mail check. */
  function EmailIssue(email: Option<string>, isEmail: string -> bool): (r: Option<string>)
    ensures r.None? <==> email.None? || isEmail(Trim(email.value))
    ensures r.Some? ==> r.value == InvalidEmail
  {
    if email.None? || isEmail(Trim(email.value)) then None else Some(InvalidEmail)
  }

  /** The per-field messages `safeParse` reports (the `validationErrors`
      record); None for a field without an issue. */
  datatype Errors = Errors(playerName: Option<string>, phoneNumber: Option<string>, email: Option<string>)

  const NoErrors := Errors(None, None, None)

  function Validate(name: string, phone: string, email: Option<string>, isEmail: string -> bool): (r: Errors)
    ensures r.playerName.None? <==> 1 <= |Trim(name)| <= 100
    ensures r.phoneNumber.None? <==> MatchesPhonePattern(Trim(phone))
    ensures r.email.None? <==> email.None? || isEmail(Trim(email.value))
  {
    Errors(NameIssue(name), PhoneIssue(phone), EmailIssue(email, isEmail))
  }

  /** The record's values in field order (`Object.values`). */
  function Messages(e: Errors): (r: seq<string>)
    ensures r == [] <==> e == NoErrors
    ensures e.playerName.Some? ==> r[0] == e.playerName.value
    ensures e.playerName.None? && e.phoneNumber.Some? ==> r[0] == e.phoneNumber.value
    ensures e.playerName.None? && e.phoneNumber.None? && e.email.Some? ==> r[0] == e.email.value
    ensures |r| <= 3
  {
    (if e.playerName.Some? then [e.playerName.value] else [])
    + (if e.phoneNumber.Some? then [e.phoneNumber.value] else [])
    + (if e.email.Some? then [e.email.value] else [])
  }

  /** `email || undefined`: the empty field counts as absent. */
  function EmailArgument(email: string): (r: Option<string>)
    ensures r.None? <==> email == ""
    ensures r.Some? ==> r.value == email
  {
    if email == "" then None else Some(email)
  }

  /** An empty e-mail field never produces an e-mail error. */
  lemma EmptyEmailAccepted(name: string, phone: string, isEmail: string -> bool)
    ensures Validate(name, phone, EmailArgument(""), isEmail).email.None?
  {
  }

  // ---------------------------------------------------------------------
  // Input caps

  /** `value.slice(0, n)`. */
  function Cap(s: string, n: nat): (r: string)
    ensures |r| <= n && |r| <= |s| && r == s[..|r|]
    ensures |s| <= n ==> r == s
  {
    if |s| <= n then s else s[..n]
  }

  /** A name typed through the capped input is never too long. */
  lemma CappedNameNeverTooLong(typed: string)
    ensures NameIssue(Cap(typed, 100)) != Some(NameTooLong)
  {
    var n := Cap(typed, 100);
    assert |Trim(n)| <= |n|;
  }

  // ---------------------------------------------------------------------
  // The dialog

  datatype Dialog = Dialog(
    selected: Option<Tournament>,
    playerName: string,
    phoneNumber: string,
    email: string,
    errors: Errors)

  const Closed := Dialog(None, "", "", "", NoErrors)

  /** The request sent for a valid form. */
  datatype RegistrationRequest = RegistrationRequest(
    tournamentId: string,
    playerName: string,
    phoneNumber: string,
    email: Option<string>)

  datatype Toast = Toast(title: string, description: string)

  datatype RegisterStep =
    | Ignored(dialog: Dialog)
    | Invalid(dialog: Dialog, toast: Toast)
    | Send(dialog: Dialog, req: RegistrationRequest)

  /** Name typed: capped at 100 characters. */
  function TypeName(d: Dialog, v: string): (r: Dialog)
    ensures |r.playerName| <= 100 && |r.playerName| <= |v| && r.playerName == v[..|r.playerName|]
    ensures |v| <= 100 ==> r.playerName == v
    ensures r.(playerName := d.playerName) == d
  {
    d.(playerName := Cap(v, 100))
  }

  /** Phone typed: capped at 20 characters. */
  function TypePhone(d: Dialog, v: string): (r: Dialog)
    ensures |r.phoneNumber| <= 20 && |r.phoneNumber| <= |v| && r.phoneNumber == v[..|r.phoneNumber|]
    ensures |v| <= 20 ==> r.phoneNumber == v
    ensures r.(phoneNumber := d.phoneNumber) == d
  {
    d.(phoneNumber := Cap(v, 20))
  }

  /** `handleRegister` up to the mutation. The errors are cleared first;
      without a selected tournament nothing else happens. An invalid form
      records one message per failing field and toasts the first. A valid
      one sends the trimmed name and phone and the trimmed e-mail, or
      null when that is empty. */
  function HandleRegister(d: Dialog, isEmail: string -> bool): (r: RegisterStep)
    ensures d.selected.None? <==> r.Ignored?
    ensures r.Ignored? ==> r.dialog == d.(errors := NoErrors)
    ensures r.Invalid? ==>
              && r.dialog == d.(errors := Validate(d.playerName, d.phoneNumber, EmailArgument(d.email), isEmail))
              && r.dialog.errors != NoErrors
              && r.toast == Toast("Validation Error", Messages(r.dialog.errors)[0])
    ensures r.Send? <==> d.selected.Some? && Validate(d.playerName, d.phoneNumber, EmailArgument(d.email), isEmail) == NoErrors
    ensures r.Send? ==>
              && r.dialog == d.(errors := NoErrors)
              && r.req.tournamentId == d.selected.value.id
              && r.req.playerName == Trim(d.playerName)
              && r.req.phoneNumber == Trim(d.phoneNumber)
              && (r.req.email.None? <==> Trim(d.email) == "")
              && (r.req.email.Some? ==> r.req.email.value == Trim(d.email))
  {
    if d.selected.None? then Ignored(d.(errors := NoErrors))
    else
      var errs := Validate(d.playerName, d.phoneNumber, EmailArgument(d.email), isEmail);
      if errs != NoErrors then
        Invalid(d.(errors := errs), Toast("Validation Error", Messages(errs)[0]))
      else
        var e := Trim(d.email);
        Send(d.(errors := NoErrors),
             RegistrationRequest(d.selected.value.id, Trim(d.playerName), Trim(d.phoneNumber),
                                 if e == "" then None else Some(e)))
  }

  /** What is sent passes the same schema again: its name and phone are
      already trimmed and valid, and its e-mail, if any, is an address. */
  lemma SentRequestIsValid(d: Dialog, isEmail: string -> bool)
    requires HandleRegister(d, isEmail).Send?
    ensures var req := HandleRegister(d, isEmail).req;
            Validate(req.playerName, req.phoneNumber, req.email, isEmail) == NoErrors
  {
    var req := HandleRegister(d, isEmail).req;
    TrimIdempotent(d.playerName);
    TrimIdempotent(d.phoneNumber);
    TrimIdempotent(d.email);
    if req.email.Some? {
      assert d.email != "";
    }
  }

  datatype SendOutcome = Registered | Failed(message: Option<string>)

  /** After the mutation: success toasts the tournament's name and clears
      the whole dialog; a failure keeps the form and toasts a validation
      error for a message containing "Invalid", a generic failure
      otherwise. */
  function AfterSend(d: Dialog, outcome: SendOutcome): (r: (Dialog, Toast))
    requires d.selected.Some?
    ensures outcome.Registered? ==> r.0 == Closed && r.1.title == "Registration Successful!"
    ensures outcome.Failed? ==> r.0 == d
    ensures outcome.Failed? ==>
              (r.1.title == "Validation Error" <==> exists i :: OccursAt(outcome.message.GetOr(""), "Invalid", i))
    ensures outcome.Failed? && r.1.title == "Validation Error" ==> r.1.description == outcome.message.GetOr("")
    ensures outcome.Failed? && r.1.title != "Validation Error" ==>
              r.1 == Toast("Registration Failed", "Something went wrong. Please try again.")
  {
    match outcome
    case Registered =>
      (Closed, Toast("Registration Successful!", "You have been registered for " + d.selected.value.name + "."))
    case Failed(m) =>
      var msg := m.GetOr("");
      ContainsIff(msg, "Invalid");
      if Contains(msg, "Invalid") then (d, Toast("Validation Error", msg))
      else (d, Toast("Registration Failed", "Something went wrong. Please try again."))
  }

  /** `handleClose`: everything cleared, whatever the state. */
  function HandleClose(d: Dialog): (r: Dialog)
    ensures r.selected.None? && r.playerName == "" && r.phoneNumber == "" && r.email == "" && r.errors == NoErrors
  {
    Closed
  }

  /** Closing and succeeding leave the dialog in the same state. */
  lemma CloseMatchesSuccess(d: Dialog)
    requires d.selected.Some?
    ensures HandleClose(d) == AfterSend(d, Registered).0
  {
  }
}

=== FILE: wrappers.dfy ===
/** Nullable database columns and `undefined` query results are modelled
    with this Option datatype. */
module Wrappers {

  datatype Option<+T> = None | Some(value: T) {

    /** The encapsulated value, or `default` when None (the `??` operator). */
    function GetOr(default: T): T {
      match this
      case Some(v) => v
      case None => default
    }
  }
}
